=== FILE: README.md ===
# Dragon Survival core, modelled in Dafny

This project models the game-logic core of Dragon Survival, a browser survival game in
TypeScript. The player is a dragon that moves on a grid. Waves of enemies spawn around it. Combat
exchanges damage. Kills drop essences that grant experience. Experience raises the level, and the
player spends points on stats and on skills with cooldowns and timed effects.

Every system of the core is one Dafny module. Each module keeps the source's state as an
immutable datatype, and every operation is a pure function from the old state to the new one. An
operation that notifies listeners or emits game events also returns those events, in order, as a
sequence.

Some inputs the source reads itself become parameters:

- the clock (`Date.now()`, `performance.now()`);
- every `Math.random()` draw;
- the input manager's direction, as seen by the movement system;
- the player position, as seen by the spawn systems;
- `Math.sqrt`, as a function `sqrt` with `Numeric.IsSqrt(sqrt)`.

Numbers are Dafny `real`s. `Math.round` is `Numeric.Round`, that is floor(x + 0.5). A JavaScript
`Map`, whose iteration order is insertion order, is an `OrderedMap.OMap`. A source operation that
throws, or that returns `undefined`/`null` for a missing entry, is an `Option` in the model.

Shared modules:

- `Wrappers`: the `Option` type.
- `Numeric`: rounding, min/max/clamp, and the square-root contract.
- `OrderedMap`: the insertion-ordered map.
- `Decimal`: decimal rendering of naturals, used for generated ids.
- `Stats`: the character stats record shared by the stat, calculator and effect modules.

## Model

| member | source | states |
|---|---|---|
| Vector2D.Add | src/utils/Vector2D.ts:14-16 | subtracting the second operand from the sum componentwise gives back the first |
| Vector2D.Subtract | src/utils/Vector2D.ts:21-23 | adding the second operand back to the difference gives the first |
| Vector2D.Multiply | src/utils/Vector2D.ts:28-30 | scaling by 1 is the identity and scaling by 0 gives the zero vector |
| Vector2D.SubtractZero | src/utils/Vector2D.ts:21-23 | the difference is the zero vector exactly when the two vectors are equal |
| Vector2D.MultiplyZero | src/utils/Vector2D.ts:28-30 | the zero vector stays zero under any scale |
| Vector2D.LengthSquared | src/utils/Vector2D.ts:44-46 | the quantity under the root is never negative, and is 0 for the zero vector |
| Vector2D.LengthSquaredZero | src/utils/Vector2D.ts:44-46 | the quantity under the root is 0 exactly for the zero vector |
| Vector2D.Length | src/utils/Vector2D.ts:44-46 | the length is non-negative and squares back to x² + y² |
| Vector2D.Normalize | src/utils/Vector2D.ts:35-39 | a zero-length vector normalizes to the zero vector; any other becomes a unit vector parallel to it and pointing the same way; the result is zero exactly when the input is |
| Vector2D.ScaledSameDirection | src/utils/Vector2D.ts:28-30 | a non-zero vector scaled by a positive factor is parallel to it with a positive dot product |
| Vector2D.NormalizeScales | src/utils/Vector2D.ts:35-39 | normalizing a non-zero vector scales it by some positive factor |
| Vector2D.MultiplyTwice | src/utils/Vector2D.ts:28-30 | scaling by j and then by k is scaling by j·k |
| Vector2D.UnitAfterDivision | src/utils/Vector2D.ts:35-39 | multiplying a vector by one over its length gives squared length 1 |
| Vector2D.ScaleLengthSquared | src/utils/Vector2D.ts:28-30 | scaling by k multiplies the squared length by k² |
| Vector2D.ToGrid | src/utils/Vector2D.ts:58-63 | each cell coordinate is the floor of the world coordinate over the grid size |
| Vector2D.ToGridFromGrid | src/utils/Vector2D.ts:58-73 | for a positive grid size, `toGrid` recovers the integer cell that `fromGrid` centred |
| Vector2D.ToGridExamples | src/utils/Vector2D.ts:58-73 | negative coordinates floor towards minus infinity: (-32, -48) at size 16 is cell (-2, -3); cell (2, 3) has centre (40, 56) |
| Vector2D.DotExample | src/utils/Vector2D.ts:51-53 | (1, 2)·(3, 4) = 11, and (2, 3) × 2 = (4, 6) |
| Vector2D.Dot | src/utils/Vector2D.ts:51-53 | the dot product with the zero vector is 0 |
| Vector2D.DotSymmetric | src/utils/Vector2D.ts:51-53 | the dot product is symmetric, and a vector dotted with itself is its squared length |
| Vector2D.FromGrid | src/utils/Vector2D.ts:68-73 | the centre of the cell, (g + 0.5)·size per axis, strictly inside the cell for a positive size |
| Vector2D.Lerp | src/utils/Vector2D.ts:88-94 | the parameter is clamped: t ≤ 0 gives the start, t ≥ 1 the target, and t = 0.5 the midpoint |
| Vector2D.Equals | src/utils/Vector2D.ts:99-101 | true exactly for equal vectors |
| Vector2D.IsZero | src/utils/Vector2D.ts:103-105 | true exactly for the zero vector |
| Vector2D.Distance | src/utils/Vector2D.ts:107-109 | non-negative, and its square is the squared length of the difference |
| Vector2D.DistanceSymmetric | src/utils/Vector2D.ts:107-109 | the distance from a to b equals the distance from b to a |
| Vector2D.AddSubtractInverse | src/utils/Vector2D.ts:14-23 | subtracting b undoes adding b |
| MovementSystem.Init | src/core/MovementSystem.ts:20-28 | a new system is at the origin with zero velocity, not moving, on the given grid |
| MovementSystem.HandleSnapping | src/core/MovementSystem.ts:59-66 | the position becomes its cell centre exactly when it is closer than 0.1 to it, otherwise nothing changes; velocity, moving flag and grid are kept |
| MovementSystem.HandleCollision | src/core/MovementSystem.ts:68-91 | a blocked move slides horizontally if that spot is walkable, else vertically if that one is, else stays; only the position changes |
| MovementSystem.SlideOrder | src/core/MovementSystem.ts:68-91 | the horizontal slide is preferred, the vertical slide is the fallback, and with nothing walkable the state is unchanged |
| MovementSystem.Update | src/core/MovementSystem.ts:30-57 | a non-zero direction sets the velocity to direction × 200, marks moving and advances by velocity × deltaTime; a zero direction stops and snaps |
| MovementSystem.NeverBlocked | src/core/MovementSystem.ts:44-53 | since every point of the shipped grid is walkable, a move always displaces by direction × 200 × deltaTime |
| MovementSystem.DistancePerFrame | src/core/MovementSystem.ts:30-57 | with a unit direction one frame covers exactly 200 × deltaTime |
| MovementSystem.SnapStable | src/core/MovementSystem.ts:54-66 | a player already on a cell centre stays there when idle |
| MovementSystem.NoSnapFromAfar | src/core/MovementSystem.ts:59-66 | idling at (10, 10) on a 32-unit grid does not jump to the centre (16, 16) |
| MovementSystem.SetVelocity | src/core/MovementSystem.ts:98-101 | for a non-zero input the velocity has length 200 and points the way the input does; a zero input gives zero velocity; moving exactly when the input is non-zero; the position is kept |
| MovementSystem.AtSpeed | src/core/MovementSystem.ts:99 | a normalized non-zero velocity times 200 has squared length 200² and keeps the input's direction; a zero input stays zero |
| MovementSystem.ScaledAtBaseSpeed | src/core/MovementSystem.ts:99 | normalizing and scaling by 200 points the way the input does |
| MovementSystem.MoveTowards | src/core/MovementSystem.ts:93-96 | the velocity has length 200 and points from the position towards the target, moving exactly when the target differs from the position, which is kept |
| MovementSystem.TowardsOffset | src/core/MovementSystem.ts:93-101 | normalizing the offset, then normalizing again and scaling by 200 in setVelocity, still points along the offset |
| MovementSystem.GetPosition | src/core/MovementSystem.ts:103-105 | the current position |
| MovementSystem.SetPosition | src/core/MovementSystem.ts:107-109 | the position reads back as set; velocity, moving flag and grid are kept |
| GridSystem.NewGrid | src/core/GridSystem.ts:13-16 | a new grid has the given cell size and no recorded cells |
| GridSystem.WorldToGrid | src/core/GridSystem.ts:21-26 | the cell is integral and is the floor of each coordinate over the cell size |
| GridSystem.GridToWorld | src/core/GridSystem.ts:31-36 | the world point lies half a cell beyond the cell's corner on each axis |
| GridSystem.WorldToGridOfCentre | src/core/GridSystem.ts:21-36 | converting an integral cell to its centre and back gives the same cell |
| GridSystem.SnapToGrid | src/core/GridSystem.ts:41-44 | the snapped point is the centre of the cell that holds the original point, and so lies in that same cell |
| GridSystem.SnapIdempotent | src/core/GridSystem.ts:41-44 | snapping twice is the same as snapping once |
| GridSystem.IsWalkable | src/core/GridSystem.ts:49-53 | every position is walkable |
| GridSystem.SetCell | src/core/GridSystem.ts:58-65 | the cell's entry is recorded under its coordinates with the given flag; every other entry and the cell size are kept |
| GridSystem.SetCellDoesNotBlock | src/core/GridSystem.ts:49-65 | a cell marked unwalkable is still reported walkable, because the walkability test ignores the recorded cells |
| GridSystem.WalkableSteps | src/core/GridSystem.ts:79-84 | every direction is kept, in order, and each step is the cell plus that direction |
| GridSystem.GetNeighbors | src/core/GridSystem.ts:70-87 | four neighbours, in the order right, left, down, up, each one step from the cell |
| GridSystem.GridExamples | src/core/GridSystem.ts:21-44 | on a 32-unit grid (50, 70) is cell (1, 2), whose centre is (48, 80); (31.9, 31.9) snaps to (16, 16) and (32.1, 32.1) to (48, 48) |
| CombatSystem.Init | src/core/CombatSystem.ts:47-55 | the four maps (stats, positions, last attack times, targets) start empty |
| CombatSystem.RegisterEntity | src/core/CombatSystem.ts:76-79 | the id's stats and position are set, overwriting earlier ones; attack times and targets are untouched |
| CombatSystem.UpdatePosition | src/core/CombatSystem.ts:81-83 | only the id's position changes, whether or not the id has stats |
| CombatSystem.SetTarget | src/core/CombatSystem.ts:85-87 | only the id's target changes, with no check that either id exists |
| CombatSystem.SetEntityTarget | src/core/CombatSystem.ts:230-234 | the target is recorded when both ids have stats; otherwise nothing changes |
| CombatSystem.ClearEntityTarget | src/core/CombatSystem.ts:237-239 | only the id's target entry is dropped |
| CombatSystem.RemoveEntity | src/core/CombatSystem.ts:209-214 | the id leaves all four maps and every other entry stays |
| CombatSystem.RemoveLeavesDanglingTarget | src/core/CombatSystem.ts:209-214 | unlike a death, a removal leaves another entity's target pointing at the removed id |
| CombatSystem.Merge | src/core/CombatSystem.ts:217-222 | in the spread merge, each field the patch carries replaces the current one and the other fields are kept |
| CombatSystem.UpdateEntityStats | src/core/CombatSystem.ts:217-222 | an existing entity gets the merged stats in its old place in the order; an unknown id changes nothing |
| CombatSystem.GetEntityStats | src/core/CombatSystem.ts:181-183 | the stored stats, or none for an unknown id |
| CombatSystem.GetEntityPosition | src/core/CombatSystem.ts:185-187 | the stored position, or none |
| CombatSystem.GetEntityTarget | src/core/CombatSystem.ts:189-191 | the stored target, or none; the same map that `getEntityTarget` at line 225 reads |
| CombatSystem.GetLastAttackTime | src/core/CombatSystem.ts:251-253 | the stored last attack time, or none |
| CombatSystem.HasEntity | src/core/CombatSystem.ts:204-206 | true exactly when the id has stats |
| CombatSystem.GetEntityCount | src/core/CombatSystem.ts:199-201 | the number of ids with stats |
| CombatSystem.NearestSpec | src/core/CombatSystem.ts:94-110 | the scan keeps a candidate that is in range and no farther than any in-range key; among equally near keys it keeps the first, because only a strictly nearer key replaces it; it finds nothing only when no key is in range |
| CombatSystem.Nearest | src/core/CombatSystem.ts:94-110 | the scan never loses a candidate once it has one, and a candidate it picks up is a scanned key other than the attacker, within range |
| CombatSystem.FindTarget | src/core/CombatSystem.ts:89-111 | nothing without the attacker's position and stats; otherwise nothing exactly when no other entity with a position is within range, else the nearest in-range entity, the earliest in insertion order among equals |
| CombatSystem.HandleDeath | src/core/CombatSystem.ts:159-179 | one death event naming the dead id; the id leaves the stats, position, attack time and target maps; every target entry naming it is dropped and the others are kept |
| CombatSystem.Untarget | src/core/CombatSystem.ts:174-178 | exactly the visited entries whose value is the dead id are deleted; surviving entries keep their values |
| CombatSystem.ApplyDamage | src/core/CombatSystem.ts:138-157 | an unknown target changes nothing; otherwise its health drops by the amount and a damage event is emitted, followed by the death handling when the health is now 0 or less |
| CombatSystem.PerformAttack | src/core/CombatSystem.ts:113-136 | an unknown source or target changes nothing and emits nothing |
| CombatSystem.AttackWounds | src/core/CombatSystem.ts:113-157 | a blow that leaves the target alive emits damage then attack, lowers the target's health by the source's damage, and records the source's attack time; nothing else changes |
| CombatSystem.AttackKills | src/core/CombatSystem.ts:113-179 | a killing blow emits damage, death, attack; the target leaves every map and every target entry naming it is dropped; then the source's attack time is recorded |
| CombatSystem.KillIsPurged | src/core/CombatSystem.ts:159-179 | after a killing blow no query sees the victim: no stats, no position, and no entity targets it |
| CombatSystem.Visit | src/core/CombatSystem.ts:59-73 | an entity attacks exactly when it is still registered, has a position, is past its cooldown of 1000 / attackSpeed ms since its last attack (0 if none), and finds a target; the attack is `performAttack` on that target |
| CombatSystem.Update | src/core/CombatSystem.ts:57-74 | a tick only ever removes entities, never adds them |
| CombatSystem.UpdateFrom | src/core/CombatSystem.ts:59-73 | visiting the snapshot of keys only ever removes entities |
| CombatSystem.QuietWhenNoneReady | src/core/CombatSystem.ts:63-65 | a tick in which no registered entity is past its cooldown changes nothing and emits nothing |
| CombatSystem.ScenarioStart | src/core/CombatSystem.ts:76-79 | registering a player and an enemy in a fresh system gives a well-formed state |
| CombatSystem.ScenarioTargets | src/core/CombatSystem.ts:89-111 | in the two-entity layout the player picks the enemy 50 away and the enemy, with reach 10, picks nobody |
| CombatSystem.PlayerHits | src/core/CombatSystem.ts:59-73 | at 1000 ms the player, never having attacked, hits the enemy from 15 down to 5 and records 1000 as its attack time |
| CombatSystem.EnemyIdles | src/core/CombatSystem.ts:59-73 | in that layout the enemy's visit does nothing |
| CombatSystem.FirstTick | src/core/CombatSystem.ts:57-74 | the first tick is the player's hit alone |
| CombatSystem.PlayerKills | src/core/CombatSystem.ts:59-73 | at 2000 ms the player's cooldown has passed and its blow kills the enemy, leaving only the player |
| CombatSystem.SecondTick | src/core/CombatSystem.ts:57-74 | the second tick is the player's killing blow alone, since the enemy is gone by its turn |
| CombatSystem.CombatScenario | src/core/CombatSystem.ts:57-179 | the two ticks of the scenario: damage then attack at 1000 ms, then damage, death and attack at 2000 ms, after which only the player remains |
| CooldownSystem.Init | src/core/CooldownSystem.ts:14-16 | no cooldowns at first |
| CooldownSystem.StartCooldown | src/core/CooldownSystem.ts:18-31 | the skill ends `duration` ms from now with that duration stored; every other skill is untouched; one start event carrying the duration twice |
| CooldownSystem.EndTime | src/core/CooldownSystem.ts:34-35 | a stored end time counts only when present and non-zero, as the truthiness test reads it |
| CooldownSystem.IsOnCooldown | src/core/CooldownSystem.ts:33-37 | on cooldown exactly when some time remains |
| CooldownSystem.GetRemainingTime | src/core/CooldownSystem.ts:39-43 | the time to the end time, never negative, and 0 without a cooldown |
| CooldownSystem.GetCooldownProgress | src/core/CooldownSystem.ts:45-50 | 1 without a stored (or with a zero) duration, otherwise one minus the remaining fraction of the duration |
| CooldownSystem.EventFor | src/core/CooldownSystem.ts:54-71 | the event for one entry names its skill and is an end event exactly when the end time has been reached |
| CooldownSystem.Update | src/core/CooldownSystem.ts:52-73 | one event per cooldown, in insertion order; exactly the cooldowns still running remain, with their end times and durations |
| CooldownSystem.UpdateFromEvents | src/core/CooldownSystem.ts:54-72 | dropping finished entries during the visit does not change the events of the entries still to come |
| CooldownSystem.UpdateFrom | src/core/CooldownSystem.ts:54-72 | the visit emits one event per remaining key, each naming its key, in order |
| CooldownSystem.UpdateFromState | src/core/CooldownSystem.ts:54-72 | after the visit exactly the running entries remain, unchanged |
| CooldownSystem.FinishKeepsOthers | src/core/CooldownSystem.ts:55-61 | dropping one finished cooldown leaves the event of every other cooldown as it was |
| CooldownSystem.Finish | src/core/CooldownSystem.ts:56-57 | the skill leaves both the end-time and the duration map |
| CooldownSystem.ReduceCooldown | src/core/CooldownSystem.ts:75-79 | an existing cooldown's end moves `amount` earlier; a skill without one is left alone |
| CooldownSystem.ResetCooldown | src/core/CooldownSystem.ts:81-84 | the skill leaves both maps |
| CooldownSystem.ResetAllCooldowns | src/core/CooldownSystem.ts:86-89 | both maps become empty |
| CooldownSystem.StartThenOnCooldown | src/core/CooldownSystem.ts:18-43 | right after a start the skill is on cooldown exactly when the duration is positive, with the whole duration remaining |
| CooldownSystem.CooldownExamples | src/core/CooldownSystem.ts:18-50 | a 1000 ms cooldown has 500 ms left and progress 0.5 halfway, and nothing left and progress 1 at its end |
| CooldownSystem.NoEventAfterEnd | src/core/CooldownSystem.ts:52-73 | once an update has emitted a skill's end event, a later update emits nothing about that skill |
| CooldownSystem.UpdateReportsRemaining | src/core/CooldownSystem.ts:62-70 | a running cooldown is reported with its exact remaining time and stored duration |
| WeightedDraw.ScanSpec | src/core/EnemySpawnSystem.ts:60-63 | the subtraction loop stops at the first entry whose running total of weights reaches the draw, and runs off the end exactly when no running total does |
| WeightedDraw.Scan | src/core/WaveSystem.ts:281-286 | the loop stops, if at all, at an index from its starting point on, inside the list |
| WeightedDraw.SelectIndex | src/core/EnemySpawnSystem.ts:57-63 | the draw is scaled by the total weight; the chosen entry is the first whose running total reaches it, and there is none exactly when every running total falls short |
| WeightedDraw.SelectedBand | src/core/EnemySpawnSystem.ts:57-63 | with non-negative weights, entry i is chosen exactly when the scaled draw lies in its band (total before i, total through i], so each type is drawn in proportion to its weight |
| WeightedDraw.FallbackUnreachable | src/core/EnemySpawnSystem.ts:57-65 | with non-negative weights and a draw in [0, 1] some entry is always chosen, so the fallback to the first type is never reached |
| WeightedDraw.ZeroDrawTakesFirst | src/core/EnemySpawnSystem.ts:57-63 | a zero draw picks the first entry, even one of weight 0 |
| WeightedDraw.PrefixMonotone | src/core/EnemySpawnSystem.ts:57 | with non-negative weights a longer running total is never smaller |
| PerformanceMonitor.Init | src/core/PerformanceMonitor.ts:2-4 | no frame times and a last frame time of 0 |
| PerformanceMonitor.Window | src/core/PerformanceMonitor.ts:11-14 | the window never holds more than 60 samples |
| PerformanceMonitor.Update | src/core/PerformanceMonitor.ts:6-15 | the time since the last update is appended and the clock reading is kept; once 60 samples are held, the oldest is dropped |
| PerformanceMonitor.UpdateKeepsWindow | src/core/PerformanceMonitor.ts:6-15 | the history is always the last 60 (or fewer) of all frame times ever recorded |
| PerformanceMonitor.GetAverageFPS | src/core/PerformanceMonitor.ts:17-20 | a finite rate exists exactly when there are samples with a non-zero total, and then the rate times the total is 1000 times the sample count |
| PerformanceMonitor.ShouldThrottle | src/core/PerformanceMonitor.ts:22-24 | throttle exactly when there are samples and either their total is negative or the average frame time exceeds 1000/30 ms; an undefined or infinite rate never throttles |
| PerformanceMonitor.RateBelow | src/core/PerformanceMonitor.ts:17-24 | a rate below 30 is the same as a negative total or an average frame time above 1000/30 ms |
| PerformanceMonitor.SumConstant | src/core/PerformanceMonitor.ts:18 | the total of n equal samples is n times the sample |
| PerformanceMonitor.SteadyRate | src/core/PerformanceMonitor.ts:17-24 | a window of identical frame times throttles exactly when that frame time is negative or above 1000/30 ms |
| PerformanceMonitor.FirstSampleIsClock | src/core/PerformanceMonitor.ts:4-15 | because the last frame time starts at 0, the first sample is the raw clock reading, so a clock above 33.3 ms makes the first frame throttle |
| PerformanceMonitor.EmptyNeverThrottles | src/core/PerformanceMonitor.ts:17-24 | with no samples the rate is undefined and there is no throttling |
| EnemySpawnSystem.Init | src/core/EnemySpawnSystem.ts:31-44 | the pool starts with 100 copies of the base enemy, next to a fresh performance monitor |
| EnemySpawnSystem.GetFromPool | src/core/EnemySpawnSystem.ts:46-48 | the most recently pooled descriptor is taken from the end, or nothing from an empty pool |
| EnemySpawnSystem.ReturnToPool | src/core/EnemySpawnSystem.ts:50-54 | the descriptor goes back on the end unless the pool already holds 100 |
| EnemySpawnSystem.GetReturnRoundTrip | src/core/EnemySpawnSystem.ts:46-54 | taking a descriptor and returning it restores the pool |
| EnemySpawnSystem.ReturnBounded | src/core/EnemySpawnSystem.ts:50-54 | the pool never exceeds 100, and a return undoes one hand-out while any are out |
| EnemySpawnSystem.GetActiveEnemyCount | src/core/EnemySpawnSystem.ts:120-122 | the active count and the pool size add up to 100, and the count stays within [0, 100] |
| EnemySpawnSystem.GetPoolSize | src/core/EnemySpawnSystem.ts:124-126 | the number of pooled descriptors |
| EnemySpawnSystem.SelectEnemyType | src/core/EnemySpawnSystem.ts:56-66 | the type at the index the weighted walk stops at, else the first type; an empty list, where the source throws, gives none |
| EnemySpawnSystem.SelectsByBand | src/core/EnemySpawnSystem.ts:56-66 | with non-negative weights, a type is chosen whenever the scaled draw falls in its band of running weight totals |
| EnemySpawnSystem.GetMaxEnemies | src/core/EnemySpawnSystem.ts:97-99 | the floor of 10 plus twice the wave number |
| EnemySpawnSystem.ConfigureEnemy | src/core/EnemySpawnSystem.ts:101-108 | the descriptor gets the spawn point, health 100 + 10 per wave and damage 10 + 0.5 per wave; its id, type and speed are kept |
| EnemySpawnSystem.Update | src/core/EnemySpawnSystem.ts:68-91 | the monitor records the frame and, when it throttles, the interval grows by half; before the interval has passed, or at the enemy cap, nothing spawns; otherwise the last spawn time becomes now and the last pooled descriptor, if any, is configured and handed out |
| EnemySpawnSystem.UpdateCountsActive | src/core/EnemySpawnSystem.ts:68-91 | handing out an enemy raises the active count by one; otherwise the count is unchanged |
| EnemySpawnSystem.IntervalNeverShrinks | src/core/EnemySpawnSystem.ts:72-74 | a non-negative interval never shrinks, and grows by half under load |
| EnemySpawnSystem.RespectsInterval | src/core/EnemySpawnSystem.ts:76-79 | before the interval has passed nothing spawns and the last spawn time is kept |
| EnemySpawnSystem.LimitsEnemyCount | src/core/EnemySpawnSystem.ts:81-99 | with 100 live enemies in wave 1, above its cap of 12, nothing spawns |
| EnemySpawnSystem.SpawnsScaledEnemy | src/core/EnemySpawnSystem.ts:68-108 | a fresh spawner, once the interval has passed even when inflated, hands out a basic enemy with health 110 in wave 1 or 120 in wave 2, leaving one active |
| EnemySpawnSystem.EmptyPoolStillResetsClock | src/core/EnemySpawnSystem.ts:81-90 | with the pool exhausted a due update still moves the last spawn time to now but yields nothing |
| EnemyConfig.ParseType | src/core/EnemyConfig.ts:1 | a recognised name is the name of the type it parses to |
| EnemyConfig.ParseTypeName | src/core/EnemyConfig.ts:1 | every type's name parses back to that type, so the table is keyed by exactly the five names |
| EnemyConfig.Config | src/core/EnemyConfig.ts:15-71 | every type has positive health, damage, attack speed, range, move speed and size |
| EnemyConfig.Behavior | src/core/EnemyConfig.ts:74-105 | only the boss attacks an area, only the ranged type attacks from afar, and only the basic type has no special abilities |
| EnemyConfig.Drops | src/core/EnemyConfig.ts:108-140 | every drop rate lies in (0, 1] with at least one drop, and only the boss drops boss essence |
| EnemyConfig.BossDominates | src/core/EnemyConfig.ts:15-140 | the boss has more health and damage than any other type, and only the boss always drops and drops the most |
| EnemyConfig.TradeOffs | src/core/EnemyConfig.ts:15-71 | among the non-boss types the fast one is quickest and frailest, the tank slowest, and the ranged one has the longest reach |
| EssenceSystem.Config | src/core/EssenceSystem.ts:24-61 | each table row describes its own essence type |
| EssenceSystem.Init | src/core/EssenceSystem.ts:82-83 | no essences and the id counter at 0 |
| EssenceSystem.GetExpValue | src/core/EssenceSystem.ts:163-170 | small, medium and large essences carry their table experience; a boss essence carries 100, half the table's 200 |
| EssenceSystem.FreshId | src/core/EssenceSystem.ts:110 | the counter's next id is never already in use |
| EssenceSystem.SpawnEssence | src/core/EssenceSystem.ts:108-130 | a new essence `essence_<n>` with the type's experience, duration and radius and spawn time now is appended under a fresh id; the counter advances; one spawn event |
| EssenceSystem.SpawnIdsDiffer | src/core/EssenceSystem.ts:108-130 | two spawns in a row get different ids and both essences are stored |
| EssenceSystem.FirstIds | src/core/EssenceSystem.ts:110 | the first two ids are `essence_0` and `essence_1` |
| EssenceSystem.RemoveEssence | src/core/EssenceSystem.ts:149-161 | an unknown id changes nothing; otherwise the essence leaves with one event, which carries its experience for a collection and 0 for an expiry |
| EssenceSystem.CollectEssence | src/core/EssenceSystem.ts:132-147 | an unknown id changes nothing; otherwise the essence leaves and two collect events carry its experience, one from the collection and one from the removal |
| EssenceSystem.CollectIdempotent | src/core/EssenceSystem.ts:132-134 | collecting the same id a second time changes nothing and emits nothing |
| EssenceSystem.Visit | src/core/EssenceSystem.ts:93-105 | an essence past its lifetime expires; otherwise it is collected when the player has a position strictly within its pickup radius; otherwise nothing happens |
| EssenceSystem.ExpiryBeatsCollection | src/core/EssenceSystem.ts:95-104 | an expired essence only ever expires, with 0 experience, even within the player's reach |
| EssenceSystem.LifetimeScaledTwice | src/core/EssenceSystem.ts:95 | the lifetime, already in ms, is multiplied by 1000 again, so a small essence lasts 10,000 seconds rather than 10 |
| EssenceSystem.Update | src/core/EssenceSystem.ts:89-106 | a tick keeps the store well formed, leaves the id counter alone, emits, in insertion order, each stored essence's events as it stood before the tick, and leaves exactly the stored essences neither expired nor within the player's reach, unchanged |
| EssenceSystem.UpdateFrom | src/core/EssenceSystem.ts:93-105 | the visit keeps the store well formed and leaves the id counter alone; over distinct keys its events are each key's events judged on the store before the pass, concatenated in key order |
| EssenceSystem.TickEventsWithout | src/core/EssenceSystem.ts:93-105 | removing an essence the remaining keys do not name leaves their events unchanged, which is why deleting during the visit does not disturb later keys |
| EssenceSystem.UpdateExpiries | src/core/EssenceSystem.ts:95-98 | a tick reports an expire event with 0 experience for exactly the stored essences past their lifetime, and never a spawn |
| EssenceSystem.UpdateCollections | src/core/EssenceSystem.ts:100-104 | a tick reports collect events with their experience for exactly the stored essences still live and strictly within the player's reach |
| EssenceSystem.UpdateFromSurvivors | src/core/EssenceSystem.ts:93-105 | after visiting the keys, exactly the unvisited essences and the visited ones neither expired nor reached remain, unchanged |
| EssenceSystem.UpdateLeavesOnlyLive | src/core/EssenceSystem.ts:89-106 | after a tick no stored essence has expired or lies within the player's reach |
| EssenceSystem.GetEssencesInRange | src/core/EssenceSystem.ts:173-184 | exactly the stored essences with a positive lifetime whose distance from the point is at most the radius, each once, in insertion order |
| EssenceSystem.InRangeFrom | src/core/EssenceSystem.ts:174-183 | the filter keeps exactly the listed essences that pass the test, never more than it was given, and for distinct keys naming their own essences each match once in key order |
| EssenceSystem.InRangeOrder | src/core/EssenceSystem.ts:174 | a kept head essence precedes every match of the later keys and differs from all of them |
| EssenceSystem.SingleMatch | src/core/EssenceSystem.ts:173-184 | when one stored essence alone passes the query, the answer is exactly that essence |
| EssenceSystem.ClearAllEssences | src/core/EssenceSystem.ts:187-189 | the store empties with no events, and the id counter keeps counting |
| ExperienceSource.ExperienceSources | src/core/ExperienceSource.ts:19-62 | every listed source is filed under its own id |
| ExperienceSource.Init | src/core/ExperienceSource.ts:64-71 | no grant times, no daily counts, and the last reset at construction time |
| ExperienceSource.Lookup | src/core/ExperienceSource.ts:84 | a stored value, with a missing entry or 0 read as 0, as `get(id) \|\| 0` does |
| ExperienceSource.CanGainExperience | src/core/ExperienceSource.ts:73-99 | false for an unknown source; otherwise true exactly when no truthy level requirement exceeds the level, no truthy cooldown is still running since the last grant, and no truthy daily cap is reached |
| ExperienceSource.LevelRequirementGates | src/core/ExperienceSource.ts:73-80 | exploring a new area pays only from level 5, and an unknown source never pays |
| ExperienceSource.BossCooldown | src/core/ExperienceSource.ts:82-88 | a recorded boss kill blocks the next one for exactly one hour |
| ExperienceSource.DailyCap | src/core/ExperienceSource.ts:90-96 | the weekly quest is capped at one grant a day, and the next day's reset lifts the cap |
| ExperienceSource.CheckingDoesNotReset | src/core/ExperienceSource.ts:90-96 | a reached daily cap blocks every check, since checking never resets the count |
| ExperienceSource.LevelFactor | src/core/ExperienceSource.ts:109 | the kill factor is 1 up to level 10, falls by 0.1 per level above 10, and is 0.1 from level 19 on |
| ExperienceSource.LevelFactorNonIncreasing | src/core/ExperienceSource.ts:109 | the kill factor never grows with the level |
| ExperienceSource.CalculateExperience | src/core/ExperienceSource.ts:101-118 | 0 for an unknown source; otherwise the base experience, times the level factor for kills and the multiplier when truthy, rounded to the nearest integer |
| ExperienceSource.KillRewardNonIncreasing | src/core/ExperienceSource.ts:101-118 | a kill never pays more at a higher level |
| ExperienceSource.KillExactNonIncreasing | src/core/ExperienceSource.ts:105-115 | the unrounded kill reward never grows with the level |
| ExperienceSource.RewardExamples | src/core/ExperienceSource.ts:101-118 | a normal kill pays 10 at level 1, 5 at level 15 and 1 at level 25; an elite kill pays 60, a boss kill 300, a daily quest 100 at any level, and an unknown source 0 |
| ExperienceSource.CheckDayReset | src/core/ExperienceSource.ts:136-144 | the daily counts clear and the reset time becomes now exactly when the last reset was before the given midnight |
| ExperienceSource.RecordExperienceGain | src/core/ExperienceSource.ts:120-134 | after the day-reset check, a known source gets now as its last grant time and, when it has a truthy daily cap, its daily count goes up by one; an unknown source records nothing |
| ExperienceSystem.Init | src/core/ExperienceSystem.ts:15-22 | the wallet starts at 0 next to a valid level system |
| ExperienceSystem.GainExperience | src/core/ExperienceSystem.ts:24-38 | a non-positive amount is ignored and the level system is not called; otherwise the wallet and the level system both grow by the amount, the level system reports its own events, and one expGain event carries the amount, the new total and the source |
| ExperienceSystem.LoseExperience | src/core/ExperienceSystem.ts:40-54 | a non-positive amount is ignored; otherwise at most the current total is taken, one expLoss event reports what was actually lost, and the level system is left alone |
| ExperienceSystem.LossExample | src/core/ExperienceSystem.ts:40-54 | taking 50 from 30 leaves 0 and reports a loss of 30 |
| ExperienceSystem.LossThenGainRestores | src/core/ExperienceSystem.ts:24-54 | a covered loss followed by an equal gain restores the wallet |
| ExperienceSystem.LossDesynchronises | src/core/ExperienceSystem.ts:40-54 | after a loss the level system's total stays above the wallet, because losses are never passed on |
| ExperienceSystem.GetExpToNextLevel | src/core/ExperienceSystem.ts:60-62 | the width of the level system's current band, or 0 without a next level |
| ExperienceSystem.GetExpProgress | src/core/ExperienceSystem.ts:64-66 | exactly the level system's progress, measured on the level system's own total rather than the wallet, a fraction in [0, 1] |
| LevelSystem.Init | src/core/LevelSystem.ts:50-53 | level 1 with no experience and no unspent points |
| LevelSystem.GetNextLevel | src/core/LevelSystem.ts:107-110 | the table entry at index `level`, the one after the current level's, or none past the table's end |
| LevelSystem.GetCurrentLevelConfig | src/core/LevelSystem.ts:63-65 | the table entry of the current level |
| LevelSystem.IsMaxLevel | src/core/LevelSystem.ts:154-156 | true exactly from level 60 on |
| LevelSystem.Promote | src/core/LevelSystem.ts:93-105 | the level becomes the entry's level, its skill and stat rewards are added to the unspent points, and one levelUp event carries the level and rewards |
| LevelSystem.LoopBreaksAfterPromotion | src/core/LevelSystem.ts:86-90 | with the shipped table there is no entry after a promotion, so the loop always breaks after one promotion |
| LevelSystem.CheckLevelUp | src/core/LevelSystem.ts:82-91 | the level stays one the table names and the point counters stay non-negative |
| LevelSystem.AddExperience | src/core/LevelSystem.ts:67-80 | a non-positive amount is ignored; otherwise the experience grows by the amount and an expGain event with the new total comes first, followed by a single promotion exactly when a next entry exists and the new total reaches its requirement |
| LevelSystem.AddExperienceAssociative | src/core/LevelSystem.ts:67-91 | granting a then b reaches the same state as granting a + b at once |
| LevelSystem.PromotionThreshold | src/core/LevelSystem.ts:27-46 | from level 1, 150 and 249 experience keep level 1 while 250 reaches level 2 with 1 skill point and 3 stat points |
| LevelSystem.LastLevelIsFinal | src/core/LevelSystem.ts:82-91 | at the table's last level no grant promotes, and a grant emits at most its expGain event |
| LevelSystem.GetExpProgress | src/core/LevelSystem.ts:112-124 | 1 at the maximum level or without a next entry; otherwise the position of the experience within the current band, clamped to [0, 1] |
| LevelSystem.GetExpToNextLevel | src/core/LevelSystem.ts:146-152 | the width of the current band, or 0 without a next entry |
| LevelSystem.ProgressExamples | src/core/LevelSystem.ts:112-152 | at level 1 the band is 150 wide, 175 experience is half-way and 0 experience is 0; at level 2 progress is full and nothing remains to the next level |
| LevelSystem.UseSkillPoint | src/core/LevelSystem.ts:134-138 | succeeds exactly when a skill point is unspent, spending one; otherwise nothing changes |
| LevelSystem.UseStatPoint | src/core/LevelSystem.ts:140-144 | succeeds exactly when a stat point is unspent, spending one; otherwise nothing changes |
| LevelSystem.NoPointsToSpend | src/core/LevelSystem.ts:134-144 | a fresh level system has no point of either kind to spend |
| InputManager.Init | src/core/InputManager.ts:24-31 | no keys held, a zero direction and no listeners |
| InputManager.LowerChar | src/core/InputManager.ts:46 | an ASCII upper-case letter becomes its lower-case letter and every other character is kept |
| InputManager.Lower | src/core/InputManager.ts:46 | `toLowerCase` on ASCII: same length, no upper-case letter left, other characters kept in place |
| InputManager.LowerIdempotent | src/core/InputManager.ts:46 | lower-casing twice is lower-casing once |
| InputManager.Held | src/core/InputManager.ts:60-63 | 1 when either the letter key or its arrow key is held, 0 otherwise |
| InputManager.RawX | src/core/InputManager.ts:62-63 | -1 for left alone, 1 for right alone, 0 for neither or both |
| InputManager.RawY | src/core/InputManager.ts:60-61 | -1 for up alone, 1 for down alone, 0 for neither or both |
| InputManager.OppositeKeysCancel | src/core/InputManager.ts:60-63 | holding opposite keys cancels that axis |
| InputManager.MoveDirection | src/core/InputManager.ts:55-73 | zero exactly when both axes cancel or are idle; otherwise a unit vector whose components have the signs of the raw axes |
| InputManager.AxisMove | src/core/InputManager.ts:66-72 | a move along one axis is the raw unit step, untouched by the normalization |
| InputManager.DiagonalHalf | src/core/InputManager.ts:66-72 | a diagonal move has each component squared equal to 1/2 |
| InputManager.HandleKeyDown | src/core/InputManager.ts:45-48 | the lower-cased key joins the held keys and the direction is recomputed; the listeners are untouched |
| InputManager.HandleKeyUp | src/core/InputManager.ts:50-53 | the lower-cased key leaves the held keys and the direction is recomputed; the listeners are untouched |
| InputManager.InitConsistent | src/core/InputManager.ts:24-31 | the initial direction agrees with the (empty) held keys |
| InputManager.KeyDownUpRestores | src/core/InputManager.ts:45-53 | pressing and releasing a key that was not held restores the state |
| InputManager.UpperCaseKey | src/core/InputManager.ts:45-73 | pressing "W" (upper case) from rest moves up, direction (0, -1) |
| InputManager.GetMoveDirection | src/core/InputManager.ts:75-77 | the stored direction |
| InputManager.IsKeyPressed | src/core/InputManager.ts:79-81 | true exactly when the lower-cased key is held |
| InputManager.CaseInsensitive | src/core/InputManager.ts:79-81 | asking with any case gives the same answer |
| InputManager.PressedAfterKeyDown | src/core/InputManager.ts:45-81 | a key reads as pressed, in any case, after its key-down and as released after its key-up |
| InputManager.AddEventListener | src/core/InputManager.ts:83-88 | the listener joins the set for its event type; other types, the keys and the direction are untouched |
| InputManager.RemoveEventListener | src/core/InputManager.ts:90-92 | the listener leaves the set for its event type; other types, the keys and the direction are untouched |
| InputManager.ClearListeners | src/core/InputManager.ts:98-100 | no event type has listeners any more; the keys and the direction are untouched |
| SkillEffect.Id | src/core/skills/SkillEffects.ts:38-74 | a knockback or defence buff carries the id it was built with |
| SkillEffect.Duration | src/core/skills/SkillEffects.ts:6-74 | burning lasts 5000 ms (both versions), a strength buff 10000 ms, a defence buff its own duration, and a knockback has none |
| SkillEffect.Stacks | src/core/skills/SkillEffects.ts:11 | only the burning effect of the skills directory has a stack count |
| SkillEffect.DefaultShapes | src/core/skills/SkillEffects.ts:6-74 | the default burning effect lasts 5000 ms with one stack; the default defence buff is `defenseBuff` for 10000 ms; the default knockback is `knockback` with no duration |
| SkillEffect.ModifyStats | src/core/SkillEffect.ts:31-52 | a strength buff multiplies damage by 1.2, a defence buff adds its bonus to defence, and no other stat changes |
| SkillEffect.IdentityModifiers | src/core/skills/SkillEffects.ts:15-48 | the stat hooks of both burning effects and of the knockback return the stats unchanged |
| SkillEffect.ModifyDamage | src/core/skills/SkillEffects.ts:83-88 | only the defence buff has the hook; it raises the damage reduction by 0.1, capped at 0.75, and keeps the damage and critical flag |
| SkillEffect.BuffExamples | src/core/skills/SkillEffects.ts:76-88 | a strength buff turns damage 10 into 12, and the default defence buff turns defence 5 into 25 and a reduction of 0.7 into 0.75 |
| SkillEffect.OnTick | src/core/skills/SkillEffects.ts:25-28 | only the burning effect of the skills directory deals tick damage: 5% of the target's health per stack |
| SkillEffect.BurningExamples | src/core/skills/SkillEffects.ts:25-28 | on 100 health one stack burns 5 and two stacks burn 10; the stub burning effect deals nothing |
| SkillEffect.OnApply | src/core/skills/SkillEffects.ts:50-63 | a knockback whose target stands apart from its source sets the velocity to the offset from the source scaled by force over distance, of length force and, for a positive force, pointing away from the source; at the source the target is unchanged; every other effect leaves the target alone |
| SkillEffect.KnockbackLength | src/core/skills/SkillEffects.ts:55-61 | the knockback velocity is the offset scaled by force over distance, and its length is the force |
| SkillEffect.KnockbackAway | src/core/skills/SkillEffects.ts:51-61 | a positive force pushes along the offset from the source, i.e. away from it |
| SkillEffect.Hooked | src/core/SkillSystem.ts:113-115 | running the apply hooks in turn never changes the target's id, stats, position or source, and without a knockback leaves the target as it was |
| SkillSystem.Init | src/core/SkillSystem.ts:42-65 | no unlocked skills, no active effects, and a fresh cooldown system |
| SkillSystem.AnyUnlocked | src/core/SkillSystem.ts:74-76 | true exactly when some listed skill is unlocked |
| SkillSystem.CanUnlockSkill | src/core/SkillSystem.ts:67-80 | only a catalogued skill that is not yet unlocked qualifies; one with a tree entry needs any skill of its entry unlocked, and one without needs nothing |
| SkillSystem.BasicAttackChain | src/core/SkillSystem.ts:46-80 | read as written, the tree makes basicAttack wait for powerStrike or quickSlash and powerStrike wait for heavyBlow or whirlwind, while whirlwind unlocks at once |
| SkillSystem.UnlockSkill | src/core/SkillSystem.ts:82-88 | succeeds exactly when the skill can be unlocked, storing the catalogue record at level 1; otherwise nothing changes |
| SkillSystem.UpgradeSkill | src/core/SkillSystem.ts:90-96 | succeeds exactly for an unlocked skill below its cap, raising its level by one; otherwise nothing changes; levels never pass their caps |
| SkillSystem.CanUseSkill | src/core/SkillSystem.ts:98-104 | true exactly for an unlocked skill with no time left on its cooldown |
| SkillSystem.ApplyEffect | src/core/SkillSystem.ts:152-166 | the effect joins the target's set, other targets' sets are unchanged, no effect is lost, and the target returned is the one the effect's apply hook produces |
| SkillSystem.ApplyEffects | src/core/SkillSystem.ts:113-115 | every effect of the skill joins the target's set, with no other target's set changed, and the target is the result of the apply hooks run in list order |
| SkillSystem.UseSkill | src/core/SkillSystem.ts:106-130 | succeeds exactly when the skill can be used; then its effects are applied, its cooldown ends after its base cooldown, and one skillUse event carries that cooldown and the target as the hooks left it; otherwise nothing changes and nothing is emitted |
| SkillSystem.UseRefusedOnCooldown | src/core/SkillSystem.ts:98-118 | a skill just used is refused, with no change, until its cooldown has run |
| SkillSystem.RemoveEffect | src/core/SkillSystem.ts:168-176 | the effect leaves the target's set when the target has one, and the emptied set stays; a target without a set is left alone |
| SkillSystem.RemoveEffectIdempotent | src/core/SkillSystem.ts:168-176 | removing an effect twice is removing it once |
| SkillSystem.GetActiveEffects | src/core/SkillSystem.ts:179-181 | the target's effects, or none |
| SkillSystem.ReadyEvents | src/core/SkillSystem.ts:57-64 | one skillReady event for each cooldown end event, naming the same skill |
| SkillSystem.Update | src/core/SkillSystem.ts:148-150 | the cooldowns advance, and a skillReady event is emitted exactly for each skill whose cooldown ended; skills and effects are untouched |
| SkillSystem.GetSkillCooldown | src/core/SkillSystem.ts:132-134 | the time left on the skill's cooldown, positive exactly while it runs, and 0 when none was started |
| SkillSystem.GetSkillCooldownProgress | src/core/SkillSystem.ts:136-138 | 1 without a stored duration, otherwise the elapsed fraction of the duration |
| SkillSystem.ReduceCooldown | src/core/SkillSystem.ts:140-142 | a running cooldown ends `amount` earlier; without one nothing changes |
| SkillSystem.ResetCooldown | src/core/SkillSystem.ts:144-146 | no time is left on the skill's cooldown at any moment afterwards |
| SkillLibrary.Library | src/core/skills/SkillLibrary.ts:1-130 | a skill is catalogued exactly when one of the three trees lists it, under its own id |
| SkillLibrary.CatalogueWellFormed | src/core/skills/SkillLibrary.ts:1-130 | every entry is keyed by its id, starts at level 1 under a cap of at least 1 with a non-negative cooldown, and the three trees share no id |
| SkillLibrary.BreathScalingIncreasing | src/core/skills/SkillLibrary.ts:4-30 | basic breath damage and range grow strictly with the level |
| SkillLibrary.ScalingValues | src/core/skills/SkillLibrary.ts:60-130 | wing slash knockback is 50 + 10 per level, scale armour gives 5 defence and 20 health per level, and reflection runs from 0.15 at level 1 to 0.35 at level 5 |
| SkillLibrary.PassiveSkillsHaveNoCooldown | src/core/skills/SkillLibrary.ts:88-130 | the two scale skills have no cooldown |
| SkillLibrary.RequirementsNotEnforced | src/core/SkillSystem.ts:67-80 | no library id has a skill-tree entry, so every library skill unlocks from a fresh state, whatever its stated requirements |
| StatCalculator.CalculateDamage | src/core/StatCalculator.ts:11-36 | the hit is critical exactly when the draw is below the crit chance; the reduction is defence over defence plus 100; the result is the nearest whole number to the reduced damage, floored at zero |
| StatCalculator.DamageReductionBounds | src/core/StatCalculator.ts:27-28 | for non-negative defence the reduction lies in [0, 1) |
| StatCalculator.DefenceNeverAddsDamage | src/core/StatCalculator.ts:20-32 | with non-negative defence the rounded result never exceeds the damage before defence by more than rounding |
| StatCalculator.DamageExamples | src/core/StatCalculator.ts:11-36 | 20 base plus 10 damage against defence 20 deals 25, and a certain crit at x2 deals 50 with reduction 1/6 |
| StatCalculator.CalculateHealing | src/core/StatCalculator.ts:39-46 | the heal is the nearest whole number to the base heal raised by a tenth of a percent per point of health |
| StatCalculator.CalculateMoveSpeed | src/core/StatCalculator.ts:49-52 | the speed, capped at 10 |
| StatCalculator.HealingAndSpeedExamples | src/core/StatCalculator.ts:39-52 | health 200 lifts a heal of 50 to 60, and speed 15 is capped at 10 |
| StatSystem.Init | src/core/StatSystem.ts:26-60 | every bonus starts at 0, within the maxima |
| StatSystem.GetEffectiveStats | src/core/StatSystem.ts:84-93 | each effective stat is its base plus its bonus |
| StatSystem.AddStatPoint | src/core/StatSystem.ts:62-82 | succeeds exactly for a positive number of points that keeps the stat within its maximum; then only that stat's bonus grows, by points times its multiplier, and one statIncrease carries the new effective stats; otherwise nothing changes and nothing is emitted |
| StatSystem.CanAddStatPoint | src/core/StatSystem.ts:95-98 | true exactly when spending one point would succeed |
| StatSystem.GetStatProgress | src/core/StatSystem.ts:100-104 | the effective value as a fraction of the maximum, in (0, 1] for a valid state |
| StatSystem.ResetStats | src/core/StatSystem.ts:106-122 | the effective stats are the base stats again, and one statsReset carries them |
| StatSystem.CalculateAttackDamage | src/core/StatSystem.ts:140-146 | the damage the calculator gives for the two sides' effective stats: critical exactly below the attacker's crit chance, reduction set by the target's defence, never negative |
| StatSystem.CalculateHealingAmount | src/core/StatSystem.ts:149-154 | healing scales with the holder's effective health |
| StatSystem.GetCurrentMoveSpeed | src/core/StatSystem.ts:157-161 | in a valid state the cap of 10 never bites: the speed is base plus bonus |
| StatSystem.ValidAfterAny | src/core/StatSystem.ts:62-122 | any run of point spends and resets keeps every bonus non-negative and every stat within its maximum |
| StatSystem.StatExamples | src/core/StatSystem.ts:62-104 | one health point gives 110 health, five give progress 0.15, and zero points or 91 points in health are refused |
| WaveSystem.Lookup | src/core/WaveSystem.ts:164-170 | the loop's answer, when it has one, is a table index no earlier than where it started |
| WaveSystem.LookupSpec | src/core/WaveSystem.ts:160-174 | the loop finds the first wave whose window end lies beyond the elapsed time, and finds none exactly when every window has closed |
| WaveSystem.GetCurrentWave | src/core/WaveSystem.ts:160-174 | the first wave whose window contains the time since the wave start, which also becomes the current index; past every window, the last wave with nothing changed |
| WaveSystem.WaveWindows | src/core/WaveSystem.ts:48-87 | with the shipped table, [0, 60 s) is wave 1, [60 s, 150 s) is wave 2, and later times stay on wave 2 without moving the index |
| WaveSystem.LookupIsRelativeToStart | src/core/WaveSystem.ts:160-166 | the lookup measures from the wave start, so a time before a late start still reports wave 1 |
| WaveSystem.GetWaveProgress | src/core/WaveSystem.ts:176-180 | the elapsed time as a fraction of the current wave's duration, capped at 1 |
| WaveSystem.HalfwayProgress | src/core/WaveSystem.ts:176-214 | thirty seconds after a start the progress is one half |
| WaveSystem.IsEliteSpawn | src/core/WaveSystem.ts:182-185 | a wave without an elite configuration never rolls one; otherwise elite exactly when the draw is below the chance |
| WaveSystem.AddEventListener | src/core/WaveSystem.ts:187-192 | the listener joins its event type's set; other types and all other state are unchanged |
| WaveSystem.RemoveEventListener | src/core/WaveSystem.ts:194-196 | the listener leaves its event type's set; other types and all other state are unchanged |
| WaveSystem.On | src/core/WaveSystem.ts:47 | a listener of the inherited emitter joins that registry's set for its event type only |
| WaveSystem.Recipients | src/core/WaveSystem.ts:198-200 | an event announced by the wave's own dispatcher reaches the addEventListener registry, and an emitted one reaches the emitter registry |
| WaveSystem.ChannelsAreSeparate | src/core/WaveSystem.ts:187-214 | a listener added with addEventListener hears startWave, and one added to the emitter does not |
| WaveSystem.StartWave | src/core/WaveSystem.ts:206-214 | spawning begins at the clock reading, the lookup at zero elapsed time selects the first wave, and one waveStart announces it |
| WaveSystem.CompleteWave | src/core/WaveSystem.ts:216-223 | clearing begins, the lookup for the clock reading runs, and one waveEnd announces the wave it found |
| WaveSystem.ClearWave | src/core/WaveSystem.ts:225-227 | the state becomes completed, and nothing else changes |
| WaveSystem.ResetWave | src/core/WaveSystem.ts:229-233 | back to preparing the first wave with the start at 0, and nothing else changes |
| WaveSystem.Init | src/core/WaveSystem.ts:89-106 | fresh counters and registries, spawning from the clock reading, and a waveStart that reaches nobody |
| WaveSystem.StateMachine | src/core/WaveSystem.ts:104-233 | the constructor leaves the director spawning; completing, clearing and resetting move it through clearing, completed and preparing, and starting makes it spawn again |
| WaveSystem.GetRandomSpawnPosition | src/core/WaveSystem.ts:291-320 | the point lies 50 units beyond the edge chosen by the draw (top, right, bottom, else left), within that edge's span |
| WaveSystem.SpawnOffScreen | src/core/WaveSystem.ts:291-320 | a spawn point is never inside the visible area |
| WaveSystem.SelectEnemyType | src/core/WaveSystem.ts:277-289 | the type at the index the weighted walk stops at, or basic when it reaches no entry |
| WaveSystem.SelectsByBand | src/core/WaveSystem.ts:277-289 | with non-negative weights, a type is chosen whenever the scaled draw falls in its band of running weight totals |
| WaveSystem.ScaleStats | src/core/WaveSystem.ts:244-252 | health, damage and speed are base times wave multiplier times elite multiplier, max health equals health, and attack speed and range stay at base |
| WaveSystem.SpawnEnemy | src/core/WaveSystem.ts:235-275 | defined exactly when the drawn type is in the enemy table; then the id is enemy_ and the clock reading, the point is the drawn spawn position, elite exactly below the wave's elite chance, stats scaled accordingly, and an eliteSpawn only for an elite |
| WaveSystem.ShippedTypesKnown | src/core/WaveSystem.ts:48-87 | every type a shipped wave can draw is in the enemy table, so the update never throws |
| WaveSystem.SpawnIds | src/core/WaveSystem.ts:236 | two spawns share an id exactly when they happen in the same millisecond |
| WaveSystem.SpawnStatsExamples | src/core/WaveSystem.ts:235-275 | an elite basic enemy in wave 2 has 300 health, 16.5 damage and 132 speed, and a regular wave 1 one has its base stats |
| WaveSystem.Update | src/core/WaveSystem.ts:108-150 | both clocks advance; one enemy spawns exactly when the spawn clock reaches the interval, which then restarts; reaching the duration emits waveEnd then waveStart, advances the wave number and restarts the wave clock; the current index never changes, and nothing goes to addEventListener listeners |
| WaveSystem.WaveEndKeepsConfig | src/core/WaveSystem.ts:108-140 | ending a wave in update does not move to the next configuration |
| WaveSystem.Run | src/core/WaveSystem.ts:108-127 | successive updates keep the wave index within the table |
| WaveSystem.OneSpawnPerInterval | src/core/WaveSystem.ts:108-120 | in the first wave, frames adding up to the remaining two seconds spawn exactly one enemy, however the time is split |
| Decimal.NatToStringInjective | src/core/WaveSystem.ts:236 | different clock readings print differently |
| Decimal.PrefixedInjective | src/core/WaveSystem.ts:236 | ids built from one prefix and different clock readings differ |
| Numeric.Round | src/core/StatCalculator.ts:32 | Math.round lands within half a unit of its argument |
| OrderedMap.Put | src/core/CombatSystem.ts:77-78 | setting stores the value; an existing key keeps its place in the visiting order and a new key goes last |
| OrderedMap.Delete | src/core/CombatSystem.ts:168 | deleting drops the key's entry and its place in the order, keeping the others in order |
| OrderedMap.Get | src/core/CombatSystem.ts:89-91 | the stored value, or nothing for a missing key |
| OrderedMap.SizeIsKeyCount | src/core/CombatSystem.ts:199-201 | in a well-formed map the visiting order lists each key once, so its length is the number of entries |

## Left out

- Rendering, sound, asset loading, the game loop, the coordinator and every DOM or canvas call. These are the layers around the simulation. The render calls inside `spawnEnemy`, and the size and colour they pass, are dropped too, as is the `console.log` in the wave director's update (`WaveSystem.ts:119`).
- CombatSystem.Merge: a patch field is either carried or not. A JavaScript spread also lets a field present with the value `undefined` overwrite the current value; the model has no such field value.
- IEEE floating point. Numbers are exact reals, so rounding error, NaN and Infinity are not modelled. Where the source would compute NaN or Infinity from a division, the model returns `None` or states the guard as a precondition.
- Timers (`setTimeout`, `setInterval`) and `requestAnimationFrame`. The clock is a parameter, and each operation reads it once even where the source calls `Date.now()` twice.
- `Math.random`, `Math.sqrt` and the trigonometry of the enemy spawner's placement. These are parameters: the draws, a `sqrt` function that returns the non-negative root, and the spawn point.
- Listener callbacks and JavaScript object identity. Listeners are named by ids, and effects are compared structurally. So two equal effects in one target's set are one element, whereas the source keeps two distinct objects.
- Singletons (`getInstance` of the input manager and of `PerformanceCenter`), window key wiring, and `InputManager.destroy`. The private `emit` of the input manager is never called, so no input event is modelled as emitted.
- `Vector2D.clone`, and the getters that only return a field or the internal map itself. Examples: `getEntities`, `getAllPositions`, `getAllTargets`, `getCurrentLevel`, `getUnspentSkillPoints`, `getBaseStat`, `getBonusStat`, `getMaxStat` and `getWaveState`. The model's state records expose these fields directly.
- Display names, descriptions, colours and sizes of skills and enemies.
- The unused `InputSnapshot` and `InputState` types, the unused `maxSpeed` of MovementSystem (`MovementSystem.ts:17`), and the unused `spawnInterval` of WaveSystem (`WaveSystem.ts:97`).
- The first `getCurrentWave()` and `getWaveProgress()` of `WaveSystem.ts:152-158`. They are shadowed by the later definitions with a `time` parameter, which are the ones that run.
- Tests whose expectations the code does not meet: the level threshold, the experience-source counts, the grid neighbours, the skill effects and the wave numbering. The model follows the code. Several test files also exercise methods that do not exist.
- SkillSystem.CanUnlockSkill: `getSkillData` is not defined anywhere. It is the `catalogue` parameter, a lookup that may find nothing.
- SkillLibrary.Library: the file imports its knockback and defence-buff effects from a module that does not export them. The model uses the classes of `skills/SkillEffects.ts` for those two. It uses the stub burning effect of `SkillEffect.ts`, which is what the import does resolve to.
- SkillEffect.OnApply: for a target without a source, the source throws when it reads the source's coordinates. The model leaves such a target unchanged.
- GridSystem.WorldToGrid: requires a non-zero grid size. At 0 the source divides by zero, and the result has no real value. The same holds for GridSystem.SnapToGrid, MovementSystem.HandleSnapping and MovementSystem.Update.
- The grid stores cells under the coordinate pair rather than the string `"x,y"`. For exact numbers the two keys agree, because JavaScript prints distinct numbers differently, and prints negative zero as zero, which the reals do not distinguish.
- StatCalculator.CalculateDamage: requires a defence other than -100, where the source divides by zero. The same holds for StatSystem.CalculateAttackDamage.
- LevelSystem.CheckLevelUp: modelled against the shipped two-entry table. A longer table would make the source loop forever on a stale entry.
- ExperienceSource.CheckDayReset: the local midnight before `now` comes from the `Date` library, so it is a parameter.
- ExperienceSource.ExperienceSources: the source table is a plain object, so the source finds an entry for an id such as `constructor` inherited from `Object.prototype`. The model finds only the listed sources.
- EnemySpawnSystem.SelectEnemyType: an empty type list makes the source read past the end and throw. The model returns `None`.
- WaveSystem.SpawnEnemy: a drawn type missing from the enemy table makes the source throw. The model returns `None`, and `WaveSystem.ShippedTypesKnown` shows that the shipped waves never draw one.
- InputManager.Lower: lowers the ASCII letters only. `toLowerCase` on other scripts is not modelled.
- PerformanceMonitor.GetAverageFPS: NaN from an empty window and Infinity from a zero total are `None`.

=== FILE: combat_system.dfy ===
/**
 * The combat registry of src/core/CombatSystem.ts: four maps keyed by entity id (stats,
 * positions, last attack times, targets). Each tick every entity whose attack cooldown has
 * run out hits the nearest other entity in range for its flat damage; a kill purges the
 * victim from every map and from every other entity's target.
 */
module CombatSystem {
  import opened Wrappers
  import opened Numeric
  import opened OrderedMap
  import opened Vector2D

  datatype CombatStats = CombatStats(
    health: real,
    damage: real,
    attackSpeed: real,
    range: real,
    moveSpeed: Option<real>,
    isPlayer: Option<bool>)

  /** A `Partial<CombatStats>`: a field that is `None` is absent from the patch. */
  datatype StatsPatch = StatsPatch(
    health: Option<real>,
    damage: Option<real>,
    attackSpeed: Option<real>,
    range: Option<real>,
    moveSpeed: Option<real>,
    isPlayer: Option<bool>)

  /** A death event names the dead entity in its `sourceId`, as the source does. */
  datatype CombatEvent =
    | Attack(sourceId: string, targetId: string, damage: real)
    | Damage(sourceId: string, targetId: string, damage: real)
    | Death(sourceId: string)

  datatype Combat = Combat(
    entities: OMap<string, CombatStats>,
    positions: OMap<string, Vec>,
    lastAttackTime: OMap<string, real>,
    targets: OMap<string, string>)

  ghost predicate Valid(c: Combat) {
    c.entities.Valid() && c.positions.Valid() && c.lastAttackTime.Valid() && c.targets.Valid()
  }

  function Init(): (c: Combat)
    ensures Valid(c)
    ensures c.entities.entries == map[] && c.positions.entries == map[]
    ensures c.lastAttackTime.entries == map[] && c.targets.entries == map[]
  {
    Combat(Empty(), Empty(), Empty(), Empty())
  }

  // ---------------------------------------------------------------- registration and setters

  /** Sets the stats and the position of `id`, overwriting both if the id is already there. */
  function RegisterEntity(c: Combat, id: string, stats: CombatStats, position: Vec): (r: Combat)
    ensures r.entities.entries == c.entities.entries[id := stats]
    ensures r.positions.entries == c.positions.entries[id := position]
    ensures r.lastAttackTime == c.lastAttackTime && r.targets == c.targets
    ensures Valid(c) ==> Valid(r)
  {
    c.(entities := Put(c.entities, id, stats), positions := Put(c.positions, id, position))
  }

  /** Sets the position whether or not the id has stats. */
  function UpdatePosition(c: Combat, id: string, position: Vec): (r: Combat)
    ensures r.positions.entries == c.positions.entries[id := position]
    ensures r.entities == c.entities && r.lastAttackTime == c.lastAttackTime && r.targets == c.targets
    ensures Valid(c) ==> Valid(r)
  {
    c.(positions := Put(c.positions, id, position))
  }

  /** Records a target without checking that either id exists. */
  function SetTarget(c: Combat, id: string, targetId: string): (r: Combat)
    ensures r.targets.entries == c.targets.entries[id := targetId]
    ensures r.entities == c.entities && r.positions == c.positions && r.lastAttackTime == c.lastAttackTime
    ensures Valid(c) ==> Valid(r)
  {
    c.(targets := Put(c.targets, id, targetId))
  }

  /** Records a target only when both ids have stats; otherwise nothing changes. */
  function SetEntityTarget(c: Combat, id: string, targetId: string): (r: Combat)
    ensures id in c.entities.entries && targetId in c.entities.entries ==>
      r == SetTarget(c, id, targetId)
    ensures !(id in c.entities.entries && targetId in c.entities.entries) ==> r == c
    ensures Valid(c) ==> Valid(r)
  {
    if id in c.entities.entries && targetId in c.entities.entries then SetTarget(c, id, targetId) else c
  }

  function ClearEntityTarget(c: Combat, id: string): (r: Combat)
    ensures r.targets.entries == c.targets.entries - {id}
    ensures r.entities == c.entities && r.positions == c.positions && r.lastAttackTime == c.lastAttackTime
    ensures Valid(c) ==> Valid(r)
  {
    c.(targets := Delete(c.targets, id))
  }

  /**
   * Drops the id's own entries from all four maps. Unlike a death it leaves other entities'
   * targets pointing at the removed id.
   */
  function RemoveEntity(c: Combat, id: string): (r: Combat)
    ensures id !in r.entities.entries && id !in r.positions.entries
    ensures id !in r.lastAttackTime.entries && id !in r.targets.entries
    ensures r.entities.entries == c.entities.entries - {id}
    ensures r.positions.entries == c.positions.entries - {id}
    ensures r.lastAttackTime.entries == c.lastAttackTime.entries - {id}
    ensures r.targets.entries == c.targets.entries - {id}
    ensures Valid(c) ==> Valid(r)
  {
    Combat(Delete(c.entities, id), Delete(c.positions, id), Delete(c.lastAttackTime, id), Delete(c.targets, id))
  }

  /** `{ ...current, ...patch }`: each field the patch carries replaces the current one. */
  function Merge(current: CombatStats, patch: StatsPatch): (r: CombatStats)
    ensures r.health == patch.health.GetOr(current.health)
    ensures r.damage == patch.damage.GetOr(current.damage)
    ensures r.attackSpeed == patch.attackSpeed.GetOr(current.attackSpeed)
    ensures r.range == patch.range.GetOr(current.range)
    ensures r.moveSpeed == if patch.moveSpeed.Some? then patch.moveSpeed else current.moveSpeed
    ensures r.isPlayer == if patch.isPlayer.Some? then patch.isPlayer else current.isPlayer
  {
    CombatStats(
      patch.health.GetOr(current.health),
      patch.damage.GetOr(current.damage),
      patch.attackSpeed.GetOr(current.attackSpeed),
      patch.range.GetOr(current.range),
      if patch.moveSpeed.Some? then patch.moveSpeed else current.moveSpeed,
      if patch.isPlayer.Some? then patch.isPlayer else current.isPlayer)
  }

  /** Merges the patch into an existing entity's stats, keeping its place; an unknown id is left alone. */
  function UpdateEntityStats(c: Combat, id: string, patch: StatsPatch): (r: Combat)
    ensures id !in c.entities.entries ==> r == c
    ensures id in c.entities.entries ==>
      r.entities.entries == c.entities.entries[id := Merge(c.entities.entries[id], patch)]
    ensures r.entities.keys == c.entities.keys
    ensures r.positions == c.positions && r.lastAttackTime == c.lastAttackTime && r.targets == c.targets
    ensures Valid(c) ==> Valid(r)
  {
    if id in c.entities.entries then
      c.(entities := Put(c.entities, id, Merge(c.entities.entries[id], patch)))
    else c
  }

  // ---------------------------------------------------------------- accessors

  function GetEntityStats(c: Combat, id: string): (r: Option<CombatStats>)
    ensures r.Some? <==> id in c.entities.entries
    ensures r.Some? ==> r.value == c.entities.entries[id]
  {
    Get(c.entities, id)
  }

  function GetEntityPosition(c: Combat, id: string): (r: Option<Vec>)
    ensures r.Some? <==> id in c.positions.entries
    ensures r.Some? ==> r.value == c.positions.entries[id]
  {
    Get(c.positions, id)
  }

  /** `getCurrentTarget` and `getEntityTarget` read the same map. */
  function GetEntityTarget(c: Combat, id: string): (r: Option<string>)
    ensures r.Some? <==> id in c.targets.entries
    ensures r.Some? ==> r.value == c.targets.entries[id]
  {
    Get(c.targets, id)
  }

  function GetLastAttackTime(c: Combat, id: string): (r: Option<real>)
    ensures r.Some? <==> id in c.lastAttackTime.entries
    ensures r.Some? ==> r.value == c.lastAttackTime.entries[id]
  {
    Get(c.lastAttackTime, id)
  }

  function HasEntity(c: Combat, id: string): (r: bool)
    ensures r <==> GetEntityStats(c, id).Some?
  {
    id in c.entities.entries
  }

  function GetEntityCount(c: Combat): (r: nat)
    requires Valid(c)
    ensures r == |c.entities.entries.Keys|
  {
    Size(c.entities)
  }

  // ---------------------------------------------------------------- targeting

  /**
   * The attack cooldown gate: at least `1000 / attackSpeed` ms since the last attack, which
   * counts as 0 when none is recorded. A zero attack speed divides to Infinity, so such an
   * entity is never ready.
   */
  predicate Ready(c: Combat, id: string, stats: CombatStats, now: real) {
    var last := Get(c.lastAttackTime, id).GetOr(0.0);
    stats.attackSpeed != 0.0 && !(now - last < 1000.0 / stats.attackSpeed)
  }

  /** Whether `id` is a possible target for an attacker `source` standing at `from` with reach `range`. */
  ghost predicate InRange(c: Combat, source: string, from: Vec, range: real, id: string, sqrt: real -> real)
    requires IsSqrt(sqrt)
  {
    id != source && id in c.positions.entries && Distance(from, c.positions.entries[id], sqrt) <= range
  }

  function Dist(c: Combat, from: Vec, id: string, sqrt: real -> real): real
    requires IsSqrt(sqrt)
    requires id in c.positions.entries
  {
    Distance(from, c.positions.entries[id], sqrt)
  }

  /**
   * The scan of `findTarget` over `keys`, carrying the nearest candidate so far and its
   * distance; a candidate replaces it only when strictly nearer.
   */
  function Nearest(c: Combat, source: string, from: Vec, range: real, keys: seq<string>,
                   best: Option<(string, real)>, sqrt: real -> real): (r: Option<(string, real)>)
    requires IsSqrt(sqrt)
    ensures best.Some? ==> r.Some?
    ensures r.Some? && r != best ==> r.value.0 in keys && r.value.0 != source && r.value.1 <= range
    decreases |keys|
  {
    if keys == [] then best
    else
      var id := keys[0];
      var take := id != source && id in c.positions.entries &&
        var d := Distance(from, c.positions.entries[id], sqrt);
        d <= range && (best.None? || d < best.value.1);
      var best' := if take then Some((id, Distance(from, c.positions.entries[id], sqrt))) else best;
      Nearest(c, source, from, range, keys[1..], best', sqrt)
  }

  /**
   * What the scan finds: nothing only if nothing was carried in and no key is in range;
   * otherwise something no farther than anything carried or scanned, and if it was found in
   * `keys`, every in-range key before it is strictly farther.
   */
  lemma {:induction false} NearestSpec(c: Combat, source: string, from: Vec, range: real, keys: seq<string>,
                                        best: Option<(string, real)>, sqrt: real -> real)
    requires IsSqrt(sqrt)
    requires Distinct(keys)
    ensures var r := Nearest(c, source, from, range, keys, best, sqrt);
      && (r.None? <==> best.None? && forall i :: 0 <= i < |keys| ==> !InRange(c, source, from, range, keys[i], sqrt))
      && (r.Some? && best.Some? ==> r.value.1 <= best.value.1)
      && (r.Some? ==> forall i :: 0 <= i < |keys| && InRange(c, source, from, range, keys[i], sqrt) ==>
            r.value.1 <= Dist(c, from, keys[i], sqrt))
      && (r.Some? && r != best ==>
            && r.value.0 in keys
            && InRange(c, source, from, range, r.value.0, sqrt)
            && r.value.1 == Dist(c, from, r.value.0, sqrt)
            && (best.Some? ==> r.value.1 < best.value.1))
      && (r.Some? && r != best ==>
            forall i, j :: 0 <= i < j < |keys| && keys[j] == r.value.0 && InRange(c, source, from, range, keys[i], sqrt) ==>
              r.value.1 < Dist(c, from, keys[i], sqrt))
    decreases |keys|
  {
    if keys != [] {
      var id := keys[0];
      DistinctTail(keys);
      ShiftIndices(keys);
      var take := id != source && id in c.positions.entries &&
        var d := Distance(from, c.positions.entries[id], sqrt);
        d <= range && (best.None? || d < best.value.1);
      var best' := if take then Some((id, Distance(from, c.positions.entries[id], sqrt))) else best;
      NearestSpec(c, source, from, range, keys[1..], best', sqrt);
    }
  }

  lemma ShiftIndices(keys: seq<string>)
    requires keys != []
    ensures forall i :: 1 <= i < |keys| ==> keys[i] == keys[1..][i - 1]
    ensures forall k :: k in keys <==> k == keys[0] || k in keys[1..]
  {
  }

  /**
   * `findTarget`: among the other entities with a position within the attacker's range, one at
   * the least distance, the first such in insertion order; nothing when the attacker has no
   * position or stats, or no entity is in range.
   */
  function FindTarget(c: Combat, source: string, sqrt: real -> real): (r: Option<string>)
    requires IsSqrt(sqrt)
    requires Valid(c)
    ensures source !in c.positions.entries || source !in c.entities.entries ==> r.None?
    ensures source in c.positions.entries && source in c.entities.entries ==>
      var from := c.positions.entries[source];
      var range := c.entities.entries[source].range;
      && (r.None? <==> forall k :: k in c.entities.keys ==> !InRange(c, source, from, range, k, sqrt))
      && (r.Some? ==>
        && r.value in c.entities.entries
        && InRange(c, source, from, range, r.value, sqrt)
        && (forall k :: k in c.entities.keys && InRange(c, source, from, range, k, sqrt) ==>
              Dist(c, from, r.value, sqrt) <= Dist(c, from, k, sqrt))
        && (forall i, j ::
              (0 <= i < j < |c.entities.keys| && c.entities.keys[j] == r.value &&
               InRange(c, source, from, range, c.entities.keys[i], sqrt)) ==>
              Dist(c, from, r.value, sqrt) < Dist(c, from, c.entities.keys[i], sqrt)))
  {
    if source !in c.positions.entries || source !in c.entities.entries then None
    else
      var from := c.positions.entries[source];
      var range := c.entities.entries[source].range;
      var keys := c.entities.keys;
      var best := Nearest(c, source, from, range, keys, None, sqrt);
      NearestSpec(c, source, from, range, keys, None, sqrt);
      if best.None? then None
      else
        assert forall k :: k in keys ==> exists i :: 0 <= i < |keys| && keys[i] == k;
        Some(best.value.0)
  }

  // ---------------------------------------------------------------- attacking

  /**
   * `handleDeath`: one death event, then the id leaves all four maps, and every target entry
   * pointing at it is dropped as well.
   */
  function HandleDeath(c: Combat, id: string): (r: (Combat, seq<CombatEvent>))
    requires Valid(c)
    ensures r.1 == [Death(id)]
    ensures r.0.entities.entries == c.entities.entries - {id}
    ensures r.0.positions.entries == c.positions.entries - {id}
    ensures r.0.lastAttackTime.entries == c.lastAttackTime.entries - {id}
    ensures forall k :: k in r.0.targets.entries <==>
      k in c.targets.entries && k != id && c.targets.entries[k] != id
    ensures forall k :: k in r.0.targets.entries ==> r.0.targets.entries[k] == c.targets.entries[k]
    ensures Valid(r.0)
  {
    var targets := Delete(c.targets, id);
    var purged := Untarget(targets, targets.keys, id);
    (Combat(Delete(c.entities, id), Delete(c.positions, id), Delete(c.lastAttackTime, id), purged), [Death(id)])
  }

  /** The loop of `handleDeath` over `keys`: each visited entry whose value is `dead` is deleted. */
  function Untarget(m: OMap<string, string>, keys: seq<string>, dead: string): (r: OMap<string, string>)
    ensures forall k :: k in r.entries <==> k in m.entries && (k in keys ==> m.entries[k] != dead)
    ensures forall k :: k in r.entries ==> r.entries[k] == m.entries[k]
    ensures m.Valid() ==> r.Valid()
    decreases |keys|
  {
    if keys == [] then m
    else
      var k := keys[0];
      var m' := if k in m.entries && m.entries[k] == dead then Delete(m, k) else m;
      var r := Untarget(m', keys[1..], dead);
      ShiftIndices(keys);
      r
  }

  /**
   * `applyDamage`: the target's health drops by `amount` in place, a damage event follows, and
   * if the health is now at or below 0 the target dies. An unknown target changes nothing.
   */
  function ApplyDamage(c: Combat, source: string, target: string, amount: real): (r: (Combat, seq<CombatEvent>))
    requires Valid(c)
    ensures target !in c.entities.entries ==> r == (c, [])
    ensures target in c.entities.entries ==>
      var health := c.entities.entries[target].health - amount;
      var hit := c.(entities := Put(c.entities, target, c.entities.entries[target].(health := health)));
      && (health <= 0.0 ==> r == (HandleDeath(hit, target).0, [Damage(source, target, amount), Death(target)]))
      && (health > 0.0 ==> r == (hit, [Damage(source, target, amount)]))
    ensures Valid(r.0)
  {
    if target !in c.entities.entries then (c, [])
    else
      var stats := c.entities.entries[target];
      var hit := c.(entities := Put(c.entities, target, stats.(health := stats.health - amount)));
      if hit.entities.entries[target].health <= 0.0 then
        var dead := HandleDeath(hit, target);
        assert [Damage(source, target, amount)] + dead.1 == [Damage(source, target, amount), Death(target)];
        (dead.0, [Damage(source, target, amount)] + dead.1)
      else
        (hit, [Damage(source, target, amount)])
  }

  /**
   * `performAttack`: the source deals its flat damage to the target, then records `now` as its
   * last attack time (after any death purge, so a source that kills itself gets an entry back),
   * and an attack event closes the sequence.
   */
  function PerformAttack(c: Combat, source: string, target: string, now: real): (r: (Combat, seq<CombatEvent>))
    requires Valid(c)
    ensures source !in c.entities.entries || target !in c.entities.entries ==> r == (c, [])
    ensures Valid(r.0)
  {
    if source !in c.entities.entries || target !in c.entities.entries then (c, [])
    else
      var damage := c.entities.entries[source].damage;
      var hit := ApplyDamage(c, source, target, damage);
      (hit.0.(lastAttackTime := Put(hit.0.lastAttackTime, source, now)), hit.1 + [Attack(source, target, damage)])
  }

  /** A blow that leaves the target alive lowers its health and stamps the attacker's time. */
  lemma AttackWounds(c: Combat, source: string, target: string, now: real)
    requires Valid(c)
    requires source in c.entities.entries && target in c.entities.entries
    requires c.entities.entries[target].health - c.entities.entries[source].damage > 0.0
    ensures var damage := c.entities.entries[source].damage;
      var health := c.entities.entries[target].health - damage;
      var r := PerformAttack(c, source, target, now);
      && r.1 == [Damage(source, target, damage), Attack(source, target, damage)]
      && r.0.entities.entries == c.entities.entries[target := c.entities.entries[target].(health := health)]
      && r.0.entities.keys == c.entities.keys
      && r.0.positions == c.positions && r.0.targets == c.targets
      && r.0.lastAttackTime.entries == c.lastAttackTime.entries[source := now]
  {
  }

  /**
   * A killing blow removes the target everywhere, drops every target entry naming it, and
   * stamps the attacker's time after the purge.
   */
  lemma AttackKills(c: Combat, source: string, target: string, now: real)
    requires Valid(c)
    requires source in c.entities.entries && target in c.entities.entries
    requires c.entities.entries[target].health - c.entities.entries[source].damage <= 0.0
    ensures var damage := c.entities.entries[source].damage;
      var r := PerformAttack(c, source, target, now);
      && r.1 == [Damage(source, target, damage), Death(target), Attack(source, target, damage)]
      && r.0.entities.entries == c.entities.entries - {target}
      && r.0.positions.entries == c.positions.entries - {target}
      && (forall k :: k in r.0.targets.entries <==>
            k in c.targets.entries && k != target && c.targets.entries[k] != target)
      && r.0.lastAttackTime.entries == (c.lastAttackTime.entries - {target})[source := now]
  {
  }

  // ---------------------------------------------------------------- the tick

  /**
   * One iteration of `update` for `id`: nothing for an entity no longer registered (a Map
   * iteration skips deleted entries), without a position, still cooling down, or with no target
   * (the empty id counts as none); otherwise it attacks the target `findTarget` picks.
   */
  function Visit(c: Combat, id: string, now: real, sqrt: real -> real): (r: (Combat, seq<CombatEvent>))
    requires IsSqrt(sqrt)
    requires Valid(c)
    ensures var attacks :=
        && id in c.entities.entries && id in c.positions.entries
        && Ready(c, id, c.entities.entries[id], now)
        && FindTarget(c, id, sqrt).Some? && FindTarget(c, id, sqrt).value != "";
      && (!attacks ==> r == (c, []))
      && (attacks ==>
        var target := FindTarget(c, id, sqrt).value;
        && r == PerformAttack(c, id, target, now)
        && |r.1| >= 2
        && r.1[|r.1| - 1] == Attack(id, target, c.entities.entries[id].damage))
    ensures Valid(r.0)
  {
    if id !in c.entities.entries || id !in c.positions.entries then (c, [])
    else if !Ready(c, id, c.entities.entries[id], now) then (c, [])
    else
      match FindTarget(c, id, sqrt)
      case None => (c, [])
      case Some(target) => if target == "" then (c, []) else PerformAttack(c, id, target, now)
  }

  /** `update`: visits a snapshot of the entity keys in insertion order, with one clock reading `now`. */
  function Update(c: Combat, now: real, sqrt: real -> real): (r: (Combat, seq<CombatEvent>))
    requires IsSqrt(sqrt)
    requires Valid(c)
    ensures Valid(r.0)
    ensures r.0.entities.entries.Keys <= c.entities.entries.Keys
  {
    UpdateFrom(c, now, c.entities.keys, sqrt)
  }

  function UpdateFrom(c: Combat, now: real, keys: seq<string>, sqrt: real -> real): (r: (Combat, seq<CombatEvent>))
    requires IsSqrt(sqrt)
    requires Valid(c)
    ensures Valid(r.0)
    ensures r.0.entities.entries.Keys <= c.entities.entries.Keys
    decreases |keys|
  {
    if keys == [] then (c, [])
    else
      var first := Visit(c, keys[0], now, sqrt);
      var rest := UpdateFrom(first.0, now, keys[1..], sqrt);
      (rest.0, first.1 + rest.1)
  }

  // ---------------------------------------------------------------- properties

  /** A tick in which no registered entity is off cooldown changes nothing and emits nothing. */
  lemma {:induction false} QuietWhenNoneReady(c: Combat, now: real, keys: seq<string>, sqrt: real -> real)
    requires IsSqrt(sqrt)
    requires Valid(c)
    requires forall id :: id in keys && id in c.entities.entries ==> !Ready(c, id, c.entities.entries[id], now)
    ensures UpdateFrom(c, now, keys, sqrt) == (c, [])
    decreases |keys|
  {
    if keys != [] {
      var none: seq<CombatEvent> := [];
      assert Visit(c, keys[0], now, sqrt) == (c, none);
      QuietWhenNoneReady(c, now, keys[1..], sqrt);
      assert none + none == none;
    }
  }

  /**
   * After a killing blow the victim is gone from every query: no stats, no position, and no
   * entity targets it any more; the attacker's own target entry survives unless it was the victim.
   */
  lemma KillIsPurged(c: Combat, source: string, target: string, now: real, other: string)
    requires Valid(c)
    requires source in c.entities.entries && target in c.entities.entries
    requires c.entities.entries[target].health - c.entities.entries[source].damage <= 0.0
    ensures var after := PerformAttack(c, source, target, now).0;
      && !HasEntity(after, target)
      && GetEntityPosition(after, target).None?
      && GetEntityTarget(after, target).None?
      && (GetEntityTarget(after, other).Some? ==> GetEntityTarget(after, other).value != target)
      && (GetLastAttackTime(after, target).Some? <==> source == target)
  {
    AttackKills(c, source, target, now);
  }

  /**
   * Removing an entity, unlike killing it, leaves a dangling target: after `b` is removed,
   * `a` still targets it.
   */
  lemma RemoveLeavesDanglingTarget(c: Combat, a: string, b: string)
    requires a != b
    requires GetEntityTarget(c, a) == Some(b)
    ensures GetEntityTarget(RemoveEntity(c, b), a) == Some(b)
    ensures !HasEntity(RemoveEntity(c, b), b)
  {
  }

  // A player (health 100, damage 10, range 200, one attack per second) and an enemy 50 away
  // with health 15 and too short a reach.

  const Player := CombatStats(100.0, 10.0, 1.0, 200.0, None, Some(true))
  const Enemy := CombatStats(15.0, 5.0, 1.0, 10.0, None, None)

  function ScenarioStart(): (c: Combat)
    ensures Valid(c)
  {
    RegisterEntity(RegisterEntity(Init(), "player", Player, Vec(0.0, 0.0)), "enemy", Enemy, Vec(50.0, 0.0))
  }

  lemma ScenarioDistances(sqrt: real -> real)
    requires IsSqrt(sqrt)
    ensures Distance(Vec(0.0, 0.0), Vec(50.0, 0.0), sqrt) == 50.0
    ensures Distance(Vec(50.0, 0.0), Vec(0.0, 0.0), sqrt) == 50.0
  {
    SqrtOfSquare(sqrt, 50.0);
    assert LengthSquared(Vec(-50.0, 0.0)) == 50.0 * 50.0;
    assert LengthSquared(Vec(50.0, 0.0)) == 50.0 * 50.0;
  }

  /** In the scenario's layout the player's scan skips itself and finds the enemy at 50. */
  lemma PlayerScan(c: Combat, keys: seq<string>, sqrt: real -> real)
    requires IsSqrt(sqrt)
    requires keys == ["player", "enemy"]
    requires c.positions.entries == map["player" := Vec(0.0, 0.0), "enemy" := Vec(50.0, 0.0)]
    ensures Nearest(c, "player", Vec(0.0, 0.0), 200.0, keys, None, sqrt) == Some(("enemy", 50.0))
  {
    var rest := keys[1..];
    assert Nearest(c, "player", Vec(0.0, 0.0), 200.0, keys, None, sqrt)
        == Nearest(c, "player", Vec(0.0, 0.0), 200.0, rest, None, sqrt);
    var d := Distance(Vec(0.0, 0.0), c.positions.entries["enemy"], sqrt);
    assert Nearest(c, "player", Vec(0.0, 0.0), 200.0, rest, None, sqrt)
        == Nearest(c, "player", Vec(0.0, 0.0), 200.0, rest[1..], Some(("enemy", d)), sqrt);
    assert rest[1..] == [];
    ScenarioDistances(sqrt);
    assert d == 50.0;
  }

  /** The enemy's scan finds the player 50 away, beyond its reach of 10, and skips itself. */
  lemma EnemyScan(c: Combat, keys: seq<string>, sqrt: real -> real)
    requires IsSqrt(sqrt)
    requires keys == ["player", "enemy"]
    requires c.positions.entries == map["player" := Vec(0.0, 0.0), "enemy" := Vec(50.0, 0.0)]
    ensures Nearest(c, "enemy", Vec(50.0, 0.0), 10.0, keys, None, sqrt) == None
  {
    assert Distance(Vec(50.0, 0.0), c.positions.entries["player"], sqrt) == 50.0 by {
      ScenarioDistances(sqrt);
    }
    OutOfReachSkipped(c, "enemy", Vec(50.0, 0.0), 10.0, keys, None, sqrt);
    SelfSkipped(c, "enemy", Vec(50.0, 0.0), 10.0, keys[1..], None, sqrt);
  }

  /** A key beyond the attacker's reach leaves the scan's best as it was. */
  lemma OutOfReachSkipped(c: Combat, source: string, from: Vec, range: real, keys: seq<string>,
                          best: Option<(string, real)>, sqrt: real -> real)
    requires IsSqrt(sqrt)
    requires keys != [] && keys[0] != source && keys[0] in c.positions.entries
    requires range < Distance(from, c.positions.entries[keys[0]], sqrt)
    ensures Nearest(c, source, from, range, keys, best, sqrt) == Nearest(c, source, from, range, keys[1..], best, sqrt)
  {
  }

  /** The attacker itself is never a candidate; here it is the last key scanned. */
  lemma SelfSkipped(c: Combat, source: string, from: Vec, range: real, keys: seq<string>,
                    best: Option<(string, real)>, sqrt: real -> real)
    requires IsSqrt(sqrt)
    requires keys == [source]
    ensures Nearest(c, source, from, range, keys, best, sqrt) == best
  {
    assert keys[1..] == [];
  }

  /** Both sides pick their targets the same way in either tick: the player the enemy, the enemy nobody. */
  lemma ScenarioTargets(c: Combat, sqrt: real -> real)
    requires IsSqrt(sqrt)
    requires Valid(c)
    requires c.entities.keys == ["player", "enemy"]
    requires c.entities.entries["player"].range == 200.0 && c.entities.entries["enemy"].range == 10.0
    requires c.positions.entries == map["player" := Vec(0.0, 0.0), "enemy" := Vec(50.0, 0.0)]
    ensures FindTarget(c, "player", sqrt) == Some("enemy")
    ensures FindTarget(c, "enemy", sqrt) == None
  {
    PlayerScan(c, c.entities.keys, sqrt);
    EnemyScan(c, c.entities.keys, sqrt);
  }

  /** A tick over two entities is the first one's visit followed by the second's. */
  lemma TwoVisits(c: Combat, now: real, keys: seq<string>, sqrt: real -> real)
    requires IsSqrt(sqrt)
    requires Valid(c)
    requires |keys| == 2
    ensures var first := Visit(c, keys[0], now, sqrt);
      var second := Visit(first.0, keys[1], now, sqrt);
      UpdateFrom(c, now, keys, sqrt) == (second.0, first.1 + second.1)
  {
    var first := Visit(c, keys[0], now, sqrt);
    var second := Visit(first.0, keys[1], now, sqrt);
    assert keys[1..][0] == keys[1] && keys[1..][1..] == [];
    assert UpdateFrom(first.0, now, keys[1..], sqrt) == (second.0, second.1 + []);
    assert second.1 + [] == second.1;
  }

  /** The layout both ticks share: the two entities in registration order, neither moved. */
  ghost predicate ScenarioLayout(c: Combat) {
    && Valid(c)
    && c.entities.keys == ["player", "enemy"]
    && c.entities.entries.Keys == {"player", "enemy"}
    && c.entities.entries["player"] == Player
    && c.entities.entries["enemy"].range == 10.0
    && c.entities.entries["enemy"].attackSpeed == 1.0
    && c.positions.entries == map["player" := Vec(0.0, 0.0), "enemy" := Vec(50.0, 0.0)]
  }

  lemma ScenarioStartLayout()
    ensures ScenarioLayout(ScenarioStart())
    ensures ScenarioStart().entities.entries["enemy"].health == 15.0
    ensures ScenarioStart().lastAttackTime.entries == map[]
  {
  }

  /** At 1000 ms the player, never having attacked, hits the enemy down to 5. */
  lemma PlayerHits(c: Combat, sqrt: real -> real)
    requires IsSqrt(sqrt)
    requires ScenarioLayout(c)
    requires c.entities.entries["enemy"].health == 15.0
    requires c.lastAttackTime.entries == map[]
    ensures var hit := Visit(c, "player", 1000.0, sqrt);
      && ScenarioLayout(hit.0)
      && hit.1 == [Damage("player", "enemy", 10.0), Attack("player", "enemy", 10.0)]
      && hit.0.entities.entries["enemy"].health == 5.0
      && hit.0.lastAttackTime.entries == map["player" := 1000.0]
  {
    ScenarioTargets(c, sqrt);
    assert Get(c.lastAttackTime, "player") == None;
    assert Ready(c, "player", c.entities.entries["player"], 1000.0);
    var hit := PerformAttack(c, "player", "enemy", 1000.0);
    assert Visit(c, "player", 1000.0, sqrt) == hit;
    AttackWounds(c, "player", "enemy", 1000.0);
    WoundKeepsLayout(c, hit.0);
  }

  /** Lowering the enemy's health alone keeps the scenario's layout. */
  lemma WoundKeepsLayout(c: Combat, d: Combat)
    requires ScenarioLayout(c)
    requires Valid(d)
    requires d.entities.keys == c.entities.keys && d.positions == c.positions
    requires d.entities.entries == c.entities.entries["enemy" := d.entities.entries["enemy"]]
    requires d.entities.entries["enemy"].range == 10.0 && d.entities.entries["enemy"].attackSpeed == 1.0
    ensures ScenarioLayout(d)
  {
  }

  /** In the scenario's layout the enemy never attacks: nobody is within its reach. */
  lemma EnemyIdles(c: Combat, now: real, sqrt: real -> real)
    requires IsSqrt(sqrt)
    requires ScenarioLayout(c)
    ensures Visit(c, "enemy", now, sqrt) == (c, [])
  {
    ScenarioTargets(c, sqrt);
  }

  /** The first tick, at 1000 ms, is the player's hit alone: the enemy, out of reach, does nothing. */
  lemma FirstTick(c: Combat, sqrt: real -> real)
    requires IsSqrt(sqrt)
    requires ScenarioLayout(c)
    requires c.entities.entries["enemy"].health == 15.0
    requires c.lastAttackTime.entries == map[]
    ensures Update(c, 1000.0, sqrt) == Visit(c, "player", 1000.0, sqrt)
  {
    var hit := Visit(c, "player", 1000.0, sqrt);
    PlayerHits(c, sqrt);
    EnemyIdles(hit.0, 1000.0, sqrt);
    TwoVisits(c, 1000.0, c.entities.keys, sqrt);
    assert hit.1 + [] == hit.1;
  }

  /** At 2000 ms the player's cooldown is over and its blow kills the enemy. */
  lemma PlayerKills(c: Combat, sqrt: real -> real)
    requires IsSqrt(sqrt)
    requires ScenarioLayout(c)
    requires c.entities.entries["enemy"].health == 5.0
    requires c.lastAttackTime.entries == map["player" := 1000.0]
    ensures var kill := Visit(c, "player", 2000.0, sqrt);
      && Valid(kill.0)
      && kill.1 == [Damage("player", "enemy", 10.0), Death("enemy"), Attack("player", "enemy", 10.0)]
      && kill.0.entities.entries.Keys == {"player"}
  {
    ScenarioTargets(c, sqrt);
    assert Get(c.lastAttackTime, "player") == Some(1000.0);
    assert Ready(c, "player", c.entities.entries["player"], 2000.0);
    assert Visit(c, "player", 2000.0, sqrt) == PerformAttack(c, "player", "enemy", 2000.0);
    AttackKills(c, "player", "enemy", 2000.0);
  }

  /** The second tick, at 2000 ms, is the player's killing blow alone: the enemy is gone by its turn. */
  lemma SecondTick(c: Combat, sqrt: real -> real)
    requires IsSqrt(sqrt)
    requires ScenarioLayout(c)
    requires c.entities.entries["enemy"].health == 5.0
    requires c.lastAttackTime.entries == map["player" := 1000.0]
    ensures Update(c, 2000.0, sqrt) == Visit(c, "player", 2000.0, sqrt)
  {
    var kill := Visit(c, "player", 2000.0, sqrt);
    PlayerKills(c, sqrt);
    assert Visit(kill.0, "enemy", 2000.0, sqrt) == (kill.0, []);
    TwoVisits(c, 2000.0, c.entities.keys, sqrt);
    assert kill.1 + [] == kill.1;
  }

  /**
   * A player (health 100, damage 10, range 200, one attack per second) and an enemy 50 away
   * with health 15 and too short a reach: the tick at 1000 ms brings the enemy to 5, the tick
   * at 2000 ms kills it, and each tick carries one attack event.
   */
  lemma CombatScenario(sqrt: real -> real)
    requires IsSqrt(sqrt)
    ensures var tick1 := Update(ScenarioStart(), 1000.0, sqrt);
      var tick2 := Update(tick1.0, 2000.0, sqrt);
      && tick1.1 == [Damage("player", "enemy", 10.0), Attack("player", "enemy", 10.0)]
      && GetEntityStats(tick1.0, "enemy").Some? && GetEntityStats(tick1.0, "enemy").value.health == 5.0
      && tick2.1 == [Damage("player", "enemy", 10.0), Death("enemy"), Attack("player", "enemy", 10.0)]
      && tick2.0.entities.entries.Keys == {"player"}
  {
    var start := ScenarioStart();
    ScenarioStartLayout();
    FirstTick(start, sqrt);
    PlayerHits(start, sqrt);
    var after := Update(start, 1000.0, sqrt).0;
    SecondTick(after, sqrt);
    PlayerKills(after, sqrt);
  }
}

=== FILE: cooldown_system.dfy ===
/**
 * The absolute end-time cooldowns of src/core/CooldownSystem.ts. `now` stands for `Date.now()`
 * and is a parameter of every operation that reads the clock; emitted events are returned.
 */
module CooldownSystem {
  import opened Wrappers
  import opened Numeric
  import opened OrderedMap

  /** End time and duration per skill id; the end times keep the insertion order `update` visits. */
  datatype Cooldowns = Cooldowns(ends: OMap<string, real>, durations: map<string, real>)

  datatype CooldownEvent =
    | Start(skillId: string, remainingTime: real, totalTime: real)
    | End(skillId: string)
    | Tick(skillId: string, remainingTime: real, storedTotal: Option<real>)  // the 'update' event

  /** Both maps hold the same ids. */
  ghost predicate Valid(c: Cooldowns) {
    c.ends.Valid() && c.durations.Keys == c.ends.entries.Keys
  }

  function Init(): (c: Cooldowns)
    ensures Valid(c) && c.ends.entries == map[]
  {
    Cooldowns(Empty(), map[])
  }

  function MapGet(m: map<string, real>, k: string): (r: Option<real>)
    ensures r.Some? <==> k in m
    ensures r.Some? ==> r.value == m[k]
  {
    if k in m then Some(m[k]) else None
  }

  /** A cooldown ending `duration` ms from now; a restart moves the end but keeps the id's place in the order. */
  function StartCooldown(c: Cooldowns, skillId: string, duration: real, now: real): (r: (Cooldowns, seq<CooldownEvent>))
    ensures Valid(c) ==> Valid(r.0)
    ensures Get(r.0.ends, skillId) == Some(now + duration) && MapGet(r.0.durations, skillId) == Some(duration)
    ensures forall k :: k != skillId ==> Get(r.0.ends, k) == Get(c.ends, k) && MapGet(r.0.durations, k) == MapGet(c.durations, k)
    ensures r.1 == [Start(skillId, duration, duration)]
  {
    (Cooldowns(Put(c.ends, skillId, now + duration), c.durations[skillId := duration]),
     [Start(skillId, duration, duration)])
  }

  /** The end time as the source reads it: a missing entry and an end time of 0 both count as none. */
  function EndTime(c: Cooldowns, skillId: string): (r: Option<real>)
    ensures r.Some? <==> skillId in c.ends.entries && c.ends.entries[skillId] != 0.0
    ensures r.Some? ==> r.value == c.ends.entries[skillId]
  {
    match Get(c.ends, skillId)
    case Some(end) => if end == 0.0 then None else Some(end)
    case None => None
  }

  function IsOnCooldown(c: Cooldowns, skillId: string, now: real): (r: bool)
    ensures r <==> 0.0 < GetRemainingTime(c, skillId, now)
  {
    match EndTime(c, skillId)
    case None => false
    case Some(end) => now < end
  }

  /** Time left until the end, never negative, and 0 for an id without a cooldown. */
  function GetRemainingTime(c: Cooldowns, skillId: string, now: real): (r: real)
    ensures 0.0 <= r
    ensures EndTime(c, skillId).None? ==> r == 0.0
    ensures EndTime(c, skillId).Some? ==> r == Max(0.0, EndTime(c, skillId).value - now)
  {
    match EndTime(c, skillId)
    case None => 0.0
    case Some(end) => Max(0.0, end - now)
  }

  /** The fraction of the cooldown already elapsed; 1 when no (or a zero) duration is stored. */
  function GetCooldownProgress(c: Cooldowns, skillId: string, now: real): (r: real)
    ensures (MapGet(c.durations, skillId).None? || c.durations[skillId] == 0.0) ==> r == 1.0
    ensures MapGet(c.durations, skillId).Some? && c.durations[skillId] != 0.0 ==>
      r * c.durations[skillId] == c.durations[skillId] - GetRemainingTime(c, skillId, now)
  {
    var remaining := GetRemainingTime(c, skillId, now);
    var duration := MapGet(c.durations, skillId).GetOr(0.0);
    if duration == 0.0 then 1.0 else 1.0 - remaining / duration
  }

  /** The event `update` emits for one entry: `end` once the end time is reached, otherwise `update`. */
  function EventFor(c: Cooldowns, now: real, k: string): (r: CooldownEvent)
    requires k in c.ends.entries
    ensures r.skillId == k
    ensures r.End? <==> c.ends.entries[k] <= now
  {
    var end := c.ends.entries[k];
    if now >= end then End(k) else Tick(k, end - now, MapGet(c.durations, k))
  }

  /**
   * `update`: visits the entries in insertion order, removing each finished cooldown from both
   * maps with one `end` event and reporting every other one with an `update` event.
   */
  function Update(c: Cooldowns, now: real): (r: (Cooldowns, seq<CooldownEvent>))
    requires Valid(c)
    ensures Valid(r.0)
    ensures |r.1| == |c.ends.keys|
    ensures forall i :: 0 <= i < |r.1| ==> r.1[i] == EventFor(c, now, c.ends.keys[i])
    ensures forall k :: k in r.0.ends.entries <==> k in c.ends.entries && now < c.ends.entries[k]
    ensures forall k :: k in r.0.ends.entries ==>
      r.0.ends.entries[k] == c.ends.entries[k] && r.0.durations[k] == c.durations[k]
  {
    UpdateFromEvents(c, now, c.ends.keys);
    UpdateFromState(c, now, c.ends.keys);
    UpdateFrom(c, now, c.ends.keys)
  }

  /** The ids `update` still has to visit: distinct and all present. */
  ghost predicate Pending(c: Cooldowns, keys: seq<string>) {
    Valid(c) && Distinct(keys) && forall k :: k in keys ==> k in c.ends.entries
  }

  /** The rest of the visit of `update`, from `keys[0]` on; entries already visited are settled in `c`. */
  function UpdateFrom(c: Cooldowns, now: real, keys: seq<string>): (r: (Cooldowns, seq<CooldownEvent>))
    requires Pending(c, keys)
    ensures |r.1| == |keys|
    ensures forall i :: 0 <= i < |keys| ==> r.1[i].skillId == keys[i]
    decreases |keys|
  {
    if keys == [] then (c, [])
    else
      var k := keys[0];
      SettleKeepsPending(c, now, keys);
      var rest := UpdateFrom(Settle(c, now, k), now, keys[1..]);
      (rest.0, [EventFor(c, now, k)] + rest.1)
  }

  /** One visited entry: a finished cooldown is dropped, a running one stays. */
  function Settle(c: Cooldowns, now: real, k: string): (r: Cooldowns)
    requires k in c.ends.entries
  {
    if now >= c.ends.entries[k] then Finish(c, k) else c
  }

  lemma SettleKeepsPending(c: Cooldowns, now: real, keys: seq<string>)
    requires Pending(c, keys) && keys != []
    ensures Pending(Settle(c, now, keys[0]), keys[1..])
  {
    DistinctTail(keys);
  }

  /** Drops one finished cooldown from both maps. */
  function Finish(c: Cooldowns, k: string): (r: Cooldowns)
    ensures r.ends.entries == c.ends.entries - {k} && r.durations == c.durations - {k}
    ensures Valid(c) ==> Valid(r)
  {
    Cooldowns(Delete(c.ends, k), c.durations - {k})
  }

  lemma {:induction false} UpdateFromEvents(c: Cooldowns, now: real, keys: seq<string>)
    requires Pending(c, keys)
    ensures |UpdateFrom(c, now, keys).1| == |keys|
    ensures forall i :: 0 <= i < |keys| ==> UpdateFrom(c, now, keys).1[i] == EventFor(c, now, keys[i])
    decreases |keys|
  {
    if keys != [] {
      var k, tail := keys[0], keys[1..];
      SettleKeepsPending(c, now, keys);
      DistinctTail(keys);
      var c' := Settle(c, now, k);
      UpdateFromEvents(c', now, tail);
      var events := UpdateFrom(c, now, keys).1;
      var rest := UpdateFrom(c', now, tail).1;
      assert events == [EventFor(c, now, k)] + rest;
      forall i | 0 < i < |keys| ensures events[i] == EventFor(c, now, keys[i]) {
        assert keys[i] == tail[i - 1];
        FinishKeepsOthers(c, now, k, keys[i]);
      }
    }
  }

  /** Finishing one cooldown does not change the event of any other. */
  lemma FinishKeepsOthers(c: Cooldowns, now: real, k: string, other: string)
    requires other != k && other in c.ends.entries
    ensures EventFor(Finish(c, k), now, other) == EventFor(c, now, other)
  {
  }

  lemma {:induction false} UpdateFromState(c: Cooldowns, now: real, keys: seq<string>)
    requires Pending(c, keys)
    ensures Valid(UpdateFrom(c, now, keys).0)
    ensures forall k :: k in UpdateFrom(c, now, keys).0.ends.entries <==>
      k in c.ends.entries && (k !in keys || now < c.ends.entries[k])
    ensures forall k :: k in UpdateFrom(c, now, keys).0.ends.entries ==>
      UpdateFrom(c, now, keys).0.ends.entries[k] == c.ends.entries[k]
      && UpdateFrom(c, now, keys).0.durations[k] == c.durations[k]
    decreases |keys|
  {
    if keys != [] {
      var k := keys[0];
      SettleKeepsPending(c, now, keys);
      DistinctTail(keys);
      UpdateFromState(Settle(c, now, k), now, keys[1..]);
    }
  }

  /** Moves an existing cooldown's end earlier by `amount`; ids without one are left alone. */
  function ReduceCooldown(c: Cooldowns, skillId: string, amount: real): (r: Cooldowns)
    ensures EndTime(c, skillId).None? ==> r == c
    ensures EndTime(c, skillId).Some? ==>
      && r.ends.entries == c.ends.entries[skillId := EndTime(c, skillId).value - amount]
      && r.ends.keys == c.ends.keys
      && r.durations == c.durations
    ensures Valid(c) ==> Valid(r)
  {
    match EndTime(c, skillId)
    case None => c
    case Some(end) => c.(ends := Put(c.ends, skillId, end - amount))
  }

  function ResetCooldown(c: Cooldowns, skillId: string): (r: Cooldowns)
    ensures r.ends.entries == c.ends.entries - {skillId} && r.durations == c.durations - {skillId}
    ensures Valid(c) ==> Valid(r)
  {
    Finish(c, skillId)
  }

  function ResetAllCooldowns(c: Cooldowns): (r: Cooldowns)
    ensures Valid(r) && r.ends.entries == map[] && r.durations == map[]
  {
    Init()
  }

  // ---------------------------------------------------------------- properties

  /** Right after a start at a non-negative time the skill is on cooldown exactly when the duration is positive. */
  lemma StartThenOnCooldown(c: Cooldowns, skillId: string, duration: real, now: real)
    requires 0.0 <= now
    ensures IsOnCooldown(StartCooldown(c, skillId, duration, now).0, skillId, now) <==> 0.0 < duration
    ensures GetRemainingTime(StartCooldown(c, skillId, duration, now).0, skillId, now) == Max(0.0, duration)
  {
  }

  /** A 1000 ms cooldown has 500 ms left, progress 0.5, halfway, and nothing left, progress 1, at its end. */
  lemma CooldownExamples(c: Cooldowns, start: real)
    requires 0.0 <= start
    ensures var s := StartCooldown(c, "testSkill", 1000.0, start).0;
      && GetRemainingTime(s, "testSkill", start + 500.0) == 500.0
      && GetCooldownProgress(s, "testSkill", start + 500.0) == 0.5
      && GetRemainingTime(s, "testSkill", start + 1000.0) == 0.0
      && GetCooldownProgress(s, "testSkill", start + 1000.0) == 1.0
  {
  }

  /** Once `update` has emitted an id's `end`, a later `update` emits nothing about that id. */
  lemma NoEventAfterEnd(c: Cooldowns, now: real, later: real, skillId: string)
    requires Valid(c)
    requires End(skillId) in Update(c, now).1
    ensures forall e :: e in Update(Update(c, now).0, later).1 ==> e.skillId != skillId
  {
    var u := Update(c, now);
    var i :| 0 <= i < |u.1| && u.1[i] == End(skillId);
    assert u.1[i] == EventFor(c, now, c.ends.keys[i]);
    assert c.ends.entries[skillId] <= now;
    assert skillId !in u.0.ends.entries;
    assert skillId !in u.0.ends.keys;
    var u2 := Update(u.0, later);
    forall e | e in u2.1 ensures e.skillId != skillId {
      var j :| 0 <= j < |u2.1| && u2.1[j] == e;
      assert e == EventFor(u.0, later, u.0.ends.keys[j]);
    }
  }

  /** An entry that `update` keeps is reported with its exact remaining time. */
  lemma UpdateReportsRemaining(c: Cooldowns, now: real, i: int)
    requires Valid(c)
    requires 0 <= i < |c.ends.keys|
    requires 0.0 <= now < c.ends.entries[c.ends.keys[i]]
    ensures Update(c, now).1[i] == Tick(c.ends.keys[i], GetRemainingTime(c, c.ends.keys[i], now), MapGet(c.durations, c.ends.keys[i]))
  {
  }
}

=== FILE: decimal.dfy ===
/** JavaScript's rendering of a non-negative integer in a template string: its decimal digits. */
module Decimal {

  function Digit(d: nat): (c: char)
    requires d < 10
    ensures '0' <= c <= '9'
  {
    "0123456789"[d]
  }

  function NatToString(n: nat): (s: string)
    ensures |s| >= 1
    ensures |s| == 1 <==> n < 10
    ensures s[|s| - 1] == Digit(n % 10)
  {
    if n < 10 then [Digit(n)] else NatToString(n / 10) + [Digit(n % 10)]
  }

  lemma DigitInjective(a: nat, b: nat)
    requires a < 10 && b < 10
    requires Digit(a) == Digit(b)
    ensures a == b
  {
  }

  /** Different numbers print differently, so a counter yields fresh names. */
  lemma {:induction false} NatToStringInjective(a: nat, b: nat)
    requires NatToString(a) == NatToString(b)
    ensures a == b
  {
    var sa, sb := NatToString(a), NatToString(b);
    DigitInjective(a % 10, b % 10);
    if a >= 10 && b >= 10 {
      assert NatToString(a / 10) == sa[..|sa| - 1];
      assert NatToString(b / 10) == sb[..|sb| - 1];
      NatToStringInjective(a / 10, b / 10);
    }
  }

  /** A name made of a fixed prefix and a counter is fresh for every counter value. */
  lemma PrefixedInjective(prefix: string, a: nat, b: nat)
    requires prefix + NatToString(a) == prefix + NatToString(b)
    ensures a == b
  {
    var sa, sb := prefix + NatToString(a), prefix + NatToString(b);
    assert NatToString(a) == sa[|prefix|..];
    assert NatToString(b) == sb[|prefix|..];
    NatToStringInjective(a, b);
  }
}

=== FILE: enemy_config.dfy ===
/**
 * The enemy tables of src/core/EnemyConfig.ts: base stats, behaviour and drops per enemy type.
 * Colours and descriptions are presentation and are not kept.
 */
module EnemyConfig {
  import opened Wrappers
  import EssenceSystem

  datatype EnemyType = Basic | Fast | Tank | Ranged | Boss

  datatype EnemyStats = EnemyStats(
    baseHealth: real,
    baseDamage: real,
    baseAttackSpeed: real,
    baseRange: real,
    baseMoveSpeed: real,
    size: real)

  datatype AttackPattern = Melee | RangedAttack | Aoe
  datatype MovePattern = Chase | Circle | Zigzag

  datatype EnemyBehavior = EnemyBehavior(attackPattern: AttackPattern, movePattern: MovePattern, specialAbilities: Option<seq<string>>)

  datatype EnemyDrop = EnemyDrop(essenceType: EssenceSystem.EssenceType, dropRate: real, maxDrops: nat)

  /** The record's keys, as the strings a wave's type list names them by. */
  function ParseType(name: string): (r: Option<EnemyType>)
    ensures r.Some? ==> TypeName(r.value) == name
  {
    if name == "basic" then Some(Basic)
    else if name == "fast" then Some(Fast)
    else if name == "tank" then Some(Tank)
    else if name == "ranged" then Some(Ranged)
    else if name == "boss" then Some(Boss)
    else None
  }

  function TypeName(t: EnemyType): string {
    match t
    case Basic => "basic"
    case Fast => "fast"
    case Tank => "tank"
    case Ranged => "ranged"
    case Boss => "boss"
  }

  /** `EnemyConfig`: every type has positive health, damage, attack speed, range and speed. */
  function Config(t: EnemyType): (r: EnemyStats)
    ensures r.baseHealth > 0.0 && r.baseDamage > 0.0 && r.baseAttackSpeed > 0.0
    ensures r.baseRange > 0.0 && r.baseMoveSpeed > 0.0 && r.size > 0.0
  {
    match t
    case Basic => EnemyStats(100.0, 10.0, 1.0, 50.0, 100.0, 15.0)
    case Fast => EnemyStats(60.0, 8.0, 1.5, 40.0, 150.0, 12.0)
    case Tank => EnemyStats(200.0, 15.0, 0.7, 45.0, 70.0, 20.0)
    case Ranged => EnemyStats(80.0, 12.0, 0.8, 150.0, 90.0, 14.0)
    case Boss => EnemyStats(1000.0, 30.0, 0.5, 100.0, 60.0, 30.0)
  }

  /** `EnemyBehaviors`: only the boss attacks an area, only the ranged enemy attacks from afar. */
  function Behavior(t: EnemyType): (r: EnemyBehavior)
    ensures r.attackPattern == Aoe <==> t == Boss
    ensures r.attackPattern == RangedAttack <==> t == Ranged
    ensures r.specialAbilities.None? <==> t == Basic
  {
    match t
    case Basic => EnemyBehavior(Melee, Chase, None)
    case Fast => EnemyBehavior(Melee, Zigzag, Some(["dash"]))
    case Tank => EnemyBehavior(Melee, Chase, Some(["shield"]))
    case Ranged => EnemyBehavior(RangedAttack, Circle, Some(["multishot"]))
    case Boss => EnemyBehavior(Aoe, Chase, Some(["summon", "rage", "heal"]))
  }

  /** `EnemyDrops`: a drop rate in (0, 1] and at least one drop for every type. */
  function Drops(t: EnemyType): (r: EnemyDrop)
    ensures 0.0 < r.dropRate <= 1.0 && 1 <= r.maxDrops
    ensures r.essenceType == EssenceSystem.Boss <==> t == Boss
  {
    match t
    case Basic => EnemyDrop(EssenceSystem.Small, 0.7, 1)
    case Fast => EnemyDrop(EssenceSystem.Small, 0.8, 2)
    case Tank => EnemyDrop(EssenceSystem.Medium, 0.9, 2)
    case Ranged => EnemyDrop(EssenceSystem.Medium, 0.85, 2)
    case Boss => EnemyDrop(EssenceSystem.Boss, 1.0, 5)
  }

  // ---------------------------------------------------------------- properties

  /** Every type name parses back to its type, so the table's keys are exactly the five names. */
  lemma ParseTypeName(t: EnemyType)
    ensures ParseType(TypeName(t)) == Some(t)
  {
  }

  /** The boss out-hits and out-lasts every other type, and only the boss always drops. */
  lemma BossDominates(t: EnemyType)
    requires t != Boss
    ensures Config(t).baseHealth < Config(Boss).baseHealth
    ensures Config(t).baseDamage < Config(Boss).baseDamage
    ensures Drops(t).dropRate < 1.0 && Drops(t).maxDrops < Drops(Boss).maxDrops
  {
  }

  /** The trade-offs the table encodes: the fast type is quickest and frailest, the tank slowest of the rank and file. */
  lemma TradeOffs(t: EnemyType)
    requires t != Boss
    ensures Config(t).baseMoveSpeed <= Config(Fast).baseMoveSpeed
    ensures Config(Fast).baseHealth <= Config(t).baseHealth
    ensures Config(Tank).baseMoveSpeed <= Config(t).baseMoveSpeed
    ensures Config(t).baseRange <= Config(Ranged).baseRange
  {
  }
}

=== FILE: enemy_spawn_system.dfy ===
/**
 * The pooled enemy spawner of src/core/EnemySpawnSystem.ts: a pool of 100 reusable enemy
 * descriptors, a spawn interval inflated under frame-rate pressure, a cap growing with the wave
 * number, and wave-scaled health and damage.
 */
module EnemySpawnSystem {
  import opened Wrappers
  import opened Numeric
  import opened Vector2D
  import PerformanceMonitor
  import WeightedDraw

  /** A pooled descriptor; `position` is absent until the descriptor is first configured. */
  datatype Pooled = Pooled(id: string, kind: string, health: real, speed: real, damage: real, position: Option<Vec>)

  /** The caller's spawn state; the source mutates this object in place, so it is returned. */
  datatype SpawnState = SpawnState(
    waveNumber: real,
    enemyCount: real,
    spawnInterval: real,
    lastSpawnTime: real,
    spawnRadius: real)

  const BaseEnemy := Pooled("basic_enemy", "basic", 100.0, 3.0, 10.0, None)

  const ObjectPoolSize: nat := 100

  datatype Spawner = Spawner(pool: seq<Pooled>, monitor: PerformanceMonitor.Monitor)

  predicate Valid(s: Spawner) {
    |s.pool| <= ObjectPoolSize && PerformanceMonitor.Valid(s.monitor)
  }

  /** The constructor: 100 copies of the base enemy and a fresh monitor. */
  function Init(): (s: Spawner)
    ensures Valid(s)
    ensures |s.pool| == ObjectPoolSize && forall i :: 0 <= i < |s.pool| ==> s.pool[i] == BaseEnemy
    ensures s.monitor == PerformanceMonitor.Init()
  {
    Spawner(seq(ObjectPoolSize, _ => BaseEnemy), PerformanceMonitor.Init())
  }

  /** `getFromPool`: the most recently pooled descriptor, or nothing when the pool is empty. */
  function GetFromPool(s: Spawner): (r: (Spawner, Option<Pooled>))
    ensures |s.pool| == 0 ==> r == (s, None)
    ensures |s.pool| > 0 ==>
      && r.1 == Some(s.pool[|s.pool| - 1])
      && r.0.pool + [r.1.value] == s.pool
      && r.0.monitor == s.monitor
    ensures Valid(s) ==> Valid(r.0)
  {
    if |s.pool| == 0 then (s, None)
    else (s.(pool := s.pool[..|s.pool| - 1]), Some(s.pool[|s.pool| - 1]))
  }

  /** `returnToPool`: the descriptor goes back unless the pool is already full. */
  function ReturnToPool(s: Spawner, enemy: Pooled): (r: Spawner)
    ensures |s.pool| < ObjectPoolSize ==> r == s.(pool := s.pool + [enemy])
    ensures |s.pool| >= ObjectPoolSize ==> r == s
    ensures Valid(s) ==> Valid(r)
  {
    if |s.pool| < ObjectPoolSize then s.(pool := s.pool + [enemy]) else s
  }

  /** `getActiveEnemyCount`: the descriptors handed out and not yet returned. */
  function GetActiveEnemyCount(s: Spawner): (r: int)
    ensures Valid(s) ==> 0 <= r <= ObjectPoolSize
    ensures r + GetPoolSize(s) == ObjectPoolSize
  {
    ObjectPoolSize - |s.pool|
  }

  function GetPoolSize(s: Spawner): (r: nat)
    ensures r == |s.pool|
  {
    |s.pool|
  }

  /**
   * `selectEnemyType` with the draw `r ∈ [0, 1)`: the weighted choice, falling back to the first
   * type. The source reads `types[0]` on an empty list and throws; that is `None` here.
   */
  function SelectEnemyType(types: seq<WeightedDraw.Weighted>, r: real): (t: Option<string>)
    ensures |types| == 0 <==> t.None?
    ensures t.Some? ==> exists i :: 0 <= i < |types| && types[i].kind == t.value
    ensures WeightedDraw.SelectIndex(types, r).Some? ==>
      t == Some(types[WeightedDraw.SelectIndex(types, r).value].kind)
    ensures WeightedDraw.SelectIndex(types, r).None? && |types| > 0 ==> t == Some(types[0].kind)
  {
    var i := WeightedDraw.SelectIndex(types, r);
    if i.Some? then Some(types[i.value].kind)
    else if |types| > 0 then Some(types[0].kind)
    else None
  }

  /**
   * With non-negative weights, type `i` is drawn exactly when the scaled draw falls in its band
   * of running weight totals, so each type comes up in proportion to its weight.
   */
  lemma SelectsByBand(types: seq<WeightedDraw.Weighted>, r: real, i: nat)
    requires WeightedDraw.NonNegative(types) && i < |types|
    requires r * WeightedDraw.Total(types) <= WeightedDraw.Prefix(types, i + 1)
    requires i == 0 || WeightedDraw.Prefix(types, i) < r * WeightedDraw.Total(types)
    ensures SelectEnemyType(types, r) == Some(types[i].kind)
  {
    WeightedDraw.SelectedBand(types, r, i);
  }

  /** `getMaxEnemies`: ten plus two per wave, rounded down. */
  function GetMaxEnemies(waveNumber: real): (r: int)
    ensures r as real <= 10.0 + waveNumber * 2.0 < r as real + 1.0
  {
    (10.0 + waveNumber * 2.0).Floor
  }

  /**
   * `configureEnemy`, with the spawn point as a parameter: the position is set and health and
   * damage are the base enemy's scaled by 10% and 5% per wave; the rest of the descriptor is kept.
   */
  function ConfigureEnemy(enemy: Pooled, state: SpawnState, spawnPosition: Vec): (r: Pooled)
    ensures r.id == enemy.id && r.kind == enemy.kind && r.speed == enemy.speed
    ensures r.position == Some(spawnPosition)
    ensures r.health == BaseEnemy.health + 10.0 * state.waveNumber
    ensures r.damage == BaseEnemy.damage + 0.5 * state.waveNumber
  {
    enemy.(
      position := Some(spawnPosition),
      health := BaseEnemy.health * (1.0 + state.waveNumber * 0.1),
      damage := BaseEnemy.damage * (1.0 + state.waveNumber * 0.05))
  }

  /** Whether the interval has elapsed since the last spawn, judged by `now`. */
  predicate Due(state: SpawnState, interval: real, now: real) {
    !(now - state.lastSpawnTime < interval)
  }

  /**
   * `update`, with `perfNow` the frame clock read by the monitor, `now` the wall clock and the
   * spawn point as parameters. It returns the spawner, the caller's mutated state and the
   * configured enemy, if any.
   */
  function Update(s: Spawner, state: SpawnState, perfNow: real, now: real, spawnPosition: Vec): (r: (Spawner, SpawnState, Option<Pooled>))
    requires Valid(s)
    ensures Valid(r.0)
    ensures var monitor := PerformanceMonitor.Update(s.monitor, perfNow);
      var interval := if PerformanceMonitor.ShouldThrottle(monitor) then state.spawnInterval * 1.5 else state.spawnInterval;
      var due := Due(state, interval, now);
      var spawning := due && state.enemyCount < GetMaxEnemies(state.waveNumber) as real;
      && r.0.monitor == monitor
      && r.1 == state.(spawnInterval := interval, lastSpawnTime := if spawning then now else state.lastSpawnTime)
      && (!spawning ==> r.0.pool == s.pool && r.2.None?)
      && (spawning ==>
            && (r.2.Some? <==> |s.pool| > 0)
            && (|s.pool| > 0 ==>
                  && r.0.pool == s.pool[..|s.pool| - 1]
                  && r.2.value == ConfigureEnemy(s.pool[|s.pool| - 1], state, spawnPosition))
            && (|s.pool| == 0 ==> r.0.pool == s.pool))
  {
    var monitor := PerformanceMonitor.Update(s.monitor, perfNow);
    var s := s.(monitor := monitor);
    var state := if PerformanceMonitor.ShouldThrottle(monitor) then state.(spawnInterval := state.spawnInterval * 1.5) else state;
    if now - state.lastSpawnTime < state.spawnInterval then (s, state, None)
    else if state.enemyCount < GetMaxEnemies(state.waveNumber) as real then
      var state := state.(lastSpawnTime := now);
      var taken := GetFromPool(s);
      match taken.1
      case Some(enemy) => (taken.0, state, Some(ConfigureEnemy(enemy, state, spawnPosition)))
      case None => (taken.0, state, None)
    else (s, state, None)
  }

  // ---------------------------------------------------------------- properties

  /** Taking a descriptor and giving it back restores the pool. */
  lemma GetReturnRoundTrip(s: Spawner)
    requires Valid(s) && |s.pool| > 0
    ensures var taken := GetFromPool(s); ReturnToPool(taken.0, taken.1.value) == s
  {
  }

  /** Handing out an enemy raises the active count by one; otherwise it is unchanged. */
  lemma UpdateCountsActive(s: Spawner, state: SpawnState, perfNow: real, now: real, p: Vec)
    requires Valid(s)
    ensures var r := Update(s, state, perfNow, now, p);
      && (r.2.Some? ==> GetActiveEnemyCount(r.0) == GetActiveEnemyCount(s) + 1)
      && (r.2.None? ==> GetActiveEnemyCount(r.0) == GetActiveEnemyCount(s))
  {
  }

  /** Returning never lets the pool outgrow its size, and undoes one hand-out below that. */
  lemma ReturnBounded(s: Spawner, e: Pooled)
    requires Valid(s)
    ensures GetPoolSize(ReturnToPool(s, e)) <= ObjectPoolSize
    ensures GetActiveEnemyCount(s) > 0 ==> GetActiveEnemyCount(ReturnToPool(s, e)) == GetActiveEnemyCount(s) - 1
    ensures GetActiveEnemyCount(s) == 0 ==> ReturnToPool(s, e) == s
  {
  }

  /** The throttle only inflates: a non-negative interval never shrinks, and grows by half under load. */
  lemma IntervalNeverShrinks(s: Spawner, state: SpawnState, perfNow: real, now: real, p: Vec)
    requires Valid(s) && state.spawnInterval >= 0.0
    ensures var r := Update(s, state, perfNow, now, p);
      && r.1.spawnInterval >= state.spawnInterval
      && (PerformanceMonitor.ShouldThrottle(r.0.monitor) ==> r.1.spawnInterval == 1.5 * state.spawnInterval)
  {
  }

  /** Before the interval has passed nothing spawns and the last spawn time stays put. */
  lemma RespectsInterval(s: Spawner, state: SpawnState, perfNow: real, p: Vec)
    requires Valid(s) && state.spawnInterval > 0.0
    ensures var r := Update(s, state, perfNow, state.lastSpawnTime, p);
      r.2.None? && r.1.lastSpawnTime == state.lastSpawnTime && r.0.pool == s.pool
  {
  }

  /** At the cap nothing spawns: a hundred live enemies in wave 1 are over its cap of 12. */
  lemma LimitsEnemyCount(s: Spawner, state: SpawnState, perfNow: real, now: real, p: Vec)
    requires Valid(s) && state.waveNumber == 1.0 && state.enemyCount == 100.0
    ensures var r := Update(s, state, perfNow, now, p);
      r.2.None? && r.1.lastSpawnTime == state.lastSpawnTime && r.0.pool == s.pool
  {
    assert GetMaxEnemies(1.0) == 12;
  }

  /**
   * A fresh spawner spawns a basic enemy once the interval (even inflated) has passed, with
   * health scaled above the base: 110 in wave 1, 120 in wave 2.
   */
  lemma SpawnsScaledEnemy(now: real, perfNow: real, p: Vec, wave: real)
    requires wave == 1.0 || wave == 2.0
    requires now >= 1500.0
    ensures var r := Update(Init(), SpawnState(wave, 0.0, 1000.0, 0.0, 400.0), perfNow, now, p);
      && r.2.Some? && r.2.value.kind == "basic"
      && r.2.value.health == 100.0 + 10.0 * wave > BaseEnemy.health
      && GetActiveEnemyCount(r.0) == 1
  {
    assert GetMaxEnemies(wave) >= 12;
  }

  /** With the pool exhausted a due update still consumes the interval but yields nothing. */
  lemma EmptyPoolStillResetsClock(s: Spawner, state: SpawnState, perfNow: real, now: real, p: Vec)
    requires Valid(s) && |s.pool| == 0
    requires 0.0 <= state.spawnInterval && now - state.lastSpawnTime >= 1.5 * state.spawnInterval
    requires state.enemyCount < GetMaxEnemies(state.waveNumber) as real
    ensures var r := Update(s, state, perfNow, now, p);
      r.2.None? && r.1.lastSpawnTime == now
  {
  }
}

=== FILE: essence_system.dfy ===
/**
 * The experience pickups of src/core/EssenceSystem.ts: essences are spawned with ids from a
 * counter, expire after their lifetime, and are collected when the player comes close.
 */
module EssenceSystem {
  import opened Wrappers
  import opened Numeric
  import opened OrderedMap
  import opened Vector2D
  import opened Decimal

  datatype EssenceType = Small | Medium | Large | Boss

  /** A row of `ESSENCE_CONFIG`, without its display colour. */
  datatype EssenceData = EssenceData(
    kind: EssenceType,
    baseExp: real,
    dropRate: real,
    maxDrops: nat,
    duration: real,
    radius: real)

  function Config(t: EssenceType): (r: EssenceData)
    ensures r.kind == t
  {
    match t
    case Small => EssenceData(Small, 10.0, 0.7, 2, 10000.0, 20.0)
    case Medium => EssenceData(Medium, 25.0, 0.5, 3, 15000.0, 25.0)
    case Large => EssenceData(Large, 50.0, 0.3, 4, 20000.0, 30.0)
    case Boss => EssenceData(Boss, 200.0, 1.0, 5, 30000.0, 40.0)
  }

  datatype Essence = Essence(
    id: string,
    kind: EssenceType,
    position: Vec,
    expValue: real,
    lifeTime: real,
    spawnTime: real,
    collectRadius: real)

  datatype EssenceEvent =
    | Spawn(essence: Essence)
    | Collect(essence: Essence, expGained: real)
    | Expire(essence: Essence, expGained: real)

  datatype Essences = Essences(store: OMap<string, Essence>, nextId: nat)

  function EssenceId(n: nat): string {
    "essence_" + NatToString(n)
  }

  /** The key was issued by the counter before it reached `n`. */
  ghost predicate IssuedBefore(k: string, n: nat) {
    exists i: nat :: i < n && k == EssenceId(i)
  }

  /** Every stored essence sits under its own id, and every id came from the counter. */
  ghost predicate Valid(s: Essences) {
    && s.store.Valid()
    && forall k :: k in s.store.entries ==> s.store.entries[k].id == k && IssuedBefore(k, s.nextId)
  }

  function Init(): (s: Essences)
    ensures Valid(s)
    ensures s.store.entries == map[] && s.nextId == 0
  {
    Essences(Empty(), 0)
  }

  /** The experience an essence carries: 10, 25, 50 and 100, so a boss essence ignores the table's 200. */
  function GetExpValue(t: EssenceType): (r: real)
    ensures t != Boss ==> r == Config(t).baseExp
    ensures t == Boss ==> r * 2.0 == Config(t).baseExp
  {
    match t
    case Small => 10.0
    case Medium => 25.0
    case Large => 50.0
    case Boss => 100.0
  }

  /** The counter's next id is not in use. */
  lemma FreshId(s: Essences)
    requires Valid(s)
    ensures EssenceId(s.nextId) !in s.store.entries
  {
    if EssenceId(s.nextId) in s.store.entries {
      var i: nat :| i < s.nextId && EssenceId(s.nextId) == EssenceId(i);
      PrefixedInjective("essence_", i, s.nextId);
    }
  }

  /**
   * `spawnEssence`: a new essence under the counter's next id, with the experience of
   * GetExpValue and the lifetime and reach of the configuration table; one spawn event.
   */
  function SpawnEssence(s: Essences, t: EssenceType, position: Vec, now: real): (r: (Essences, seq<EssenceEvent>))
    requires Valid(s)
    ensures var e := Essence(EssenceId(s.nextId), t, position, GetExpValue(t), Config(t).duration, now, Config(t).radius);
      && EssenceId(s.nextId) !in s.store.entries
      && r.0.store.entries == s.store.entries[e.id := e]
      && r.0.store.keys == s.store.keys + [e.id]
      && r.0.nextId == s.nextId + 1
      && r.1 == [Spawn(e)]
    ensures Valid(r.0)
  {
    var e := Essence(EssenceId(s.nextId), t, position, GetExpValue(t), Config(t).duration, now, Config(t).radius);
    FreshId(s);
    var r := Essences(Put(s.store, e.id, e), s.nextId + 1);
    assert forall k :: k in r.store.entries ==> IssuedBefore(k, r.nextId) by {
      forall k | k in r.store.entries ensures IssuedBefore(k, r.nextId) {
        if k == e.id {
          assert EssenceId(s.nextId) == k;
        } else {
          var i: nat :| i < s.nextId && k == EssenceId(i);
          assert i < r.nextId;
        }
      }
    }
    (r, [Spawn(e)])
  }

  datatype Reason = ByCollect | ByExpire

  /** `removeEssence`: an unknown id changes nothing; otherwise the essence leaves with one event. */
  function RemoveEssence(s: Essences, id: string, reason: Reason): (r: (Essences, seq<EssenceEvent>))
    ensures id !in s.store.entries ==> r == (s, [])
    ensures id in s.store.entries ==>
      var e := s.store.entries[id];
      && r.0.store.entries == s.store.entries - {id}
      && r.0.nextId == s.nextId
      && r.1 == [if reason == ByCollect then Collect(e, e.expValue) else Expire(e, 0.0)]
    ensures Valid(s) ==> Valid(r.0)
  {
    if id !in s.store.entries then (s, [])
    else
      var e := s.store.entries[id];
      (s.(store := Delete(s.store, id)),
       [if reason == ByCollect then Collect(e, e.expValue) else Expire(e, 0.0)])
  }

  /**
   * `collectEssence`: an unknown id changes nothing; a stored one is removed with two collect
   * events, one from the method itself and one from the removal, both carrying its experience.
   */
  function CollectEssence(s: Essences, id: string): (r: (Essences, seq<EssenceEvent>))
    ensures id !in s.store.entries ==> r == (s, [])
    ensures id in s.store.entries ==>
      var e := s.store.entries[id];
      && r.0.store.entries == s.store.entries - {id}
      && r.0.nextId == s.nextId
      && r.1 == [Collect(e, e.expValue), Collect(e, e.expValue)]
    ensures Valid(s) ==> Valid(r.0)
  {
    if id !in s.store.entries then (s, [])
    else
      var e := s.store.entries[id];
      var removed := RemoveEssence(s, id, ByCollect);
      (removed.0, [Collect(e, e.expValue)] + removed.1)
  }

  /** Past its lifetime, which the source multiplies by 1000 although it is already in ms. */
  predicate Expired(e: Essence, now: real) {
    now - e.spawnTime > e.lifeTime * 1000.0
  }

  /** Within the essence's pickup reach of the player's position, strictly. */
  predicate Reached(e: Essence, player: Option<Vec>, sqrt: real -> real)
    requires IsSqrt(sqrt)
  {
    player.Some? && Distance(player.value, e.position, sqrt) < e.collectRadius
  }

  /**
   * One iteration of `update`: an expired essence is removed with an expire event and not
   * collected; a live one within reach of the player (whose position the combat registry
   * supplies, if it has one) is collected; anything else stays.
   */
  function Visit(s: Essences, id: string, now: real, player: Option<Vec>, sqrt: real -> real): (r: (Essences, seq<EssenceEvent>))
    requires IsSqrt(sqrt)
    ensures id !in s.store.entries ==> r == (s, [])
    ensures id in s.store.entries ==>
      var e := s.store.entries[id];
      && (Expired(e, now) ==> r.0.store.entries == s.store.entries - {id} && r.1 == [Expire(e, 0.0)])
      && (!Expired(e, now) && Reached(e, player, sqrt) ==>
            r.0.store.entries == s.store.entries - {id} && r.1 == [Collect(e, e.expValue), Collect(e, e.expValue)])
      && (!Expired(e, now) && !Reached(e, player, sqrt) ==> r == (s, []))
    ensures r.0.nextId == s.nextId
    ensures Valid(s) ==> Valid(r.0)
  {
    if id !in s.store.entries then (s, [])
    else
      var e := s.store.entries[id];
      if Expired(e, now) then RemoveEssence(s, id, ByExpire)
      else if Reached(e, player, sqrt) then CollectEssence(s, id)
      else (s, [])
  }

  /**
   * The events a tick gives the essence stored under `k` before the tick began: an expire
   * event with no experience once its lifetime is over, otherwise two collect events with its
   * experience when the player is within reach, otherwise none.
   */
  function KeyEvents(entries: map<string, Essence>, k: string, now: real, player: Option<Vec>, sqrt: real -> real): seq<EssenceEvent>
    requires IsSqrt(sqrt)
  {
    if k !in entries then []
    else
      var e := entries[k];
      if Expired(e, now) then [Expire(e, 0.0)]
      else if Reached(e, player, sqrt) then [Collect(e, e.expValue), Collect(e, e.expValue)]
      else []
  }

  /** The events of the essences under `keys`, one key after another, all judged on `entries`. */
  function TickEvents(entries: map<string, Essence>, keys: seq<string>, now: real, player: Option<Vec>, sqrt: real -> real): seq<EssenceEvent>
    requires IsSqrt(sqrt)
    decreases |keys|
  {
    if keys == [] then []
    else KeyEvents(entries, keys[0], now, player, sqrt) + TickEvents(entries, keys[1..], now, player, sqrt)
  }

  /**
   * `update`: visits a snapshot of the keys in insertion order, with one clock reading `now`.
   * The events are those of every stored essence, in insertion order, as the store stood
   * before the tick.
   */
  function Update(s: Essences, now: real, player: Option<Vec>, sqrt: real -> real): (r: (Essences, seq<EssenceEvent>))
    requires IsSqrt(sqrt)
    ensures Valid(s) ==> Valid(r.0)
    ensures Valid(s) ==> r.1 == TickEvents(s.store.entries, s.store.keys, now, player, sqrt)
    ensures Valid(s) ==>
      && (forall k :: k in r.0.store.entries <==>
            k in s.store.entries && !Expired(s.store.entries[k], now) && !Reached(s.store.entries[k], player, sqrt))
      && (forall k :: k in r.0.store.entries ==> r.0.store.entries[k] == s.store.entries[k])
    ensures r.0.nextId == s.nextId
  {
    UpdateFromSurvivors(s, now, player, s.store.keys, sqrt);
    UpdateFrom(s, now, player, s.store.keys, sqrt)
  }

  /**
   * The visit over `keys`. Visiting one key removes at most that key's essence, so with
   * distinct keys each later essence is judged as it stood before the pass.
   */
  function UpdateFrom(s: Essences, now: real, player: Option<Vec>, keys: seq<string>, sqrt: real -> real): (r: (Essences, seq<EssenceEvent>))
    requires IsSqrt(sqrt)
    ensures Valid(s) ==> Valid(r.0)
    ensures Distinct(keys) ==> r.1 == TickEvents(s.store.entries, keys, now, player, sqrt)
    ensures r.0.nextId == s.nextId
    decreases |keys|
  {
    if keys == [] then (s, [])
    else
      var first := Visit(s, keys[0], now, player, sqrt);
      var rest := UpdateFrom(first.0, now, player, keys[1..], sqrt);
      assert Distinct(keys) ==> Distinct(keys[1..]) && keys[0] !in keys[1..] by {
        if Distinct(keys) {
          DistinctTail(keys);
        }
      }
      TickEventsWithout(s.store.entries, keys[1..], keys[0], now, player, sqrt);
      (rest.0, first.1 + rest.1)
  }

  /**
   * What a pass leaves: exactly the essences it did not visit and those it visited that had
   * neither expired nor come within the player's reach, each unchanged.
   */
  lemma {:induction false} UpdateFromSurvivors(s: Essences, now: real, player: Option<Vec>, keys: seq<string>, sqrt: real -> real)
    requires IsSqrt(sqrt)
    ensures var r := UpdateFrom(s, now, player, keys, sqrt).0;
      && (forall k :: k in r.store.entries <==>
            k in s.store.entries && (k in keys ==> !Expired(s.store.entries[k], now) && !Reached(s.store.entries[k], player, sqrt)))
      && (forall k :: k in r.store.entries ==> r.store.entries[k] == s.store.entries[k])
    decreases |keys|
  {
    if keys != [] {
      var first := Visit(s, keys[0], now, player, sqrt);
      UpdateFromSurvivors(first.0, now, player, keys[1..], sqrt);
      assert forall k :: k in keys <==> k == keys[0] || k in keys[1..];
    }
  }

  /** After a tick, no stored essence has expired or is within the player's reach. */
  lemma UpdateLeavesOnlyLive(s: Essences, now: real, player: Option<Vec>, sqrt: real -> real)
    requires IsSqrt(sqrt)
    requires Valid(s)
    ensures var r := Update(s, now, player, sqrt).0;
      forall k :: k in r.store.entries ==>
        k in s.store.entries && !Expired(r.store.entries[k], now) && !Reached(r.store.entries[k], player, sqrt)
  {
    UpdateFromSurvivors(s, now, player, s.store.keys, sqrt);
  }

  /** Removing an essence the keys do not name leaves their events as they are. */
  lemma {:induction false} TickEventsWithout(entries: map<string, Essence>, keys: seq<string>, id: string, now: real, player: Option<Vec>, sqrt: real -> real)
    requires IsSqrt(sqrt)
    ensures id !in keys ==> TickEvents(entries - {id}, keys, now, player, sqrt) == TickEvents(entries, keys, now, player, sqrt)
    decreases |keys|
  {
    if keys != [] && id !in keys {
      assert keys[0] != id;
      assert KeyEvents(entries - {id}, keys[0], now, player, sqrt) == KeyEvents(entries, keys[0], now, player, sqrt);
      TickEventsWithout(entries, keys[1..], id, now, player, sqrt);
    }
  }

  /** An event of the pass is an event of one of the keys. */
  lemma {:induction false} TickEventsMembers(entries: map<string, Essence>, keys: seq<string>, now: real, player: Option<Vec>, sqrt: real -> real)
    requires IsSqrt(sqrt)
    ensures forall ev :: ev in TickEvents(entries, keys, now, player, sqrt) <==>
      exists k :: k in keys && ev in KeyEvents(entries, k, now, player, sqrt)
    decreases |keys|
  {
    if keys != [] {
      TickEventsMembers(entries, keys[1..], now, player, sqrt);
      assert forall k :: k in keys <==> k == keys[0] || k in keys[1..];
    }
  }

  /** The essence is the one stored under its own id. */
  ghost predicate Stored(s: Essences, e: Essence) {
    e.id in s.store.entries && s.store.entries[e.id] == e
  }

  /**
   * What a tick reports about expiry: an expire event, with no experience, for exactly the
   * stored essences past their lifetime; never a spawn.
   */
  lemma UpdateExpiries(s: Essences, now: real, player: Option<Vec>, sqrt: real -> real)
    requires IsSqrt(sqrt)
    requires Valid(s)
    ensures var events := Update(s, now, player, sqrt).1;
      && (forall e, x :: Expire(e, x) in events <==> Stored(s, e) && Expired(e, now) && x == 0.0)
      && (forall ev :: ev in events ==> !ev.Spawn?)
  {
    var m := s.store.entries;
    var events := Update(s, now, player, sqrt).1;
    TickEventsMembers(m, s.store.keys, now, player, sqrt);
    forall e, x ensures Expire(e, x) in events <==> Stored(s, e) && Expired(e, now) && x == 0.0 {
      if Expire(e, x) in events {
        var k :| k in s.store.keys && Expire(e, x) in KeyEvents(m, k, now, player, sqrt);
        KeyEventsOf(s, k, now, player, sqrt);
      } else if Stored(s, e) && Expired(e, now) && x == 0.0 {
        KeyEventsOf(s, e.id, now, player, sqrt);
      }
    }
    forall ev | ev in events ensures !ev.Spawn? {
      var k :| k in s.store.keys && ev in KeyEvents(m, k, now, player, sqrt);
      KeyEventsOf(s, k, now, player, sqrt);
    }
  }

  /**
   * What a tick reports about collection: collect events, with their experience, for exactly
   * the stored essences still live and within the player's reach.
   */
  lemma UpdateCollections(s: Essences, now: real, player: Option<Vec>, sqrt: real -> real)
    requires IsSqrt(sqrt)
    requires Valid(s)
    ensures forall e, x :: Collect(e, x) in Update(s, now, player, sqrt).1 <==>
      Stored(s, e) && !Expired(e, now) && Reached(e, player, sqrt) && x == e.expValue
  {
    var m := s.store.entries;
    var events := Update(s, now, player, sqrt).1;
    TickEventsMembers(m, s.store.keys, now, player, sqrt);
    forall e, x ensures Collect(e, x) in events <==>
      Stored(s, e) && !Expired(e, now) && Reached(e, player, sqrt) && x == e.expValue
    {
      if Collect(e, x) in events {
        var k :| k in s.store.keys && Collect(e, x) in KeyEvents(m, k, now, player, sqrt);
        KeyEventsOf(s, k, now, player, sqrt);
      } else if Stored(s, e) && !Expired(e, now) && Reached(e, player, sqrt) && x == e.expValue {
        KeyEventsOf(s, e.id, now, player, sqrt);
      }
    }
  }

  /** One key's events, read off the essence stored under it. */
  lemma KeyEventsOf(s: Essences, k: string, now: real, player: Option<Vec>, sqrt: real -> real)
    requires IsSqrt(sqrt)
    requires Valid(s)
    ensures var events := KeyEvents(s.store.entries, k, now, player, sqrt);
      && (forall e, x :: Expire(e, x) in events <==> e.id == k && Stored(s, e) && Expired(e, now) && x == 0.0)
      && (forall e, x :: Collect(e, x) in events <==>
            e.id == k && Stored(s, e) && !Expired(e, now) && Reached(e, player, sqrt) && x == e.expValue)
      && (forall ev :: ev in events ==> !ev.Spawn?)
  {
  }

  /**
   * `getEssencesInRange`: the stored essences, in insertion order, with a positive lifetime
   * and within `radius` of `position`, each once. It is a read and leaves the store as it is.
   */
  function GetEssencesInRange(s: Essences, position: Vec, radius: real, sqrt: real -> real): (r: seq<Essence>)
    requires IsSqrt(sqrt)
    requires Valid(s)
    ensures forall e :: e in r <==>
      (exists k :: k in s.store.entries && s.store.entries[k] == e) && InQueryRange(e, position, radius, sqrt)
    ensures InKeyOrder(r, s.store.keys)
    ensures forall i, j :: 0 <= i < j < |r| ==> r[i] != r[j]
  {
    InRangeFrom(s.store, s.store.keys, position, radius, sqrt)
  }

  predicate InQueryRange(e: Essence, position: Vec, radius: real, sqrt: real -> real)
    requires IsSqrt(sqrt)
  {
    e.lifeTime > 0.0 && Distance(position, e.position, sqrt) <= radius
  }

  /** The first position of `k` in `keys`. */
  function KeyPosition(keys: seq<string>, k: string): (r: nat)
    requires k in keys
    ensures r < |keys| && keys[r] == k
    ensures forall j :: 0 <= j < r ==> keys[j] != k
    decreases |keys|
  {
    if keys[0] == k then 0 else 1 + KeyPosition(keys[1..], k)
  }

  /** Each essence of `r` has its id in `keys`, each earlier one at an earlier position. */
  ghost predicate InKeyOrder(r: seq<Essence>, keys: seq<string>) {
    && (forall i :: 0 <= i < |r| ==> r[i].id in keys)
    && (forall i, j :: 0 <= i < j < |r| ==> KeyPosition(keys, r[i].id) < KeyPosition(keys, r[j].id))
  }

  /**
   * The filter over `keys`: exactly the essences that pass, and, when the keys are distinct
   * and each names its own essence, each once and in the order of the keys.
   */
  function InRangeFrom(m: OMap<string, Essence>, keys: seq<string>, position: Vec, radius: real, sqrt: real -> real): (r: seq<Essence>)
    requires IsSqrt(sqrt)
    requires forall k :: k in keys ==> k in m.entries
    ensures forall e :: e in r <==>
      (exists k :: k in keys && m.entries[k] == e) && InQueryRange(e, position, radius, sqrt)
    ensures |r| <= |keys|
    ensures Distinct(keys) && (forall k :: k in keys ==> m.entries[k].id == k) ==>
      && InKeyOrder(r, keys)
      && (forall i, j :: 0 <= i < j < |r| ==> r[i] != r[j])
    decreases |keys|
  {
    if keys == [] then []
    else
      var e := m.entries[keys[0]];
      var rest := InRangeFrom(m, keys[1..], position, radius, sqrt);
      assert forall k :: k in keys <==> k == keys[0] || k in keys[1..];
      InRangeOrder(m, keys, e, rest, position, radius, sqrt);
      if InQueryRange(e, position, radius, sqrt) then [e] + rest else rest
  }

  /** The step of InRangeFrom's ordering: the head's essence comes before the tail's matches. */
  lemma InRangeOrder(m: OMap<string, Essence>, keys: seq<string>, e: Essence, rest: seq<Essence>, position: Vec, radius: real, sqrt: real -> real)
    requires IsSqrt(sqrt)
    requires keys != [] && (forall k :: k in keys ==> k in m.entries) && e == m.entries[keys[0]]
    requires forall x :: x in rest ==> exists k :: k in keys[1..] && m.entries[k] == x
    ensures Distinct(keys) && (forall k :: k in keys ==> m.entries[k].id == k) && InKeyOrder(rest, keys[1..]) ==>
      && InKeyOrder(rest, keys)
      && InKeyOrder([e] + rest, keys)
      && (forall x :: x in rest ==> x != e)
  {
    if Distinct(keys) && (forall k :: k in keys ==> m.entries[k].id == k) && InKeyOrder(rest, keys[1..]) {
      DistinctTail(keys);
      var tail := keys[1..];
      forall k | k in tail ensures k in keys && KeyPosition(keys, k) == KeyPosition(tail, k) + 1 {
        assert keys[0] != k;
      }
      var r := [e] + rest;
      assert e.id == keys[0] && KeyPosition(keys, e.id) == 0;
      forall i | 0 <= i < |r| ensures r[i].id in keys {
        if i > 0 {
          assert r[i] == rest[i - 1];
        }
      }
      forall i, j | 0 <= i < j < |r| ensures KeyPosition(keys, r[i].id) < KeyPosition(keys, r[j].id) {
        assert r[j] == rest[j - 1];
        if i > 0 {
          assert r[i] == rest[i - 1];
        }
      }
      forall x | x in rest ensures x != e {
        var k :| k in tail && m.entries[k] == x;
        assert x.id == k;
      }
    }
  }

  /** When a single stored essence passes the query, the answer is that essence alone. */
  lemma SingleMatch(s: Essences, e: Essence, position: Vec, radius: real, sqrt: real -> real)
    requires IsSqrt(sqrt)
    requires Valid(s)
    requires Stored(s, e) && InQueryRange(e, position, radius, sqrt)
    requires forall k :: k in s.store.entries && k != e.id ==> !InQueryRange(s.store.entries[k], position, radius, sqrt)
    ensures GetEssencesInRange(s, position, radius, sqrt) == [e]
  {
    var r := GetEssencesInRange(s, position, radius, sqrt);
    assert e in r;
    forall i | 0 <= i < |r| ensures r[i] == e {
      assert r[i] in r;
    }
    Constant(r, e);
  }

  /** A sequence of one repeated value has equal first and second elements. */
  lemma Constant(r: seq<Essence>, e: Essence)
    requires forall i :: 0 <= i < |r| ==> r[i] == e
    ensures |r| >= 2 ==> r[0] == r[1]
  {
  }

  /** `clearAllEssences`: the store empties, silently; the counter keeps counting. */
  function ClearAllEssences(s: Essences): (r: Essences)
    ensures r.store.entries == map[]
    ensures r.nextId == s.nextId
    ensures Valid(r)
  {
    Essences(Empty(), s.nextId)
  }

  // ---------------------------------------------------------------- properties

  /** Collecting is idempotent: a second collection of the same id yields no event and no change. */
  lemma CollectIdempotent(s: Essences, id: string)
    ensures var once := CollectEssence(s, id).0;
      CollectEssence(once, id) == (once, [])
  {
  }

  /** An expired essence is never collected, even within the player's reach. */
  lemma ExpiryBeatsCollection(s: Essences, id: string, now: real, player: Option<Vec>, sqrt: real -> real)
    requires IsSqrt(sqrt)
    requires id in s.store.entries && Expired(s.store.entries[id], now)
    ensures forall ev :: ev in Visit(s, id, now, player, sqrt).1 ==> ev.Expire? && ev.expGained == 0.0
  {
  }

  /** Two spawns in a row get different ids, `essence_0` and `essence_1` from a fresh system. */
  lemma SpawnIdsDiffer(s: Essences, t1: EssenceType, t2: EssenceType, p1: Vec, p2: Vec, now: real)
    requires Valid(s)
    ensures var first := SpawnEssence(s, t1, p1, now);
      var second := SpawnEssence(first.0, t2, p2, now);
      && first.1[0].essence.id != second.1[0].essence.id
      && first.1[0].essence.id in second.0.store.entries
      && second.1[0].essence.id in second.0.store.entries
  {
    var first := SpawnEssence(s, t1, p1, now);
    FreshId(first.0);
  }

  lemma FirstIds()
    ensures EssenceId(0) == "essence_0" && EssenceId(1) == "essence_1"
  {
  }

  /**
   * The lifetime is compared after multiplying by 1000: a small essence (lifetime 10000 ms)
   * is still live 10001 ms after spawning, and expires only past 10000000 ms.
   */
  lemma LifetimeScaledTwice(e: Essence)
    requires e.lifeTime == Config(Small).duration && e.spawnTime == 0.0
    ensures !Expired(e, 10001.0)
    ensures !Expired(e, 10000000.0) && Expired(e, 10000001.0)
  {
  }
}

=== FILE: experience_source.dfy ===
/**
 * The experience source registry of src/core/ExperienceSource.ts: which named sources may grant
 * experience now (level requirement, cooldown, daily cap) and how much they grant.
 */
module ExperienceSource {
  import opened Wrappers
  import opened Numeric

  datatype SourceType = Kill | Quest | Item | Exploration | Achievement

  /** An optional numeric field; the source tests each with JavaScript truthiness, so 0 counts as absent. */
  datatype Source = Source(
    kind: SourceType,
    id: string,
    baseExp: real,
    multiplier: Option<real>,
    levelRequirement: Option<real>,
    cooldown: Option<real>,
    maxTimesPerDay: Option<real>)

  predicate Truthy(o: Option<real>) {
    o.Some? && o.value != 0.0
  }

  /** `EXPERIENCE_SOURCES` as a lookup. */
  function ExperienceSources(id: string): (r: Option<Source>)
    ensures r.Some? ==> r.value.id == id
  {
    if id == "kill_normal" then Some(Source(Kill, id, 10.0, Some(1.0), None, None, None))
    else if id == "kill_elite" then Some(Source(Kill, id, 50.0, Some(1.2), None, None, None))
    else if id == "kill_boss" then Some(Source(Kill, id, 200.0, Some(1.5), None, Some(3600000.0), None))
    else if id == "quest_daily" then Some(Source(Quest, id, 100.0, None, None, None, Some(5.0)))
    else if id == "quest_weekly" then Some(Source(Quest, id, 500.0, None, None, None, Some(1.0)))
    else if id == "explore_newarea" then Some(Source(Exploration, id, 150.0, None, Some(5.0), None, None))
    else None
  }

  /** Last grant time and today's grant count per source, and when the counts were last cleared. */
  datatype Manager = Manager(lastGainTime: map<string, real>, dailyGainCount: map<string, real>, lastDayReset: real)

  /** The constructor: its own day-reset check compares `now` with the midnight before it and does nothing. */
  function Init(now: real): (m: Manager)
    ensures m.lastGainTime == map[] && m.dailyGainCount == map[] && m.lastDayReset == now
  {
    Manager(map[], map[], now)
  }

  function Lookup(m: map<string, real>, k: string): (r: real)
    ensures k in m && m[k] != 0.0 ==> r == m[k]
    ensures k !in m || m[k] == 0.0 ==> r == 0.0
  {
    if k in m then m[k] else 0.0
  }

  /**
   * `canGainExperience`: false for an unknown source, below the level requirement, within the
   * cooldown of the last grant (0 if none), or once today's count has reached the cap.
   */
  function CanGainExperience(m: Manager, sourceId: string, playerLevel: real, now: real): (r: bool)
    ensures ExperienceSources(sourceId).None? ==> !r
    ensures ExperienceSources(sourceId).Some? ==>
      var src := ExperienceSources(sourceId).value;
      (r <==>
        && !(Truthy(src.levelRequirement) && playerLevel < src.levelRequirement.value)
        && !(Truthy(src.cooldown) && now - Lookup(m.lastGainTime, sourceId) < src.cooldown.value)
        && !(Truthy(src.maxTimesPerDay) && Lookup(m.dailyGainCount, sourceId) >= src.maxTimesPerDay.value))
  {
    match ExperienceSources(sourceId)
    case None => false
    case Some(src) =>
      if Truthy(src.levelRequirement) && playerLevel < src.levelRequirement.value then false
      else if Truthy(src.cooldown) && now - Lookup(m.lastGainTime, sourceId) < src.cooldown.value then false
      else if Truthy(src.maxTimesPerDay) && Lookup(m.dailyGainCount, sourceId) >= src.maxTimesPerDay.value then false
      else true
  }

  /**
   * The kill penalty: 10% less per level above 10, never below 10%. (The source's comment says
   * per 10 levels; the formula is per level.)
   */
  function LevelFactor(level: real): (r: real)
    ensures 0.1 <= r <= 1.0
    ensures level <= 10.0 ==> r == 1.0
    ensures 10.0 <= level <= 19.0 ==> r == 1.0 - (level - 10.0) * 0.1
    ensures level >= 19.0 ==> r == 0.1
  {
    Max(0.1, 1.0 - Max(0.0, level - 10.0) * 0.1)
  }

  /**
   * `calculateExperience`: 0 for an unknown source; otherwise the base experience, scaled by the
   * level factor for kills and by the multiplier when it is truthy, rounded to the nearest integer.
   */
  function CalculateExperience(sourceId: string, level: real): (r: int)
    ensures ExperienceSources(sourceId).None? ==> r == 0
    ensures ExperienceSources(sourceId).Some? ==>
      var src := ExperienceSources(sourceId).value;
      var factor := if src.kind == Kill then LevelFactor(level) else 1.0;
      var m := if Truthy(src.multiplier) then src.multiplier.value else 1.0;
      var exact := src.baseExp * factor * m;
      exact - 0.5 < r as real <= exact + 0.5
  {
    match ExperienceSources(sourceId)
    case None => 0
    case Some(src) => Round(Exact(src, level))
  }

  /** The unrounded grant of a source at a player level. */
  function Exact(src: Source, level: real): real {
    var exp := src.baseExp;
    var exp := if src.kind == Kill then exp * LevelFactor(level) else exp;
    if Truthy(src.multiplier) then exp * src.multiplier.value else exp
  }

  /** `checkDayReset`, with the local midnight of `now` as a parameter: counts clear once a day. */
  function CheckDayReset(m: Manager, now: real, midnight: real): (r: Manager)
    ensures m.lastDayReset < midnight ==> r == Manager(m.lastGainTime, map[], now)
    ensures !(m.lastDayReset < midnight) ==> r == m
  {
    if m.lastDayReset < midnight then m.(dailyGainCount := map[], lastDayReset := now) else m
  }

  /**
   * `recordExperienceGain`: the day-reset check runs first, even for an unknown source; a known
   * source records `now` as its last grant, and a capped one counts one more grant today.
   */
  function RecordExperienceGain(m: Manager, sourceId: string, now: real, midnight: real): (r: Manager)
    ensures var reset := CheckDayReset(m, now, midnight);
      && (ExperienceSources(sourceId).None? ==> r == reset)
      && (ExperienceSources(sourceId).Some? ==>
            var src := ExperienceSources(sourceId).value;
            && r.lastGainTime == reset.lastGainTime[sourceId := now]
            && r.lastDayReset == reset.lastDayReset
            && (Truthy(src.maxTimesPerDay) ==>
                  r.dailyGainCount == reset.dailyGainCount[sourceId := Lookup(reset.dailyGainCount, sourceId) + 1.0])
            && (!Truthy(src.maxTimesPerDay) ==> r.dailyGainCount == reset.dailyGainCount))
  {
    var m := CheckDayReset(m, now, midnight);
    match ExperienceSources(sourceId)
    case None => m
    case Some(src) =>
      var m := m.(lastGainTime := m.lastGainTime[sourceId := now]);
      if Truthy(src.maxTimesPerDay) then
        m.(dailyGainCount := m.dailyGainCount[sourceId := Lookup(m.dailyGainCount, sourceId) + 1.0])
      else m
  }

  // ---------------------------------------------------------------- properties

  /** A level requirement gates: newly explored areas pay only from level 5. */
  lemma LevelRequirementGates(now: real)
    ensures !CanGainExperience(Init(now), "explore_newarea", 1.0, now)
    ensures CanGainExperience(Init(now), "explore_newarea", 5.0, now)
    ensures !CanGainExperience(Init(now), "unknown", 5.0, now)
  {
  }

  /** A boss kill blocks the next one for an hour after it is recorded, and no longer. */
  lemma BossCooldown(start: real, midnight: real)
    requires midnight <= start
    ensures var m := RecordExperienceGain(Init(start), "kill_boss", start, midnight);
      && !CanGainExperience(m, "kill_boss", 1.0, start)
      && !CanGainExperience(m, "kill_boss", 1.0, start + 3599999.0)
      && CanGainExperience(m, "kill_boss", 1.0, start + 3600000.0)
  {
  }

  /** The weekly quest is capped at one grant a day; the next day's reset lifts the cap. */
  lemma DailyCap(start: real, midnight: real, nextMidnight: real)
    requires midnight <= start < nextMidnight
    ensures var m := RecordExperienceGain(Init(start), "quest_weekly", start, midnight);
      && !CanGainExperience(m, "quest_weekly", 1.0, start)
      && CanGainExperience(CheckDayReset(m, nextMidnight, nextMidnight), "quest_weekly", 1.0, nextMidnight)
  {
  }

  /** Asking never resets: the daily count survives any number of checks. */
  lemma CheckingDoesNotReset(m: Manager, id: string, level: real, now: real)
    requires ExperienceSources(id).Some? && Truthy(ExperienceSources(id).value.maxTimesPerDay)
    requires Lookup(m.dailyGainCount, id) >= ExperienceSources(id).value.maxTimesPerDay.value
    ensures !CanGainExperience(m, id, level, now)
  {
  }

  /** Worked rewards: a normal kill pays 10 at level 1, an elite 60, a boss 300; past level 19 a normal kill pays 1. */
  lemma RewardExamples()
    ensures CalculateExperience("kill_normal", 1.0) == 10
    ensures CalculateExperience("kill_elite", 1.0) == 60
    ensures CalculateExperience("kill_boss", 1.0) == 300
    ensures CalculateExperience("kill_normal", 15.0) == 5
    ensures CalculateExperience("kill_normal", 25.0) == 1
    ensures CalculateExperience("quest_daily", 40.0) == 100
    ensures CalculateExperience("nothing", 1.0) == 0
  {
  }

  /** The kill penalty never rewards a higher level: the factor is non-increasing. */
  lemma LevelFactorNonIncreasing(l1: real, l2: real)
    requires l1 <= l2
    ensures LevelFactor(l2) <= LevelFactor(l1)
  {
  }

  /** So a kill never pays more at a higher level. */
  lemma KillRewardNonIncreasing(id: string, l1: real, l2: real)
    requires ExperienceSources(id).Some? && ExperienceSources(id).value.kind == Kill
    requires l1 <= l2
    ensures CalculateExperience(id, l2) <= CalculateExperience(id, l1)
  {
    var src := ExperienceSources(id).value;
    assert 0.0 <= src.baseExp && (Truthy(src.multiplier) ==> 0.0 < src.multiplier.value);
    KillExactNonIncreasing(src, l1, l2);
    RoundMonotone(Exact(src, l2), Exact(src, l1));
  }

  lemma KillExactNonIncreasing(src: Source, l1: real, l2: real)
    requires src.kind == Kill && 0.0 <= src.baseExp && (Truthy(src.multiplier) ==> 0.0 < src.multiplier.value)
    requires l1 <= l2
    ensures Exact(src, l2) <= Exact(src, l1)
  {
    LevelFactorNonIncreasing(l1, l2);
    MulMonotone(src.baseExp, LevelFactor(l2), LevelFactor(l1));
    if Truthy(src.multiplier) {
      MulMonotone(src.multiplier.value, src.baseExp * LevelFactor(l2), src.baseExp * LevelFactor(l1));
    }
  }

  lemma MulMonotone(k: real, a: real, b: real)
    requires 0.0 <= k && a <= b
    ensures k * a <= k * b
  {
  }

  lemma RoundMonotone(a: real, b: real)
    requires a <= b
    ensures Round(a) <= Round(b)
  {
  }
}

=== FILE: experience_system.dfy ===
/**
 * The experience wallet of src/core/ExperienceSystem.ts: its own experience total, which gains
 * forward to the level system and losses do not.
 */
module ExperienceSystem {
  import opened Wrappers
  import opened Numeric
  import LevelSystem

  datatype ExperienceEvent =
    | ExpGain(amount: real, currentExp: real, source: Option<string>)
    | ExpLoss(amount: real, currentExp: real, source: Option<string>)

  datatype Experience = Experience(currentExp: real, levels: LevelSystem.LevelState)

  ghost predicate Valid(e: Experience) {
    0.0 <= e.currentExp && LevelSystem.Valid(e.levels)
  }

  function Init(): (e: Experience)
    ensures Valid(e) && e.currentExp == 0.0
  {
    Experience(0.0, LevelSystem.Init())
  }

  /**
   * `gainExperience`: a non-positive amount is ignored and the level system is not called;
   * otherwise both totals grow by the amount, the level system reports its own events, and one
   * expGain carries the amount, the new total and the source.
   */
  function GainExperience(e: Experience, amount: real, source: Option<string>)
    : (r: (Experience, seq<LevelSystem.LevelEvent>, seq<ExperienceEvent>))
    requires Valid(e)
    ensures amount <= 0.0 ==> r == (e, [], [])
    ensures amount > 0.0 ==>
      && r.0.currentExp == e.currentExp + amount
      && (r.0.levels, r.1) == LevelSystem.AddExperience(e.levels, amount)
      && r.0.levels.exp == e.levels.exp + amount
      && r.2 == [ExpGain(amount, e.currentExp + amount, source)]
    ensures Valid(r.0)
  {
    if amount <= 0.0 then (e, [], [])
    else
      var total := e.currentExp + amount;
      var levelled := LevelSystem.AddExperience(e.levels, amount);
      (Experience(total, levelled.0), levelled.1, [ExpGain(amount, total, source)])
  }

  /**
   * `loseExperience`: a non-positive amount is ignored; otherwise at most the current total is
   * taken, the event reports what was actually lost, and the level system is left alone.
   */
  function LoseExperience(e: Experience, amount: real, source: Option<string>): (r: (Experience, seq<ExperienceEvent>))
    requires Valid(e)
    ensures amount <= 0.0 ==> r == (e, [])
    ensures amount > 0.0 ==>
      var lost := e.currentExp - r.0.currentExp;
      && 0.0 <= lost <= amount
      && (lost == amount || r.0.currentExp == 0.0)
      && r.1 == [ExpLoss(lost, r.0.currentExp, source)]
    ensures r.0.levels == e.levels
    ensures Valid(r.0)
  {
    if amount <= 0.0 then (e, [])
    else
      var actualLoss := Min(e.currentExp, amount);
      var total := e.currentExp - actualLoss;
      (e.(currentExp := total), [ExpLoss(actualLoss, total, source)])
  }

  function GetExpToNextLevel(e: Experience): (r: real)
    requires Valid(e)
    ensures LevelSystem.GetNextLevel(e.levels.level).None? ==> r == 0.0
    ensures LevelSystem.GetNextLevel(e.levels.level).Some? ==>
      LevelSystem.GetCurrentLevelConfig(e.levels).expRequired + r == LevelSystem.GetNextLevel(e.levels.level).value.expRequired
  {
    LevelSystem.GetExpToNextLevel(e.levels)
  }

  function GetExpProgress(e: Experience): (r: real)
    requires Valid(e)
    ensures 0.0 <= r <= 1.0
    ensures r == LevelSystem.GetExpProgress(e.levels)
  {
    LevelSystem.GetExpProgress(e.levels)
  }

  // ---------------------------------------------------------------- properties

  /** A loss followed by an equal gain restores the wallet when the loss was covered. */
  lemma LossThenGainRestores(e: Experience, amount: real, source: Option<string>)
    requires Valid(e)
    requires 0.0 < amount <= e.currentExp
    ensures var lost := LoseExperience(e, amount, source).0;
      GainExperience(lost, amount, source).0.currentExp == e.currentExp
  {
  }

  /** Losses desynchronise the two totals: the level system keeps counting what was lost. */
  lemma LossDesynchronises(e: Experience, amount: real)
    requires Valid(e)
    requires e.levels.exp == e.currentExp && 0.0 < amount && 0.0 < e.currentExp
    ensures var lost := LoseExperience(e, amount, None).0;
      lost.levels.exp > lost.currentExp
  {
  }

  /** Taking 50 from 30 leaves 0 and reports a loss of 30. */
  lemma LossExample(e: Experience)
    requires Valid(e) && e.currentExp == 30.0
    ensures LoseExperience(e, 50.0, None).1 == [ExpLoss(30.0, 0.0, None)]
  {
  }
}

=== FILE: grid_system.dfy ===
/** The square grid of src/core/GridSystem.ts: world/cell conversion, snapping and neighbours. */
module GridSystem {
  import opened Vector2D

  /** A stored cell; the source keys it by the string "x,y", modelled here as the pair (x, y). */
  datatype Cell = Cell(x: real, y: real, walkable: bool)

  datatype Grid = Grid(gridSize: real, cells: map<(real, real), Cell>)

  /** A position whose coordinates are whole numbers, i.e. a cell index. */
  predicate Integral(v: Vec) {
    v.x.Floor as real == v.x && v.y.Floor as real == v.y
  }

  function NewGrid(gridSize: real): (g: Grid)
    ensures g.gridSize == gridSize && g.cells == map[]
  {
    Grid(gridSize, map[])
  }

  /** The cell holding a world position: each coordinate floored over the grid size. */
  function WorldToGrid(g: Grid, position: Vec): (r: Vec)
    requires g.gridSize != 0.0
    ensures Integral(r)
    ensures r.x <= position.x / g.gridSize < r.x + 1.0
    ensures r.y <= position.y / g.gridSize < r.y + 1.0
  {
    Vec((position.x / g.gridSize).Floor as real, (position.y / g.gridSize).Floor as real)
  }

  /** The centre of a cell in world coordinates. */
  function GridToWorld(g: Grid, cell: Vec): (r: Vec)
    ensures r.x - cell.x * g.gridSize == g.gridSize / 2.0
    ensures r.y - cell.y * g.gridSize == g.gridSize / 2.0
  {
    Vec((cell.x + 0.5) * g.gridSize, (cell.y + 0.5) * g.gridSize)
  }

  /** The centre of the cell holding a position; snapping never leaves that cell. */
  function SnapToGrid(g: Grid, position: Vec): (r: Vec)
    requires g.gridSize != 0.0
    ensures r == GridToWorld(g, WorldToGrid(g, position))
    ensures WorldToGrid(g, r) == WorldToGrid(g, position)
  {
    WorldToGridOfCentre(g, WorldToGrid(g, position));
    GridToWorld(g, WorldToGrid(g, position))
  }

  /** Every position is walkable: the source has no collision data yet, whatever the cells say. */
  function IsWalkable(g: Grid, position: Vec): (r: bool)
    ensures r
  {
    true
  }

  /** Stores the cell under its coordinates, replacing any earlier entry for the same cell. */
  function SetCell(g: Grid, cell: Vec, walkable: bool): (r: Grid)
    ensures r.gridSize == g.gridSize
    ensures (cell.x, cell.y) in r.cells
    ensures r.cells[(cell.x, cell.y)] == Cell(cell.x, cell.y, walkable)
    ensures r.cells.Keys == g.cells.Keys + {(cell.x, cell.y)}
    ensures forall k :: k in g.cells && k != (cell.x, cell.y) ==> r.cells[k] == g.cells[k]
  {
    g.(cells := g.cells[(cell.x, cell.y) := Cell(cell.x, cell.y, walkable)])
  }

  /** The four unit steps, in the order the source tries them: +x, -x, +y, -y. */
  const Directions: seq<Vec> := [Vec(1.0, 0.0), Vec(-1.0, 0.0), Vec(0.0, 1.0), Vec(0.0, -1.0)]

  /** The steps from `cell` along `dirs` that land on a walkable position, in order. */
  function WalkableSteps(g: Grid, cell: Vec, dirs: seq<Vec>): (r: seq<Vec>)
    ensures |r| == |dirs|
    ensures forall i :: 0 <= i < |r| ==> r[i] == Add(cell, dirs[i])
  {
    if dirs == [] then []
    else
      var n := Add(cell, dirs[0]);
      (if IsWalkable(g, n) then [n] else []) + WalkableSteps(g, cell, dirs[1..])
  }

  /** The orthogonal neighbours of a cell: always all four, in the order right, left, down, up. */
  function GetNeighbors(g: Grid, cell: Vec): (r: seq<Vec>)
    ensures |r| == 4
    ensures r[0].x > cell.x && r[0].y == cell.y
    ensures r[1].x < cell.x && r[1].y == cell.y
    ensures r[2].x == cell.x && r[2].y > cell.y
    ensures r[3].x == cell.x && r[3].y < cell.y
    ensures forall i :: 0 <= i < 4 ==> Adjacent(cell, r[i])
  {
    WalkableSteps(g, cell, Directions)
  }

  /** Two positions one unit apart along exactly one axis. */
  predicate Adjacent(a: Vec, b: Vec) {
    (a.y == b.y && (b.x - a.x == 1.0 || a.x - b.x == 1.0))
    || (a.x == b.x && (b.y - a.y == 1.0 || a.y - b.y == 1.0))
  }

  // ---------------------------------------------------------------- properties

  /** The centre of an integral cell lies in that cell, for any non-zero grid size. */
  lemma WorldToGridOfCentre(g: Grid, cell: Vec)
    requires g.gridSize != 0.0
    requires Integral(cell)
    ensures WorldToGrid(g, GridToWorld(g, cell)) == cell
  {
    var c := GridToWorld(g, cell);
    DivCancel(cell.x + 0.5, g.gridSize, c.x);
    DivCancel(cell.y + 0.5, g.gridSize, c.y);
    HalfFloor(cell.x.Floor);
    HalfFloor(cell.y.Floor);
  }

  /** Snapping twice is snapping once. */
  lemma SnapIdempotent(g: Grid, position: Vec)
    requires g.gridSize != 0.0
    ensures SnapToGrid(g, SnapToGrid(g, position)) == SnapToGrid(g, position)
  {
    WorldToGridOfCentre(g, WorldToGrid(g, position));
  }

  /** Marking a cell unwalkable does not make it unwalkable. */
  lemma SetCellDoesNotBlock(g: Grid, cell: Vec)
    ensures IsWalkable(SetCell(g, cell, false), cell)
  {
  }

  lemma GridExamples()
    ensures WorldToGrid(NewGrid(32.0), Vec(50.0, 70.0)) == Vec(1.0, 2.0)
    ensures GridToWorld(NewGrid(32.0), Vec(1.0, 2.0)) == Vec(48.0, 80.0)
    ensures SnapToGrid(NewGrid(32.0), Vec(31.9, 31.9)) == Vec(16.0, 16.0)
    ensures SnapToGrid(NewGrid(32.0), Vec(32.1, 32.1)) == Vec(48.0, 48.0)
  {
  }
}

=== FILE: input_manager.dfy ===
/**
 * The keyboard state of src/core/InputManager.ts: the set of held keys, the movement direction
 * derived from it, and the listener registry. The window wiring that feeds key events in is
 * outside the model; each key event arrives as a call with the event's key string.
 */
module InputManager {
  import opened Numeric
  import opened Vector2D

  datatype InputEventType = KeyDown | KeyUp | MouseMove | MouseDown | MouseUp

  /** A registered listener, identified by an opaque number in place of the callback itself. */
  type ListenerId = nat

  datatype Input = Input(
    keys: set<string>,
    moveDirection: Vec,
    eventListeners: map<InputEventType, set<ListenerId>>)

  /** The constructor: no key held, no direction, no listener. */
  function Init(): (r: Input)
    ensures r.keys == {} && r.moveDirection == Zero && r.eventListeners == map[]
  {
    Input({}, Zero, map[])
  }

  // ---------------------------------------------------------------- key names

  predicate IsUpper(c: char) {
    'A' <= c <= 'Z'
  }

  /** `toLowerCase` on one character, for the ASCII letters. */
  function LowerChar(c: char): (r: char)
    ensures !IsUpper(r)
    ensures IsUpper(c) ==> r as int == c as int + 32
    ensures !IsUpper(c) ==> r == c
  {
    if IsUpper(c) then (c as int + 32) as char else c
  }

  /** `key.toLowerCase()`: every upper-case ASCII letter lowered, everything else kept. */
  function Lower(s: string): (r: string)
    ensures |r| == |s|
    ensures forall i :: 0 <= i < |r| ==> !IsUpper(r[i])
    ensures forall i :: 0 <= i < |s| && !IsUpper(s[i]) ==> r[i] == s[i]
    ensures forall i :: 0 <= i < |s| && IsUpper(s[i]) ==> r[i] as int == s[i] as int + 32
  {
    if s == [] then [] else [LowerChar(s[0])] + Lower(s[1..])
  }

  // ---------------------------------------------------------------- direction

  /** 1 when either key of the pair is held, else 0. */
  function Held(keys: set<string>, key: string, arrow: string): (r: real)
    ensures r == 1.0 <==> key in keys || arrow in keys
    ensures r == 0.0 <==> key !in keys && arrow !in keys
  {
    if key in keys || arrow in keys then 1.0 else 0.0
  }

  /** The horizontal component before normalisation: d / arrowright add 1, a / arrowleft take 1 away. */
  function RawX(keys: set<string>): (r: real)
    ensures r == -1.0 || r == 0.0 || r == 1.0
    ensures r == -1.0 <==> Held(keys, "a", "arrowleft") == 1.0 && Held(keys, "d", "arrowright") == 0.0
    ensures r == 1.0 <==> Held(keys, "d", "arrowright") == 1.0 && Held(keys, "a", "arrowleft") == 0.0
  {
    -Held(keys, "a", "arrowleft") + Held(keys, "d", "arrowright")
  }

  /** The vertical component before normalisation: w / arrowup take 1 away, s / arrowdown add 1. */
  function RawY(keys: set<string>): (r: real)
    ensures r == -1.0 || r == 0.0 || r == 1.0
    ensures r == -1.0 <==> Held(keys, "w", "arrowup") == 1.0 && Held(keys, "s", "arrowdown") == 0.0
    ensures r == 1.0 <==> Held(keys, "s", "arrowdown") == 1.0 && Held(keys, "w", "arrowup") == 0.0
  {
    -Held(keys, "w", "arrowup") + Held(keys, "s", "arrowdown")
  }

  /**
   * `updateMoveDirection`: the raw components divided by their length when either is non-zero,
   * so the direction is zero exactly when nothing (or only opposite keys) is held, has unit
   * length otherwise, and points the same way on each axis as the held keys.
   */
  function MoveDirection(keys: set<string>, sqrt: real -> real): (r: Vec)
    requires IsSqrt(sqrt)
    ensures r == Zero <==> RawX(keys) == 0.0 && RawY(keys) == 0.0
    ensures r != Zero ==> LengthSquared(r) == 1.0
    ensures (r.x < 0.0 <==> RawX(keys) < 0.0) && (r.x > 0.0 <==> RawX(keys) > 0.0)
    ensures (r.y < 0.0 <==> RawY(keys) < 0.0) && (r.y > 0.0 <==> RawY(keys) > 0.0)
  {
    var x := RawX(keys);
    var y := RawY(keys);
    if x != 0.0 || y != 0.0 then
      var length := sqrt(x * x + y * y);
      RawLength(sqrt, x, y);
      QuotientSign(x, length);
      QuotientSign(y, length);
      UnitQuotient(x, y, length);
      Vec(x / length, y / length)
    else
      Zero
  }

  /** The length of a non-zero raw direction is positive and squares back to x * x + y * y. */
  lemma RawLength(sqrt: real -> real, x: real, y: real)
    requires IsSqrt(sqrt)
    requires x == -1.0 || x == 0.0 || x == 1.0
    requires y == -1.0 || y == 0.0 || y == 1.0
    ensures x != 0.0 || y != 0.0 ==> 0.0 < sqrt(x * x + y * y)
    ensures sqrt(x * x + y * y) * sqrt(x * x + y * y) == x * x + y * y
  {
    var n := x * x + y * y;
    assert n == 0.0 || n == 1.0 || n == 2.0;
    SqrtRoot(sqrt, n);
    if x != 0.0 || y != 0.0 {
      SqrtPositive(sqrt, n);
    }
  }

  /** Dividing by a positive number keeps the sign. */
  lemma QuotientSign(a: real, d: real)
    ensures 0.0 < d ==> (a < 0.0 <==> a / d < 0.0) && (a > 0.0 <==> a / d > 0.0)
  {
    if 0.0 < d {
      var q := a / d;
      assert q * d == a;
      if q < 0.0 {
        assert q * d < 0.0 * d;
      } else if q > 0.0 {
        assert q * d > 0.0 * d;
      }
    }
  }

  /** Dividing both components by their length gives a unit vector. */
  lemma UnitQuotient(x: real, y: real, length: real)
    ensures 0.0 < length && length * length == x * x + y * y ==> LengthSquared(Vec(x / length, y / length)) == 1.0
  {
    if 0.0 < length && length * length == x * x + y * y {
      var a := Vec(x, y);
      assert LengthSquared(a) == x * x + y * y;
      UnitAfterDivision(a, length);
      assert Multiply(a, 1.0 / length) == Vec(x / length, y / length);
    }
  }

  // ---------------------------------------------------------------- key events

  /** The direction field agrees with the held keys, as every key event leaves it. */
  ghost predicate Consistent(m: Input, sqrt: real -> real)
    requires IsSqrt(sqrt)
  {
    m.moveDirection == MoveDirection(m.keys, sqrt)
  }

  /** `handleKeyDown`: the lower-cased key joins the set and the direction is recomputed. */
  function HandleKeyDown(m: Input, key: string, sqrt: real -> real): (r: Input)
    requires IsSqrt(sqrt)
    ensures r.keys == m.keys + {Lower(key)}
    ensures Consistent(r, sqrt)
    ensures r.eventListeners == m.eventListeners
  {
    var keys := m.keys + {Lower(key)};
    Input(keys, MoveDirection(keys, sqrt), m.eventListeners)
  }

  /** `handleKeyUp`: the lower-cased key leaves the set and the direction is recomputed. */
  function HandleKeyUp(m: Input, key: string, sqrt: real -> real): (r: Input)
    requires IsSqrt(sqrt)
    ensures r.keys == m.keys - {Lower(key)}
    ensures Consistent(r, sqrt)
    ensures r.eventListeners == m.eventListeners
  {
    var keys := m.keys - {Lower(key)};
    Input(keys, MoveDirection(keys, sqrt), m.eventListeners)
  }

  function GetMoveDirection(m: Input): (r: Vec)
    ensures r == m.moveDirection
  {
    m.moveDirection
  }

  /** `isKeyPressed`: whether the lower-cased key is held. */
  function IsKeyPressed(m: Input, key: string): (r: bool)
    ensures r <==> Lower(key) in m.keys
  {
    Lower(key) in m.keys
  }

  // ---------------------------------------------------------------- listeners

  function Listeners(registry: map<InputEventType, set<ListenerId>>, kind: InputEventType): set<ListenerId> {
    if kind in registry then registry[kind] else {}
  }

  /** `addEventListener`: the listener joins the set of its event type; the others are untouched. */
  function AddEventListener(m: Input, kind: InputEventType, listener: ListenerId): (r: Input)
    ensures Listeners(r.eventListeners, kind) == Listeners(m.eventListeners, kind) + {listener}
    ensures forall k :: k != kind ==> Listeners(r.eventListeners, k) == Listeners(m.eventListeners, k)
    ensures r.keys == m.keys && r.moveDirection == m.moveDirection
  {
    m.(eventListeners := m.eventListeners[kind := Listeners(m.eventListeners, kind) + {listener}])
  }

  /** `removeEventListener`: the listener leaves the set of its event type, if that set exists. */
  function RemoveEventListener(m: Input, kind: InputEventType, listener: ListenerId): (r: Input)
    ensures Listeners(r.eventListeners, kind) == Listeners(m.eventListeners, kind) - {listener}
    ensures forall k :: k != kind ==> Listeners(r.eventListeners, k) == Listeners(m.eventListeners, k)
    ensures r.keys == m.keys && r.moveDirection == m.moveDirection
  {
    if kind in m.eventListeners then m.(eventListeners := m.eventListeners[kind := m.eventListeners[kind] - {listener}])
    else m
  }

  /** `clearListeners`: no event type has a listener any more; the keys are untouched. */
  function ClearListeners(m: Input): (r: Input)
    ensures forall k :: Listeners(r.eventListeners, k) == {}
    ensures r.keys == m.keys && r.moveDirection == m.moveDirection
  {
    m.(eventListeners := map[])
  }

  // ---------------------------------------------------------------- properties

  /** Lowering is idempotent, so looking a key up and looking up its lowered form agree. */
  lemma {:induction false} LowerIdempotent(s: string)
    ensures Lower(Lower(s)) == Lower(s)
  {
    if s != [] {
      LowerIdempotent(s[1..]);
      assert Lower(s)[1..] == Lower(s[1..]);
    }
  }

  /** `isKeyPressed` does not depend on the case of the key asked about. */
  lemma CaseInsensitive(m: Input, key: string)
    ensures IsKeyPressed(m, key) <==> IsKeyPressed(m, Lower(key))
  {
    LowerIdempotent(key);
  }

  /** After a key goes down it reads as pressed in any spelling with the same lower case. */
  lemma PressedAfterKeyDown(m: Input, key: string, other: string, sqrt: real -> real)
    requires IsSqrt(sqrt)
    requires Lower(other) == Lower(key)
    ensures IsKeyPressed(HandleKeyDown(m, key, sqrt), other)
    ensures !IsKeyPressed(HandleKeyUp(m, key, sqrt), other)
  {
  }

  /** A fresh manager's zero direction agrees with its empty key set. */
  lemma InitConsistent(sqrt: real -> real)
    requires IsSqrt(sqrt)
    ensures Consistent(Init(), sqrt)
  {
  }

  /** Pressing a key that was up and releasing it again restores the keys and the direction. */
  lemma KeyDownUpRestores(m: Input, key: string, sqrt: real -> real)
    requires IsSqrt(sqrt) && Consistent(m, sqrt)
    requires !IsKeyPressed(m, key)
    ensures HandleKeyUp(HandleKeyDown(m, key, sqrt), key, sqrt) == m
  {
    assert (m.keys + {Lower(key)}) - {Lower(key)} == m.keys;
  }

  /** Holding both keys of an axis cancels it. */
  lemma OppositeKeysCancel(keys: set<string>)
    ensures "w" in keys && "s" in keys ==> RawY(keys) == 0.0
    ensures "arrowup" in keys && "arrowdown" in keys ==> RawY(keys) == 0.0
    ensures "a" in keys && "d" in keys ==> RawX(keys) == 0.0
    ensures "arrowleft" in keys && "arrowright" in keys ==> RawX(keys) == 0.0
  {
  }

  /** One axis alone moves one unit along it: the length is already 1. */
  lemma AxisMove(keys: set<string>, sqrt: real -> real)
    requires IsSqrt(sqrt)
    requires RawX(keys) == 0.0 || RawY(keys) == 0.0
    ensures MoveDirection(keys, sqrt) == Vec(RawX(keys), RawY(keys))
  {
    var x := RawX(keys);
    var y := RawY(keys);
    if x != 0.0 || y != 0.0 {
      assert x * x + y * y == 1.0 * 1.0;
      SqrtOfSquare(sqrt, 1.0);
    }
  }

  /** On a diagonal each component squares to one half, so diagonal moves are no faster. */
  lemma DiagonalHalf(keys: set<string>, sqrt: real -> real)
    requires IsSqrt(sqrt)
    requires RawX(keys) != 0.0 && RawY(keys) != 0.0
    ensures var r := MoveDirection(keys, sqrt);
      r.x * r.x == 0.5 && r.y * r.y == 0.5
  {
    var x := RawX(keys);
    var y := RawY(keys);
    var length := sqrt(x * x + y * y);
    RawLength(sqrt, x, y);
    assert length * length == 2.0;
    SquareOverSquare(x, length);
    SquareOverSquare(y, length);
  }

  /** A unit component over a length whose square is 2 squares to one half. */
  lemma SquareOverSquare(c: real, length: real)
    requires c == 1.0 || c == -1.0
    requires length * length == 2.0
    ensures (c / length) * (c / length) == 0.5
  {
    var q := c / length;
    assert length != 0.0;
    assert q * length == c;
    calc {
      (q * q) * 2.0;
      (q * q) * (length * length);
      (q * length) * (q * length);
      c * c;
      1.0;
    }
  }

  /** Upper-case W reads as w: from rest, pressing it points straight up. */
  lemma UpperCaseKey(sqrt: real -> real)
    requires IsSqrt(sqrt)
    ensures HandleKeyDown(Init(), "W", sqrt).moveDirection == Vec(0.0, -1.0)
  {
    var keys := {"w"};
    assert Lower("W") == "w";
    assert HandleKeyDown(Init(), "W", sqrt).keys == keys;
    assert RawY(keys) == -1.0;
    assert RawX(keys) == 0.0;
    AxisMove(keys, sqrt);
  }
}

=== FILE: level_system.dfy ===
/**
 * The level progression of src/core/LevelSystem.ts: cumulative experience, promotion by the
 * level table, and unspent skill and stat point counters.
 */
module LevelSystem {
  import opened Wrappers
  import opened Numeric

  datatype Rewards = Rewards(skillPoints: int, statPoints: int, unlocks: Option<seq<string>>)

  datatype LevelConfig = LevelConfig(level: int, expRequired: real, rewards: Rewards)

  /** The table as shipped: two levels, the second needing 250 cumulative experience. */
  const LevelConfigs: seq<LevelConfig> := [
    LevelConfig(1, 100.0, Rewards(1, 3, None)),
    LevelConfig(2, 250.0, Rewards(1, 3, Some(["basicSkill"])))]

  const MaxLevel := 60

  datatype LevelEvent =
    | ExpGain(currentExp: real, gainedExp: real)
    | LevelUp(level: int, rewards: Rewards)

  datatype LevelState = LevelState(exp: real, level: int, skillPoints: int, statPoints: int)

  /** The level is one the table names, and the point counters are never negative. */
  predicate Valid(s: LevelState) {
    && 1 <= s.level <= |LevelConfigs|
    && LevelConfigs[s.level - 1].level == s.level
    && 0 <= s.skillPoints && 0 <= s.statPoints
  }

  function Init(): (s: LevelState)
    ensures Valid(s)
    ensures s.exp == 0.0 && s.level == 1 && s.skillPoints == 0 && s.statPoints == 0
  {
    LevelState(0.0, 1, 0, 0)
  }

  /** `getNextLevel`: the table entry at index `level`, the one after the current level's. */
  function GetNextLevel(level: int): (r: Option<LevelConfig>)
    ensures r.Some? <==> 0 <= level < |LevelConfigs|
    ensures r.Some? ==> r.value == LevelConfigs[level]
  {
    if 0 <= level < |LevelConfigs| then Some(LevelConfigs[level]) else None
  }

  function GetCurrentLevelConfig(s: LevelState): (r: LevelConfig)
    requires Valid(s)
    ensures r.level == s.level
  {
    LevelConfigs[s.level - 1]
  }

  function IsMaxLevel(s: LevelState): (r: bool)
    ensures r <==> s.level >= MaxLevel
  {
    s.level >= MaxLevel
  }

  /** `levelUp`: the level becomes the entry's level and its rewards are added to the counters. */
  function Promote(s: LevelState, next: LevelConfig): (r: (LevelState, LevelEvent))
    ensures r.0.level == next.level && r.0.exp == s.exp
    ensures r.0.skillPoints == s.skillPoints + next.rewards.skillPoints
    ensures r.0.statPoints == s.statPoints + next.rewards.statPoints
    ensures r.1 == LevelUp(next.level, next.rewards)
  {
    (LevelState(s.exp, next.level, s.skillPoints + next.rewards.skillPoints, s.statPoints + next.rewards.statPoints),
     LevelUp(next.level, next.rewards))
  }

  /**
   * With the shipped table the `checkLevelUp` loop body runs at most once: after a promotion
   * there is no further entry, so the loop's break is always taken. (Had there been one, the
   * loop would promote to the same stale entry forever.)
   */
  lemma LoopBreaksAfterPromotion(s: LevelState, next: LevelConfig)
    requires Valid(s)
    requires GetNextLevel(s.level) == Some(next)
    ensures GetNextLevel(Promote(s, next).0.level).None?
  {
  }

  /**
   * `checkLevelUp`: nothing without a next entry or at the maximum level; otherwise one
   * promotion when the cumulative experience reaches the next entry's requirement.
   */
  function CheckLevelUp(s: LevelState): (r: (LevelState, seq<LevelEvent>))
    requires Valid(s)
    ensures Valid(r.0)
  {
    var next := GetNextLevel(s.level);
    if next.None? || s.level >= MaxLevel then (s, [])
    else if s.exp >= next.value.expRequired then
      var promoted := Promote(s, next.value);
      LoopBreaksAfterPromotion(s, next.value);
      (promoted.0, [promoted.1])
    else (s, [])
  }

  /**
   * `addExperience`: a non-positive amount is ignored; otherwise the experience grows by the
   * amount, an expGain with the new total comes first, and a levelUp follows exactly when the
   * player was below the table's last level and the new total reaches the next requirement.
   */
  function AddExperience(s: LevelState, amount: real): (r: (LevelState, seq<LevelEvent>))
    requires Valid(s)
    ensures amount <= 0.0 ==> r == (s, [])
    ensures amount > 0.0 ==>
      && r.0.exp == s.exp + amount
      && 1 <= |r.1| <= 2
      && r.1[0] == ExpGain(s.exp + amount, amount)
    ensures var promoted := amount > 0.0 && s.level < |LevelConfigs| && s.exp + amount >= LevelConfigs[s.level].expRequired;
      && (promoted ==>
            var next := LevelConfigs[s.level];
            && r.0.level == s.level + 1
            && r.0.skillPoints == s.skillPoints + next.rewards.skillPoints
            && r.0.statPoints == s.statPoints + next.rewards.statPoints
            && r.1 == [ExpGain(s.exp + amount, amount), LevelUp(next.level, next.rewards)])
      && (!promoted ==>
            && r.0.level == s.level && r.0.skillPoints == s.skillPoints && r.0.statPoints == s.statPoints
            && |r.1| <= 1)
    ensures s.level <= r.0.level <= MaxLevel
    ensures Valid(r.0)
  {
    if amount <= 0.0 then (s, [])
    else
      var gained := s.(exp := s.exp + amount);
      var checked := CheckLevelUp(gained);
      (checked.0, [ExpGain(gained.exp, amount)] + checked.1)
  }

  /**
   * `getExpProgress`: 1 at the maximum level or without a next entry; otherwise the position
   * of the experience within the current band, clamped to [0, 1].
   */
  function GetExpProgress(s: LevelState): (r: real)
    requires Valid(s)
    ensures 0.0 <= r <= 1.0
    ensures IsMaxLevel(s) || GetNextLevel(s.level).None? ==> r == 1.0
    ensures !IsMaxLevel(s) && GetNextLevel(s.level).Some? ==>
      var low := GetCurrentLevelConfig(s).expRequired;
      var high := GetNextLevel(s.level).value.expRequired;
      && (low <= s.exp <= high ==> r * (high - low) == s.exp - low)
      && (s.exp <= low ==> r == 0.0)
      && (high <= s.exp ==> r == 1.0)
  {
    if IsMaxLevel(s) then 1.0
    else
      var current := LevelConfigs[s.level - 1];
      var next := GetNextLevel(s.level);
      if next.None? then 1.0
      else
        var inLevel := s.exp - current.expRequired;
        var needed := next.value.expRequired - current.expRequired;
        Clamp(0.0, 1.0, inLevel / needed)
  }

  /** `getExpToNextLevel`: the width of the current band, or 0 without a next entry. */
  function GetExpToNextLevel(s: LevelState): (r: real)
    requires Valid(s)
    ensures GetNextLevel(s.level).None? ==> r == 0.0
    ensures GetNextLevel(s.level).Some? ==> GetCurrentLevelConfig(s).expRequired + r == GetNextLevel(s.level).value.expRequired
  {
    var next := GetNextLevel(s.level);
    if next.None? then 0.0 else next.value.expRequired - GetCurrentLevelConfig(s).expRequired
  }

  /** `useSkillPoint`: fails at zero, otherwise spends one point. */
  function UseSkillPoint(s: LevelState): (r: (LevelState, bool))
    ensures r.1 <==> s.skillPoints > 0
    ensures r.1 ==> r.0 == s.(skillPoints := s.skillPoints - 1)
    ensures !r.1 ==> r.0 == s
    ensures Valid(s) ==> Valid(r.0)
  {
    if s.skillPoints <= 0 then (s, false) else (s.(skillPoints := s.skillPoints - 1), true)
  }

  /** `useStatPoint`: fails at zero, otherwise spends one point. */
  function UseStatPoint(s: LevelState): (r: (LevelState, bool))
    ensures r.1 <==> s.statPoints > 0
    ensures r.1 ==> r.0 == s.(statPoints := s.statPoints - 1)
    ensures !r.1 ==> r.0 == s
    ensures Valid(s) ==> Valid(r.0)
  {
    if s.statPoints <= 0 then (s, false) else (s.(statPoints := s.statPoints - 1), true)
  }

  // ---------------------------------------------------------------- properties

  /**
   * Granting `a` then `b` reaches the same experience, level and points as granting `a + b`
   * at once, for positive grants.
   */
  lemma AddExperienceAssociative(s: LevelState, a: real, b: real)
    requires Valid(s)
    requires a > 0.0 && b > 0.0
    ensures var once := AddExperience(s, a + b).0;
      var first := AddExperience(s, a).0;
      var twice := AddExperience(first, b).0;
      twice == once
  {
  }

  /** From level 1, 150 experience is not enough for level 2; 250 is. */
  lemma PromotionThreshold()
    ensures AddExperience(Init(), 150.0).0.level == 1
    ensures AddExperience(Init(), 249.0).0.level == 1
    ensures AddExperience(Init(), 250.0).0.level == 2
    ensures AddExperience(Init(), 250.0).0.skillPoints == 1 && AddExperience(Init(), 250.0).0.statPoints == 3
  {
  }

  /** Once at the table's last level, no grant promotes again. */
  lemma LastLevelIsFinal(s: LevelState, amount: real)
    requires Valid(s) && s.level == |LevelConfigs|
    ensures AddExperience(s, amount).0.level == s.level
    ensures |AddExperience(s, amount).1| <= 1
  {
  }

  /** The band at level 1 is 150 wide and half-way at 175; at level 2 the progress is full. */
  lemma ProgressExamples()
    ensures GetExpToNextLevel(Init()) == 150.0
    ensures GetExpProgress(Init().(exp := 175.0)) == 0.5
    ensures GetExpProgress(Init()) == 0.0
    ensures GetExpProgress(LevelState(300.0, 2, 1, 3)) == 1.0
    ensures GetExpToNextLevel(LevelState(300.0, 2, 1, 3)) == 0.0
  {
  }

  /** Spending points stops at zero: a fresh state has none to spend. */
  lemma NoPointsToSpend()
    ensures !UseSkillPoint(Init()).1 && !UseStatPoint(Init()).1
  {
  }
}

=== FILE: movement_system.dfy ===
/**
 * The player movement of src/core/MovementSystem.ts: input direction to velocity, position
 * integration, snapping to the cell centre when idle, and sliding along blocked moves.
 */
module MovementSystem {
  import opened Numeric
  import opened Vector2D
  import GridSystem

  const BaseSpeed := 200.0

  const SnapThreshold := 0.1

  datatype MovementState = MovementState(position: Vec, velocity: Vec, isMoving: bool)

  datatype Movement = Movement(state: MovementState, grid: GridSystem.Grid)

  /** The constructor: at the origin, at rest. */
  function Init(grid: GridSystem.Grid): (m: Movement)
    ensures m.state == MovementState(Zero, Zero, false) && m.grid == grid
  {
    Movement(MovementState(Zero, Zero, false), grid)
  }

  /** Below the threshold exactly when the squared distance is below its square. */
  lemma BelowThreshold(d: real, squared: real)
    requires 0.0 <= d && d * d == squared
    ensures d < SnapThreshold <==> squared < SnapThreshold * SnapThreshold
  {
    if d < SnapThreshold {
      assert d * d <= d * SnapThreshold;
    } else {
      assert d * d >= SnapThreshold * d;
    }
  }

  /**
   * `handleSnapping`: the position moves to the centre of its cell when it is already closer
   * than 0.1 to it, and otherwise stays.
   */
  function HandleSnapping(m: Movement, sqrt: real -> real): (r: Movement)
    requires IsSqrt(sqrt) && m.grid.gridSize != 0.0
    ensures r.grid == m.grid && r.state == m.state.(position := r.state.position)
    ensures r.state.position in {m.state.position, GridSystem.SnapToGrid(m.grid, m.state.position)}
    ensures var centre := GridSystem.SnapToGrid(m.grid, m.state.position);
      var near := LengthSquared(Subtract(m.state.position, centre)) < SnapThreshold * SnapThreshold;
      && (near ==> r == m.(state := m.state.(position := centre)))
      && (!near ==> r == m)
  {
    var centre := GridSystem.SnapToGrid(m.grid, m.state.position);
    var distance := Distance(m.state.position, centre, sqrt);
    BelowThreshold(distance, LengthSquared(Subtract(m.state.position, centre)));
    if distance < SnapThreshold then Movement(MovementState(centre, m.state.velocity, m.state.isMoving), m.grid) else m
  }

  /**
   * `handleCollision` for a blocked move, with the walkability test as a parameter: slide
   * horizontally if that is walkable, else vertically if that is, else stay.
   */
  function HandleCollision(s: MovementState, newPosition: Vec, walkable: Vec -> bool): (r: MovementState)
    ensures var horizontal := Vec(newPosition.x, s.position.y);
      var vertical := Vec(s.position.x, newPosition.y);
      && r == s.(position := r.position)
      && (walkable(horizontal) ==> r.position == horizontal)
      && (!walkable(horizontal) && walkable(vertical) ==> r.position == vertical)
      && (!walkable(horizontal) && !walkable(vertical) ==> r.position == s.position)
  {
    var horizontal := Vec(newPosition.x, s.position.y);
    if walkable(horizontal) then s.(position := horizontal)
    else
      var vertical := Vec(s.position.x, newPosition.y);
      if walkable(vertical) then s.(position := vertical) else s
  }

  /**
   * `update(deltaTime)` with the input manager's direction as a parameter: a non-zero direction
   * sets the velocity to it times the base speed and moves by velocity × deltaTime; no direction
   * stops and snaps.
   */
  function Update(m: Movement, direction: Vec, deltaTime: real, sqrt: real -> real): (r: Movement)
    requires IsSqrt(sqrt) && m.grid.gridSize != 0.0
    ensures r.grid == m.grid
    ensures direction == Zero ==>
      && r.state.velocity == Zero && !r.state.isMoving
      && r.state.position == HandleSnapping(m, sqrt).state.position
    ensures direction != Zero ==>
      && r.state.velocity == Multiply(direction, BaseSpeed) && r.state.isMoving
      && r.state.position == Add(m.state.position, Multiply(Multiply(direction, BaseSpeed), deltaTime))
  {
    if !IsZero(direction) then
      var s := m.state.(velocity := Multiply(direction, BaseSpeed), isMoving := true);
      var newPosition := Add(s.position, Multiply(s.velocity, deltaTime));
      if GridSystem.IsWalkable(m.grid, newPosition) then m.(state := s.(position := newPosition))
      else m.(state := HandleCollision(s, newPosition, p => GridSystem.IsWalkable(m.grid, p)))
    else
      var stopped := Movement(MovementState(m.state.position, Zero, false), m.grid);
      HandleSnapping(stopped, sqrt)
  }

  /** `setVelocity`: the direction of `velocity` at the base speed; moving unless it is zero. */
  function SetVelocity(m: Movement, velocity: Vec, sqrt: real -> real): (r: Movement)
    requires IsSqrt(sqrt)
    ensures r.grid == m.grid && r.state.position == m.state.position
    ensures r.state.isMoving <==> velocity != Zero
    ensures velocity == Zero ==> r.state.velocity == Zero
    ensures velocity != Zero ==> LengthSquared(r.state.velocity) == BaseSpeed * BaseSpeed
    ensures velocity != Zero ==> SameDirection(r.state.velocity, velocity)
  {
    Movement(MovementState(m.state.position, AtSpeed(velocity, sqrt), !IsZero(velocity)), m.grid)
  }

  /** `velocity.normalize().multiply(baseSpeed)`: zero for zero, otherwise of length BaseSpeed. */
  function AtSpeed(velocity: Vec, sqrt: real -> real): (r: Vec)
    requires IsSqrt(sqrt)
    ensures velocity == Zero ==> r == Zero
    ensures velocity != Zero ==> LengthSquared(r) == BaseSpeed * BaseSpeed
    ensures velocity != Zero ==> SameDirection(r, velocity)
  {
    var unit := Normalize(velocity, sqrt);
    AtBaseSpeed(unit);
    MultiplyZero(unit, BaseSpeed);
    ScaledAtBaseSpeed(velocity, sqrt);
    Multiply(unit, BaseSpeed)
  }

  /** The normalised vector at base speed is the input scaled by a positive factor. */
  lemma ScaledAtBaseSpeed(velocity: Vec, sqrt: real -> real)
    requires IsSqrt(sqrt)
    ensures velocity != Zero ==> SameDirection(Multiply(Normalize(velocity, sqrt), BaseSpeed), velocity)
  {
    if velocity == Zero { return; }
    var k := NormalizeScales(velocity, sqrt);
    MultiplyTwice(velocity, k, BaseSpeed);
    PositiveProduct(k, BaseSpeed);
    ScaledSameDirection(velocity, k * BaseSpeed);
  }

  lemma AtBaseSpeed(unit: Vec)
    ensures LengthSquared(unit) == 1.0 ==> LengthSquared(Multiply(unit, BaseSpeed)) == BaseSpeed * BaseSpeed
  {
    ScaleLengthSquared(unit, BaseSpeed);
  }

  /** `moveTowards`: full speed towards the target, at rest when already there. */
  function MoveTowards(m: Movement, target: Vec, sqrt: real -> real): (r: Movement)
    requires IsSqrt(sqrt)
    ensures r.state.position == m.state.position
    ensures r.state.isMoving <==> target != m.state.position
    ensures target != m.state.position ==> LengthSquared(r.state.velocity) == BaseSpeed * BaseSpeed
    ensures target != m.state.position ==> SameDirection(r.state.velocity, Subtract(target, m.state.position))
  {
    var offset := Subtract(target, m.state.position);
    var direction := Normalize(offset, sqrt);
    SubtractZero(target, m.state.position);
    TowardsOffset(offset, sqrt);
    SetVelocity(m, direction, sqrt)
  }

  /** Normalising twice and scaling to base speed still points along the original offset. */
  lemma TowardsOffset(offset: Vec, sqrt: real -> real)
    requires IsSqrt(sqrt)
    ensures offset != Zero ==> SameDirection(AtSpeed(Normalize(offset, sqrt), sqrt), offset)
  {
    if offset == Zero { return; }
    var j := NormalizeScales(offset, sqrt);
    var direction := Normalize(offset, sqrt);
    var k := NormalizeScales(direction, sqrt);
    MultiplyTwice(offset, j, k);
    MultiplyTwice(offset, j * k, BaseSpeed);
    PositiveProduct(j, k);
    PositiveProduct(j * k, BaseSpeed);
    ScaledSameDirection(offset, j * k * BaseSpeed);
  }

  function GetPosition(m: Movement): (r: Vec)
    ensures r == m.state.position
  {
    m.state.position
  }

  /** `setPosition`: only the position changes. */
  function SetPosition(m: Movement, position: Vec): (r: Movement)
    ensures GetPosition(r) == position
    ensures r.state.velocity == m.state.velocity && r.state.isMoving == m.state.isMoving && r.grid == m.grid
  {
    m.(state := m.state.(position := position))
  }

  // ---------------------------------------------------------------- properties

  /** Every move is walkable on the shipped grid, so a blocked move never happens. */
  lemma NeverBlocked(m: Movement, direction: Vec, deltaTime: real, sqrt: real -> real)
    requires IsSqrt(sqrt) && m.grid.gridSize != 0.0 && direction != Zero
    ensures var r := Update(m, direction, deltaTime, sqrt);
      Subtract(r.state.position, m.state.position) == Multiply(direction, BaseSpeed * deltaTime)
  {
  }

  /** With a unit direction, a frame covers exactly base speed × deltaTime. */
  lemma DistancePerFrame(m: Movement, direction: Vec, deltaTime: real, sqrt: real -> real)
    requires IsSqrt(sqrt) && m.grid.gridSize != 0.0
    requires LengthSquared(direction) == 1.0
    ensures var r := Update(m, direction, deltaTime, sqrt);
      LengthSquared(Subtract(r.state.position, m.state.position)) == (BaseSpeed * deltaTime) * (BaseSpeed * deltaTime)
  {
    assert direction != Zero;
    NeverBlocked(m, direction, deltaTime, sqrt);
    ScaleLengthSquared(direction, BaseSpeed * deltaTime);
  }

  /** Once snapped, idling keeps the player on the cell centre. */
  lemma SnapStable(m: Movement, sqrt: real -> real)
    requires IsSqrt(sqrt) && m.grid.gridSize != 0.0
    requires m.state.position == GridSystem.SnapToGrid(m.grid, m.state.position)
    ensures Update(m, Zero, 0.0, sqrt).state.position == m.state.position
  {
    var snapped := HandleSnapping(m, sqrt);
    assert snapped.state.position in {m.state.position};
  }

  /** Idling far from the centre does not move the player: at (10, 10) on a 32 grid the centre is (16, 16). */
  lemma NoSnapFromAfar(grid: GridSystem.Grid, sqrt: real -> real)
    requires IsSqrt(sqrt) && grid.gridSize == 32.0
    ensures var m := Init(grid).(state := MovementState(Vec(10.0, 10.0), Zero, false));
      Update(m, Zero, 0.016, sqrt).state.position == Vec(10.0, 10.0)
  {
    var m := Init(grid).(state := MovementState(Vec(10.0, 10.0), Zero, false));
    assert GridSystem.WorldToGrid(grid, Vec(10.0, 10.0)) == Vec(0.0, 0.0);
    assert GridSystem.SnapToGrid(grid, Vec(10.0, 10.0)) == Vec(16.0, 16.0);
  }

  /** A blocked move falls back first to the horizontal slide, then to the vertical one. */
  lemma SlideOrder(s: MovementState, newPosition: Vec)
    ensures HandleCollision(s, newPosition, _ => true).position == Vec(newPosition.x, s.position.y)
    ensures HandleCollision(s, newPosition, (p: Vec) => p == Vec(s.position.x, newPosition.y)).position == Vec(s.position.x, newPosition.y)
    ensures HandleCollision(s, newPosition, _ => false) == s
  {
  }
}

=== FILE: numeric.dfy ===
/** Real-number helpers shared by every arithmetic rule of the simulation. */
module Numeric {

  /** JavaScript `Math.round`: the nearest integer, halves rounded up. */
  function Round(x: real): (r: int)
    ensures x - 0.5 < r as real <= x + 0.5
  {
    (x + 0.5).Floor
  }

  function Min(a: real, b: real): (r: real)
    ensures r <= a && r <= b && (r == a || r == b)
  {
    if a <= b then a else b
  }

  function Max(a: real, b: real): (r: real)
    ensures a <= r && b <= r && (r == a || r == b)
  {
    if a >= b then a else b
  }

  /** `Math.max(lo, Math.min(hi, x))`. */
  function Clamp(lo: real, hi: real, x: real): (r: real)
    requires lo <= hi
    ensures lo <= r <= hi
    ensures lo <= x <= hi ==> r == x
  {
    Max(lo, Min(hi, x))
  }

  /** `sqrt` behaves like `Math.sqrt` on the non-negative reals: the non-negative root, and 0 at 0. */
  ghost predicate IsSqrt(sqrt: real -> real) {
    && sqrt(0.0) == 0.0
    && forall x: real :: RootAt(sqrt, x)
  }

  /** At a non-negative `x`, `sqrt(x)` is its non-negative root. */
  ghost predicate RootAt(sqrt: real -> real, x: real) {
    0.0 <= x ==> 0.0 <= sqrt(x) && sqrt(x) * sqrt(x) == x
  }

  lemma SqrtRoot(sqrt: real -> real, x: real)
    requires IsSqrt(sqrt)
    requires 0.0 <= x
    ensures 0.0 <= sqrt(x) && sqrt(x) * sqrt(x) == x
  {
    assert RootAt(sqrt, x);
  }

  lemma SqrtPositive(sqrt: real -> real, x: real)
    requires IsSqrt(sqrt)
    requires 0.0 < x
    ensures 0.0 < sqrt(x)
  {
    SqrtRoot(sqrt, x);
    var s := sqrt(x);
    assert 0.0 <= s && s * s == x;
  }

  /** The root of a square is the non-negative base. */
  lemma SqrtOfSquare(sqrt: real -> real, v: real)
    requires IsSqrt(sqrt)
    requires 0.0 <= v
    ensures sqrt(v * v) == v
  {
    SqrtRoot(sqrt, v * v);
    var s := sqrt(v * v);
    assert 0.0 <= s && s * s == v * v;
    ZeroProduct(s - v, s + v);
  }

  lemma ZeroProduct(a: real, b: real)
    requires a * b == 0.0
    ensures a == 0.0 || b == 0.0
  {
    if a != 0.0 {
      assert b == (a * b) / a;
    }
  }
}

=== FILE: ordered_map.dfy ===
/**
 * A JavaScript `Map`: a finite map plus the insertion order of its keys, which
 * decides the visiting order of `for ... of` and `forEach`. Setting an existing
 * key keeps its place; deleting a key and setting it again moves it to the end.
 */
module OrderedMap {
  import opened Wrappers

  datatype OMap<K(==,!new), V> = OMap(keys: seq<K>, entries: map<K, V>) {

    /** The keys are distinct and are exactly the keys of the map. */
    ghost predicate Valid() {
      && Distinct(keys)
      && (forall k :: k in entries <==> k in keys)
    }
  }

  function Empty<K(==,!new), V>(): (r: OMap<K, V>)
    ensures r.Valid()
    ensures r.entries == map[]
  {
    OMap([], map[])
  }

  /** The keys of `ks` other than `k`, in their order. */
  function Without<K(==,!new)>(ks: seq<K>, k: K): (r: seq<K>)
    ensures forall x :: x in r <==> x in ks && x != k
    ensures |r| <= |ks|
  {
    if ks == [] then []
    else if ks[0] == k then Without(ks[1..], k)
    else [ks[0]] + Without(ks[1..], k)
  }

  ghost predicate Distinct<K>(ks: seq<K>) {
    forall i, j :: 0 <= i < j < |ks| ==> ks[i] != ks[j]
  }

  lemma WithoutDistinct<K(!new)>(ks: seq<K>, k: K)
    ensures Distinct(ks) ==> Distinct(Without(ks, k))
  {
    if ks != [] && Distinct(ks) {
      WithoutDistinct(ks[1..], k);
      assert ks[0] !in ks[1..] by {
        forall i | 0 <= i < |ks[1..]| ensures ks[1..][i] != ks[0] {
          assert ks[1..][i] == ks[i + 1];
        }
      }
    }
  }

  /** The tail of a distinct sequence is distinct and does not hold the head. */
  lemma DistinctTail<K>(ks: seq<K>)
    requires Distinct(ks) && ks != []
    ensures Distinct(ks[1..]) && ks[0] !in ks[1..]
  {
    forall i | 0 <= i < |ks[1..]| ensures ks[1..][i] != ks[0] {
      assert ks[1..][i] == ks[i + 1];
    }
  }

  /** Removing a key that is not there keeps the order as it is. */
  lemma WithoutAbsent<K(!new)>(ks: seq<K>, k: K)
    requires k !in ks
    ensures Without(ks, k) == ks
  {
    if ks != [] {
      WithoutAbsent(ks[1..], k);
    }
  }

  /** `Map.prototype.set`. */
  function Put<K(==,!new), V>(m: OMap<K, V>, k: K, v: V): (r: OMap<K, V>)
    ensures r.entries == m.entries[k := v]
    ensures k in m.entries ==> r.keys == m.keys
    ensures k !in m.entries ==> r.keys == m.keys + [k]
    ensures m.Valid() ==> r.Valid()
  {
    if k in m.entries then OMap(m.keys, m.entries[k := v])
    else OMap(m.keys + [k], m.entries[k := v])
  }

  /** `Map.prototype.delete`. */
  function Delete<K(==,!new), V>(m: OMap<K, V>, k: K): (r: OMap<K, V>)
    ensures r.entries == m.entries - {k}
    ensures r.keys == Without(m.keys, k)
    ensures m.Valid() ==> r.Valid()
  {
    WithoutDistinct(m.keys, k);
    OMap(Without(m.keys, k), m.entries - {k})
  }

  /** `Map.prototype.get`: the stored value, or nothing for a missing key. */
  function Get<K(==,!new), V>(m: OMap<K, V>, k: K): (r: Option<V>)
    ensures r.Some? <==> k in m.entries
    ensures r.Some? ==> r.value == m.entries[k]
  {
    if k in m.entries then Some(m.entries[k]) else None
  }

  /** `Map.prototype.size`: in a valid map the key order holds each key once. */
  function Size<K(==,!new), V>(m: OMap<K, V>): (r: nat)
    requires m.Valid()
    ensures r == |m.entries|
  {
    SizeIsKeyCount(m);
    |m.keys|
  }

  lemma {:induction false} SizeIsKeyCount<K(!new), V>(m: OMap<K, V>)
    requires m.Valid()
    ensures |m.entries| == |m.keys|
    decreases |m.keys|
  {
    if m.keys == [] {
      assert m.entries == map[];
    } else {
      var k := m.keys[0];
      DistinctTail(m.keys);
      var rest := OMap(m.keys[1..], m.entries - {k});
      assert rest.Valid();
      SizeIsKeyCount(rest);
      assert m.entries.Keys == rest.entries.Keys + {k};
    }
  }
}

=== FILE: performance_monitor.dfy ===
/**
 * The frame-time monitor of src/core/PerformanceMonitor.ts: a sliding window of the last 60
 * frame times, the average frame rate over it, and the throttle signal below 30 frames a second.
 */
module PerformanceMonitor {
  import opened Wrappers

  const HistorySize: nat := 60

  /** Frame times in milliseconds, oldest first, and the clock reading of the last update. */
  datatype Monitor = Monitor(history: seq<real>, lastFrameTime: real)

  predicate Valid(m: Monitor) {
    |m.history| <= HistorySize
  }

  function Init(): (m: Monitor)
    ensures Valid(m) && m.history == [] && m.lastFrameTime == 0.0
  {
    Monitor([], 0.0)
  }

  /** The last `HistorySize` samples of `all` (all of them when there are fewer). */
  function Window(all: seq<real>): (r: seq<real>)
    ensures |r| <= HistorySize
  {
    if |all| <= HistorySize then all else all[|all| - HistorySize..]
  }

  /**
   * `update`, with `performance.now()` as `now`: the time since the previous update is appended
   * and, once the window is over-full, the oldest sample is dropped.
   */
  function Update(m: Monitor, now: real): (r: Monitor)
    requires Valid(m)
    ensures Valid(r)
    ensures r.lastFrameTime == now
    ensures |r.history| > 0 && r.history[|r.history| - 1] == now - m.lastFrameTime
    ensures |m.history| < HistorySize ==> r.history == m.history + [now - m.lastFrameTime]
    ensures |m.history| == HistorySize ==> r.history == m.history[1..] + [now - m.lastFrameTime]
  {
    var h := m.history + [now - m.lastFrameTime];
    Monitor(if |h| > HistorySize then h[1..] else h, now)
  }

  /** Left-to-right total, the `reduce((a, b) => a + b, 0)` of the source. */
  function Sum(s: seq<real>): real {
    if |s| == 0 then 0.0 else s[0] + Sum(s[1..])
  }

  /**
   * `getAverageFPS`: 1000 over the mean frame time. With no samples the source computes NaN and
   * with a zero total Infinity; both are `None` here.
   */
  function GetAverageFPS(m: Monitor): (r: Option<real>)
    ensures r.Some? <==> |m.history| > 0 && Sum(m.history) != 0.0
    ensures r.Some? ==> r.value * Sum(m.history) == 1000.0 * |m.history| as real
  {
    var n := |m.history| as real;
    if n == 0.0 || Sum(m.history) == 0.0 then None
    else
      var average := Sum(m.history) / n;
      Some(1000.0 / average)
  }

  /**
   * `shouldThrottle`: the rate is below 30 frames a second, i.e. the mean frame time is above
   * 1000/30 ms (or negative). NaN and Infinity compare false, so an empty window never throttles.
   */
  function ShouldThrottle(m: Monitor): (r: bool)
    ensures r <==> |m.history| > 0 && (Sum(m.history) < 0.0 || 30.0 * Sum(m.history) > 1000.0 * |m.history| as real)
  {
    var fps := GetAverageFPS(m);
    if fps.Some? then
      RateBelow(fps.value, Sum(m.history), |m.history| as real);
      fps.value < 30.0
    else false
  }

  lemma RateBelow(fps: real, total: real, n: real)
    requires n > 0.0 && total != 0.0 && fps * total == 1000.0 * n
    ensures fps < 30.0 <==> total < 0.0 || 30.0 * total > 1000.0 * n
  {
    if total > 0.0 {
      var d := fps - 30.0;
      SignOfProduct(d, total);
      assert d * total == 1000.0 * n - 30.0 * total;
      assert fps < 30.0 <==> d < 0.0;
      assert d < 0.0 <==> 1000.0 * n - 30.0 * total < 0.0;
    } else {
      SignOfProduct(fps, -total);
      assert fps * -total == -(1000.0 * n);
    }
  }

  lemma SignOfProduct(a: real, b: real)
    requires b > 0.0
    ensures a < 0.0 <==> a * b < 0.0
  {
  }

  // ---------------------------------------------------------------- properties

  /** The window only ever holds the most recent samples: update keeps it the tail of everything seen. */
  lemma UpdateKeepsWindow(m: Monitor, all: seq<real>, now: real)
    requires m.history == Window(all)
    ensures Update(m, now).history == Window(all + [now - m.lastFrameTime])
  {
    var f := now - m.lastFrameTime;
    var all' := all + [f];
    if |all| >= HistorySize {
      assert m.history[1..] + [f] == all'[|all'| - HistorySize..];
    }
  }

  /** The total of `n` equal samples. */
  lemma {:induction false} SumConstant(s: seq<real>, f: real)
    requires forall i :: 0 <= i < |s| ==> s[i] == f
    ensures Sum(s) == |s| as real * f
  {
    if |s| > 0 {
      SumConstant(s[1..], f);
    }
  }

  /** A window of identical frame times throttles exactly when that frame time is above 1000/30 ms. */
  lemma SteadyRate(m: Monitor, f: real)
    requires |m.history| > 0
    requires forall i :: 0 <= i < |m.history| ==> m.history[i] == f
    ensures ShouldThrottle(m) <==> f < 0.0 || 30.0 * f > 1000.0
  {
    SumConstant(m.history, f);
    var n := |m.history| as real;
    assert Sum(m.history) == n * f;
    if f < 0.0 {
      assert n * f < 0.0;
    } else {
      assert 30.0 * (n * f) - 1000.0 * n == n * (30.0 * f - 1000.0);
      assert 30.0 * (n * f) > 1000.0 * n <==> 30.0 * f > 1000.0;
    }
  }

  /**
   * The first sample is the clock reading itself, since the previous time starts at 0: a monitor
   * first updated more than 1000/30 ms after the clock's origin throttles at once.
   */
  lemma FirstSampleIsClock(now: real)
    ensures Update(Init(), now).history == [now]
    ensures ShouldThrottle(Update(Init(), now)) <==> now < 0.0 || 30.0 * now > 1000.0
  {
    SteadyRate(Update(Init(), now), now);
  }

  /** No samples, no throttling. */
  lemma EmptyNeverThrottles()
    ensures !ShouldThrottle(Init()) && GetAverageFPS(Init()).None?
  {
  }
}

=== FILE: skill_effect.dfy ===
/**
 * Skill effects as one tagged datatype: the shapes of src/core/SkillEffect.ts (its stub
 * BurningEffect and StrengthBuffEffect) and of src/core/skills/SkillEffects.ts (BurningEffect,
 * KnockbackEffect, DefenseBuffEffect). An optional hook the class does not define is `None`.
 */
module SkillEffect {
  import opened Wrappers
  import opened Numeric
  import opened Stats
  import opened Vector2D

  datatype Effect =
    | StubBurning                                             // SkillEffect.ts BurningEffect
    | StrengthBuff                                            // SkillEffect.ts StrengthBuffEffect
    | Burning(stacks: real)                                   // skills/SkillEffects.ts BurningEffect
    | Knockback(id: string, force: real)                      // skills/SkillEffects.ts KnockbackEffect
    | DefenseBuff(id: string, duration: real, defenseBonus: real) // skills/SkillEffects.ts DefenseBuffEffect

  /**
   * What an effect acts on. `id` stands for `target.stats.id`, the key the skill system files
   * effects under; `source` and `velocity` are the fields the knockback reads and writes.
   */
  datatype SkillTarget = SkillTarget(
    id: string,
    stats: CharacterStats,
    position: Vec,
    source: Option<Vec>,
    velocity: Option<Vec>)

  /** The effects as their constructors build them by default. */
  const NewBurning := Burning(1.0)
  const NewKnockback := Knockback("knockback", 100.0)
  const NewDefenseBuff := DefenseBuff("defenseBuff", 10000.0, 20.0)

  function Id(e: Effect): (r: string)
    ensures e.Knockback? || e.DefenseBuff? ==> r == e.id
  {
    match e
    case StubBurning => "burning"
    case StrengthBuff => "strengthBuff"
    case Burning(_) => "burning"
    case Knockback(id, _) => id
    case DefenseBuff(id, _, _) => id
  }

  /** The effect's lifetime in ms; a knockback has none and is never removed by a timer. */
  function Duration(e: Effect): (r: Option<real>)
    ensures r.None? <==> e.Knockback?
    ensures e.StubBurning? || e.Burning? ==> r == Some(5000.0)
    ensures e.StrengthBuff? ==> r == Some(10000.0)
    ensures e.DefenseBuff? ==> r == Some(e.duration)
  {
    match e
    case StubBurning => Some(5000.0)
    case StrengthBuff => Some(10000.0)
    case Burning(_) => Some(5000.0)
    case Knockback(_, _) => None
    case DefenseBuff(_, duration, _) => Some(duration)
  }

  /** The stack count; only the burning effect of skills/SkillEffects.ts has one. */
  function Stacks(e: Effect): (r: Option<real>)
    ensures r.Some? <==> e.Burning?
  {
    if e.Burning? then Some(e.stacks) else None
  }

  /**
   * The stat change an active effect makes: the strength buff scales damage by 1.2, the defence
   * buff adds its bonus to defence, every other effect leaves the stats as they are.
   */
  function ModifyStats(e: Effect, s: CharacterStats): (r: CharacterStats)
    ensures e.StrengthBuff? ==> r.damage == s.damage * 1.2
    ensures e.DefenseBuff? ==> r.defense == s.defense + e.defenseBonus
    ensures forall stat :: Get(r, stat) != Get(s, stat) ==>
      (e.StrengthBuff? && stat == Damage) || (e.DefenseBuff? && stat == Defense)
  {
    match e
    case StrengthBuff => s.(damage := s.damage * 1.2)
    case DefenseBuff(_, _, bonus) => s.(defense := s.defense + bonus)
    case _ => s
  }

  /**
   * The optional damage hook; only the defence buff has one. It raises the reduction by 0.1,
   * never past 0.75, and keeps the damage and the crit flag.
   */
  function ModifyDamage(e: Effect, d: DamageResult): (r: Option<DamageResult>)
    ensures r.Some? <==> e.DefenseBuff?
    ensures r.Some? ==> r.value.finalDamage == d.finalDamage && r.value.isCritical == d.isCritical
    ensures r.Some? ==> r.value.damageReduction <= 0.75
    ensures r.Some? && d.damageReduction <= 0.65 ==> r.value.damageReduction == d.damageReduction + 0.1
    ensures r.Some? && d.damageReduction > 0.65 ==> r.value.damageReduction == 0.75
  {
    match e
    case DefenseBuff(_, _, _) => Some(d.(damageReduction := Min(0.75, d.damageReduction + 0.1)))
    case _ => None
  }

  /**
   * The damage one tick asks the target to take: for the burning effect of
   * skills/SkillEffects.ts, 5% of the target's health per stack. The stub computes the same
   * figure for one stack but applies nothing, so it, like every effect without a tick, yields None.
   */
  function OnTick(e: Effect, target: SkillTarget): (r: Option<real>)
    ensures r.Some? <==> e.Burning?
    ensures r.Some? ==> r.value * 20.0 == target.stats.health * e.stacks
  {
    match e
    case Burning(stacks) => Some(target.stats.health * 0.05 * stacks)
    case _ => None
  }

  /**
   * The apply hook. Only the knockback changes the target: it pushes the target away from the
   * source at `force` when the two are apart, and leaves the velocity alone when they coincide
   * or the target carries no source. The burning effect's hook only starts a timer, which is
   * left out.
   */
  function OnApply(e: Effect, target: SkillTarget, sqrt: real -> real): (r: SkillTarget)
    requires IsSqrt(sqrt)
    ensures r.id == target.id && r.stats == target.stats && r.position == target.position && r.source == target.source
    ensures !e.Knockback? || target.source.None? ==> r == target
    ensures e.Knockback? && target.source.Some? && target.position == target.source.value ==> r == target
    ensures e.Knockback? && target.source.Some? && target.position != target.source.value ==>
      var away := Subtract(target.position, target.source.value);
      && r.velocity.Some?
      && 0.0 < Distance(target.position, target.source.value, sqrt)
      && LengthSquared(r.velocity.value) == e.force * e.force
      && r.velocity.value == Multiply(away, e.force / Distance(target.position, target.source.value, sqrt))
      && (0.0 < e.force ==> SameDirection(r.velocity.value, away))
  {
    match e
    case Knockback(_, force) =>
      if target.source.None? then target
      else
        var direction := Subtract(target.position, target.source.value);
        var distance := Length(direction, sqrt);
        SubtractZero(target.position, target.source.value);
        LengthSquaredZero(direction);
        if distance > 0.0 then
          var v := Vec(direction.x / distance * force, direction.y / distance * force);
          KnockbackLength(direction, distance, force);
          KnockbackAway(direction, distance, force);
          target.(velocity := Some(v))
        else
          target
    case _ => target
  }

  /** A positive force pushes along the offset from the source, i.e. away from it. */
  lemma KnockbackAway(direction: Vec, distance: real, force: real)
    requires direction != Zero && 0.0 < distance
    ensures 0.0 < force ==> SameDirection(Multiply(direction, force / distance), direction)
  {
    if 0.0 < force {
      assert 0.0 < force / distance;
      ScaledSameDirection(direction, force / distance);
    }
  }

  /** The target after each effect's apply hook in turn, each seeing what the previous one left. */
  function Hooked(target: SkillTarget, effects: seq<Effect>, sqrt: real -> real): (r: SkillTarget)
    requires IsSqrt(sqrt)
    ensures r.id == target.id && r.stats == target.stats && r.position == target.position && r.source == target.source
    ensures (forall i :: 0 <= i < |effects| ==> !effects[i].Knockback?) ==> r == target
    decreases |effects|
  {
    if effects == [] then target else Hooked(OnApply(effects[0], target, sqrt), effects[1..], sqrt)
  }

  /** Dividing a vector by its length and scaling by `force` gives a vector of length |force|. */
  lemma KnockbackLength(direction: Vec, distance: real, force: real)
    requires distance != 0.0
    requires distance * distance == LengthSquared(direction)
    ensures var v := Vec(direction.x / distance * force, direction.y / distance * force);
      && v == Multiply(direction, force / distance)
      && LengthSquared(v) == force * force
  {
    var unit := Multiply(direction, 1.0 / distance);
    UnitAfterDivision(direction, distance);
    ScaleLengthSquared(unit, force);
    assert Multiply(unit, force) == Vec(direction.x / distance * force, direction.y / distance * force);
  }

  // ---------------------------------------------------------------- properties

  /** The stat hooks of the burning and knockback effects are the identity. */
  lemma IdentityModifiers(s: CharacterStats, stacks: real, id: string, force: real)
    ensures ModifyStats(StubBurning, s) == s
    ensures ModifyStats(Burning(stacks), s) == s
    ensures ModifyStats(Knockback(id, force), s) == s
  {
  }

  /** Burning damage is linear in the stack count: 5 at one stack and 10 at two on 100 health. */
  lemma BurningExamples(target: SkillTarget)
    requires target.stats.health == 100.0
    ensures OnTick(NewBurning, target) == Some(5.0)
    ensures OnTick(Burning(2.0), target) == Some(10.0)
    ensures OnTick(StubBurning, target) == None
  {
  }

  /** A strength buff turns damage 10 into 12; the default defence buff turns defence 5 into 25 and 0.7 into 0.75. */
  lemma BuffExamples(s: CharacterStats, d: DamageResult)
    requires s.damage == 10.0 && s.defense == 5.0 && d.damageReduction == 0.7
    ensures ModifyStats(StrengthBuff, s).damage == 12.0
    ensures ModifyStats(NewDefenseBuff, s).defense == 25.0
    ensures ModifyDamage(NewDefenseBuff, d).value.damageReduction == 0.75
  {
  }

  /** The default effects carry the durations and stack counts of their constructors. */
  lemma DefaultShapes()
    ensures Duration(NewBurning) == Some(5000.0) && Stacks(NewBurning) == Some(1.0)
    ensures Duration(NewDefenseBuff) == Some(10000.0) && Id(NewDefenseBuff) == "defenseBuff"
    ensures Duration(NewKnockback) == None && Id(NewKnockback) == "knockback"
  {
  }
}

=== FILE: skill_library.dfy ===
/**
 * The skill catalogue of src/core/skills/SkillLibrary.ts: the dragon breath, wing and scale
 * trees with their per-level scaling formulas.
 */
module SkillLibrary {
  import opened Wrappers
  import opened SkillEffect
  import opened SkillSystem

  const BasicBreath := SkillData("basicBreath", 1, 8, 2000.0, 10.0, [],
    Some(NoScaling.(damage := Some(Linear(10.0, 5.0)), range := Some(Linear(100.0, 20.0)))), None)

  /**
   * The burning effect here is the stub class of src/core/SkillEffect.ts, which is what this
   * file's import names; the knockback and defence buff are those of skills/SkillEffects.ts.
   */
  const SpreadBreath := SkillData("spreadBreath", 1, 5, 3000.0, 15.0,
    [StubBurning, Knockback("breathKnock", 50.0)],
    None, Some(Requirements(Some(3), Some(["basicBreath"]))))

  const ElementalBreath := SkillData("elementalBreath", 1, 5, 4000.0, 20.0,
    [StubBurning, DefenseBuff("elementalDefense", 5000.0, 10.0)],
    None, Some(Requirements(Some(5), Some(["spreadBreath"]))))

  const WingSlash := SkillData("wingSlash", 1, 5, 3000.0, 15.0, [],
    Some(NoScaling.(knockback := Some(Linear(50.0, 10.0)))), None)

  const Whirlwind := SkillData("whirlwind", 1, 5, 8000.0, 25.0, [],
    None, Some(Requirements(Some(4), Some(["wingSlash"]))))

  const ScaleArmor := SkillData("scaleArmor", 1, 5, 0.0, 0.0, [],
    Some(NoScaling.(defense := Some(Linear(0.0, 5.0)), health := Some(Linear(0.0, 20.0)))), None)

  const ScaleReflection := SkillData("scaleReflection", 1, 5, 0.0, 0.0, [],
    Some(NoScaling.(reflection := Some(Linear(0.1, 0.05)))),
    Some(Requirements(Some(3), Some(["scaleArmor"]))))

  const DragonBreathSkills: map<string, SkillData> := map[
    "basicBreath" := BasicBreath, "spreadBreath" := SpreadBreath, "elementalBreath" := ElementalBreath]

  const DragonWingSkills: map<string, SkillData> := map["wingSlash" := WingSlash, "whirlwind" := Whirlwind]

  const DragonScaleSkills: map<string, SkillData> := map[
    "scaleArmor" := ScaleArmor, "scaleReflection" := ScaleReflection]

  /** The three trees together, as a catalogue lookup. */
  function Library(id: string): (r: Option<SkillData>)
    ensures r.Some? <==> id in DragonBreathSkills || id in DragonWingSkills || id in DragonScaleSkills
    ensures r.Some? ==> r.value.id == id
  {
    if id in DragonBreathSkills then Some(DragonBreathSkills[id])
    else if id in DragonWingSkills then Some(DragonWingSkills[id])
    else if id in DragonScaleSkills then Some(DragonScaleSkills[id])
    else None
  }

  /** An entry as shipped: it starts at level 1 under a cap of at least 1, and its id is its key. */
  predicate WellFormed(key: string, d: SkillData) {
    d.id == key && d.level == 1 && 1 <= d.maxLevel && 0.0 <= d.baseCooldown
  }

  // ---------------------------------------------------------------- properties

  lemma CatalogueWellFormed()
    ensures forall k :: k in DragonBreathSkills ==> WellFormed(k, DragonBreathSkills[k])
    ensures forall k :: k in DragonWingSkills ==> WellFormed(k, DragonWingSkills[k])
    ensures forall k :: k in DragonScaleSkills ==> WellFormed(k, DragonScaleSkills[k])
    ensures DragonBreathSkills.Keys !! DragonWingSkills.Keys && DragonWingSkills.Keys !! DragonScaleSkills.Keys
    ensures DragonBreathSkills.Keys !! DragonScaleSkills.Keys
  {
  }

  /** Breath damage and range grow strictly with the level. */
  lemma BreathScalingIncreasing(l1: real, l2: real)
    requires l1 < l2
    ensures BasicBreath.scaling.value.damage.value.At(l1) < BasicBreath.scaling.value.damage.value.At(l2)
    ensures BasicBreath.scaling.value.range.value.At(l1) < BasicBreath.scaling.value.range.value.At(l2)
  {
  }

  /** The remaining formulas at concrete levels: knockback 60 at level 1, armour 5/20 per level, reflection 0.15 to 0.35. */
  lemma ScalingValues(l: real)
    ensures WingSlash.scaling.value.knockback.value.At(l) == 50.0 + 10.0 * l
    ensures ScaleArmor.scaling.value.defense.value.At(l) == 5.0 * l
    ensures ScaleArmor.scaling.value.health.value.At(l) == 20.0 * l
    ensures ScaleReflection.scaling.value.reflection.value.At(1.0) == 0.15
    ensures ScaleReflection.scaling.value.reflection.value.At(ScaleReflection.maxLevel as real) == 0.35
  {
  }

  /** The passive scale skills have no cooldown. */
  lemma PassiveSkillsHaveNoCooldown()
    ensures ScaleArmor.baseCooldown == 0.0 && ScaleReflection.baseCooldown == 0.0
  {
  }

  /**
   * The library's requirements are never checked: none of its ids is in the skill tree, so
   * with the library as catalogue every one of them unlocks from a fresh state.
   */
  lemma RequirementsNotEnforced(id: string)
    requires Library(id).Some?
    ensures CanUnlockSkill(SkillSystem.Init(), Library, id)
  {
  }
}

=== FILE: skill_system.dfy ===
/**
 * Skill unlocking, upgrading and use of src/core/SkillSystem.ts, with the per-target sets of
 * active effects and the cooldowns it keeps. `getSkillData` is called by the source but defined
 * nowhere; here it is the `catalogue` parameter, a lookup that may find nothing.
 */
module SkillSystem {
  import opened Wrappers
  import opened Numeric
  import opened OrderedMap
  import opened SkillEffect
  import CooldownSystem

  /** A per-level formula `base + perLevel * level`; every scaling function of the library has this shape. */
  datatype Linear = Linear(base: real, perLevel: real) {
    function At(level: real): real {
      base + perLevel * level
    }
  }

  datatype Scaling = Scaling(
    damage: Option<Linear>,
    range: Option<Linear>,
    knockback: Option<Linear>,
    defense: Option<Linear>,
    health: Option<Linear>,
    reflection: Option<Linear>)

  const NoScaling := Scaling(None, None, None, None, None, None)

  datatype Requirements = Requirements(level: Option<int>, skills: Option<seq<string>>)

  /** A skill's record; its display name and description are left out. */
  datatype SkillData = SkillData(
    id: string,
    level: int,
    maxLevel: int,
    baseCooldown: real,
    baseEffect: real,
    effects: seq<Effect>,
    scaling: Option<Scaling>,
    requirements: Option<Requirements>)

  datatype SkillEvent =
    | SkillUse(skillId: string, target: SkillTarget, cooldown: real)
    | SkillReady(skillId: string)

  datatype Skills = Skills(
    unlocked: OMap<string, SkillData>,
    activeEffects: OMap<string, set<Effect>>,
    cooldowns: CooldownSystem.Cooldowns)

  /** The skill tree. The source reads the list under a skill as the skills that unlock it (any one suffices). */
  const SkillTree: map<string, seq<string>> := map[
    "basicAttack" := ["powerStrike", "quickSlash"],
    "powerStrike" := ["heavyBlow", "whirlwind"],
    "quickSlash" := ["dualStrike", "swiftness"]]

  ghost predicate Valid(s: Skills) {
    s.unlocked.Valid() && s.activeEffects.Valid() && CooldownSystem.Valid(s.cooldowns)
  }

  /** Every unlocked skill is within its level cap. */
  predicate LevelsCapped(s: Skills) {
    forall id :: id in s.unlocked.entries ==> s.unlocked.entries[id].level <= s.unlocked.entries[id].maxLevel
  }

  function Init(): (s: Skills)
    ensures Valid(s) && LevelsCapped(s)
    ensures s.unlocked.entries == map[] && s.activeEffects.entries == map[]
  {
    Skills(Empty(), Empty(), CooldownSystem.Init())
  }

  /** Whether any of `ids` is unlocked (`Array.prototype.some`). */
  function AnyUnlocked(s: Skills, ids: seq<string>): (r: bool)
    ensures r <==> exists i :: 0 <= i < |ids| && ids[i] in s.unlocked.entries
  {
    if ids == [] then false
    else ids[0] in s.unlocked.entries || AnyUnlocked(s, ids[1..])
  }

  /**
   * A skill can be unlocked when the catalogue knows it, it is not unlocked yet, and, if the tree
   * lists skills under it, at least one of them is unlocked. Its `requirements` are not consulted.
   */
  function CanUnlockSkill(s: Skills, catalogue: string -> Option<SkillData>, skillId: string): (r: bool)
    ensures r ==> catalogue(skillId).Some? && skillId !in s.unlocked.entries
    ensures catalogue(skillId).Some? && skillId !in s.unlocked.entries && skillId !in SkillTree ==> r
    ensures skillId in SkillTree ==>
      (r <==> catalogue(skillId).Some? && skillId !in s.unlocked.entries
              && exists p :: p in SkillTree[skillId] && p in s.unlocked.entries)
  {
    match catalogue(skillId)
    case None => false
    case Some(_) =>
      if skillId in s.unlocked.entries then false
      else if skillId in SkillTree then AnyUnlocked(s, SkillTree[skillId])
      else true
  }

  /** Unlocks a skill at level 1 when it can be unlocked; otherwise nothing changes. */
  function UnlockSkill(s: Skills, catalogue: string -> Option<SkillData>, skillId: string): (r: (Skills, bool))
    ensures r.1 <==> CanUnlockSkill(s, catalogue, skillId)
    ensures !r.1 ==> r.0 == s
    ensures r.1 ==> r.0.unlocked.entries == s.unlocked.entries[skillId := catalogue(skillId).value.(level := 1)]
    ensures r.0.activeEffects == s.activeEffects && r.0.cooldowns == s.cooldowns
    ensures Valid(s) ==> Valid(r.0)
    ensures LevelsCapped(s) && (r.1 ==> 1 <= catalogue(skillId).value.maxLevel) ==> LevelsCapped(r.0)
  {
    if !CanUnlockSkill(s, catalogue, skillId) then (s, false)
    else
      var data := catalogue(skillId).value;
      (s.(unlocked := Put(s.unlocked, skillId, data.(level := 1))), true)
  }

  /** Raises an unlocked skill one level if it is below its cap; otherwise nothing changes. */
  function UpgradeSkill(s: Skills, skillId: string): (r: (Skills, bool))
    ensures r.1 <==> skillId in s.unlocked.entries
                     && s.unlocked.entries[skillId].level < s.unlocked.entries[skillId].maxLevel
    ensures !r.1 ==> r.0 == s
    ensures r.1 ==> r.0.unlocked.entries == s.unlocked.entries[skillId :=
      s.unlocked.entries[skillId].(level := s.unlocked.entries[skillId].level + 1)]
    ensures LevelsCapped(s) ==> LevelsCapped(r.0)
    ensures Valid(s) ==> Valid(r.0)
  {
    match Get(s.unlocked, skillId)
    case None => (s, false)
    case Some(skill) =>
      if skill.level >= skill.maxLevel then (s, false)
      else (s.(unlocked := Put(s.unlocked, skillId, skill.(level := skill.level + 1))), true)
  }

  function CanUseSkill(s: Skills, skillId: string, now: real): (r: bool)
    ensures r <==> skillId in s.unlocked.entries && CooldownSystem.GetRemainingTime(s.cooldowns, skillId, now) == 0.0
  {
    skillId in s.unlocked.entries && !CooldownSystem.IsOnCooldown(s.cooldowns, skillId, now)
  }

  /** `applyEffect`: files the effect under the target's id and runs its apply hook on the target. */
  function ApplyEffect(s: Skills, target: SkillTarget, e: Effect, sqrt: real -> real): (r: (Skills, SkillTarget))
    requires IsSqrt(sqrt)
    ensures target.id in r.0.activeEffects.entries && e in r.0.activeEffects.entries[target.id]
    ensures forall id :: id in s.activeEffects.entries ==> id in r.0.activeEffects.entries && s.activeEffects.entries[id] <= r.0.activeEffects.entries[id]
    ensures forall id :: id != target.id && id in r.0.activeEffects.entries ==>
      id in s.activeEffects.entries && r.0.activeEffects.entries[id] == s.activeEffects.entries[id]
    ensures r.0.unlocked == s.unlocked && r.0.cooldowns == s.cooldowns
    ensures r.1 == OnApply(e, target, sqrt)
    ensures s.activeEffects.Valid() ==> r.0.activeEffects.Valid()
  {
    var current := Get(s.activeEffects, target.id).GetOr({});
    (s.(activeEffects := Put(s.activeEffects, target.id, current + {e})), OnApply(e, target, sqrt))
  }

  /** Applies the effects in order; the target each hook sees is the one the previous hook left. */
  function ApplyEffects(s: Skills, target: SkillTarget, effects: seq<Effect>, sqrt: real -> real): (r: (Skills, SkillTarget))
    requires IsSqrt(sqrt)
    ensures forall e :: e in effects ==> target.id in r.0.activeEffects.entries && e in r.0.activeEffects.entries[target.id]
    ensures forall id :: id in s.activeEffects.entries ==> id in r.0.activeEffects.entries && s.activeEffects.entries[id] <= r.0.activeEffects.entries[id]
    ensures forall id :: id != target.id && id in r.0.activeEffects.entries ==>
      id in s.activeEffects.entries && r.0.activeEffects.entries[id] == s.activeEffects.entries[id]
    ensures r.0.unlocked == s.unlocked && r.0.cooldowns == s.cooldowns
    ensures r.1 == Hooked(target, effects, sqrt)
    ensures s.activeEffects.Valid() ==> r.0.activeEffects.Valid()
    decreases |effects|
  {
    if effects == [] then (s, target)
    else
      var (s', t') := ApplyEffect(s, target, effects[0], sqrt);
      ApplyEffects(s', t', effects[1..], sqrt)
  }

  /**
   * Uses an unlocked skill that is off cooldown: applies all its effects to the target, starts
   * a cooldown of the skill's base cooldown and emits one skillUse. Otherwise nothing changes.
   */
  function UseSkill(s: Skills, skillId: string, target: SkillTarget, now: real, sqrt: real -> real): (r: (Skills, bool, seq<SkillEvent>))
    requires IsSqrt(sqrt)
    ensures r.1 <==> CanUseSkill(s, skillId, now)
    ensures !r.1 ==> r.0 == s && r.2 == []
    ensures r.1 ==>
      var skill := s.unlocked.entries[skillId];
      && (forall e :: e in skill.effects ==> target.id in r.0.activeEffects.entries && e in r.0.activeEffects.entries[target.id])
      && r.0.unlocked == s.unlocked
      && Get(r.0.cooldowns.ends, skillId) == Some(now + skill.baseCooldown)
      && |r.2| == 1 && r.2[0].SkillUse? && r.2[0].skillId == skillId && r.2[0].cooldown == skill.baseCooldown
      && r.2[0].target == Hooked(target, skill.effects, sqrt)
    ensures Valid(s) ==> Valid(r.0)
  {
    if !CanUseSkill(s, skillId, now) then (s, false, [])
    else
      var skill := s.unlocked.entries[skillId];
      var (s', target') := ApplyEffects(s, target, skill.effects, sqrt);
      var (cooldowns', _) := CooldownSystem.StartCooldown(s'.cooldowns, skillId, skill.baseCooldown, now);
      (s'.(cooldowns := cooldowns'), true, [SkillUse(skillId, target', skill.baseCooldown)])
  }

  /** `removeEffect`: drops the effect from the target's set if the target has one; the set itself stays. */
  function RemoveEffect(s: Skills, target: SkillTarget, e: Effect): (r: Skills)
    ensures target.id !in s.activeEffects.entries ==> r == s
    ensures target.id in s.activeEffects.entries ==>
      r.activeEffects.entries == s.activeEffects.entries[target.id := s.activeEffects.entries[target.id] - {e}]
    ensures r.unlocked == s.unlocked && r.cooldowns == s.cooldowns
    ensures s.activeEffects.Valid() ==> r.activeEffects.Valid()
  {
    match Get(s.activeEffects, target.id)
    case None => s
    case Some(effects) => s.(activeEffects := Put(s.activeEffects, target.id, effects - {e}))
  }

  function GetActiveEffects(s: Skills, targetId: string): (r: set<Effect>)
    ensures targetId !in s.activeEffects.entries ==> r == {}
    ensures targetId in s.activeEffects.entries ==> r == s.activeEffects.entries[targetId]
  {
    Get(s.activeEffects, targetId).GetOr({})
  }

  /** The skillReady events forwarded for the cooldown `end` events, in order. */
  function ReadyEvents(events: seq<CooldownSystem.CooldownEvent>): (r: seq<SkillEvent>)
    ensures forall e :: e in r ==> e.SkillReady?
    ensures forall id :: SkillReady(id) in r <==> CooldownSystem.End(id) in events
    ensures |r| <= |events|
  {
    if events == [] then []
    else
      var head := if events[0].End? then [SkillReady(events[0].skillId)] else [];
      head + ReadyEvents(events[1..])
  }

  /** `update`: advances the cooldowns and re-emits each cooldown end as skillReady. */
  function Update(s: Skills, now: real): (r: (Skills, seq<SkillEvent>))
    requires Valid(s)
    ensures Valid(r.0)
    ensures r.0.unlocked == s.unlocked && r.0.activeEffects == s.activeEffects
    ensures forall id :: SkillReady(id) in r.1 <==>
      id in s.cooldowns.ends.entries && s.cooldowns.ends.entries[id] <= now
    ensures forall e :: e in r.1 ==> e.SkillReady?
  {
    var (cooldowns', events) := CooldownSystem.Update(s.cooldowns, now);
    forall id ensures CooldownSystem.End(id) in events <==>
      id in s.cooldowns.ends.entries && s.cooldowns.ends.entries[id] <= now
    {
      if id in s.cooldowns.ends.entries && s.cooldowns.ends.entries[id] <= now {
        var i :| 0 <= i < |s.cooldowns.ends.keys| && s.cooldowns.ends.keys[i] == id;
        assert events[i] == CooldownSystem.EventFor(s.cooldowns, now, id);
      }
      if CooldownSystem.End(id) in events {
        var i :| 0 <= i < |events| && events[i] == CooldownSystem.End(id);
        assert events[i] == CooldownSystem.EventFor(s.cooldowns, now, s.cooldowns.ends.keys[i]);
      }
    }
    (s.(cooldowns := cooldowns'), ReadyEvents(events))
  }

  /** `getSkillCooldown`: the time left on the skill's cooldown, positive exactly while it runs. */
  function GetSkillCooldown(s: Skills, skillId: string, now: real): (r: real)
    ensures 0.0 <= r
    ensures 0.0 < r <==> CooldownSystem.IsOnCooldown(s.cooldowns, skillId, now)
    ensures CooldownSystem.EndTime(s.cooldowns, skillId).None? ==> r == 0.0
  {
    CooldownSystem.GetRemainingTime(s.cooldowns, skillId, now)
  }

  /** `getSkillCooldownProgress`: 1 for a skill with no (or a zero) stored duration. */
  function GetSkillCooldownProgress(s: Skills, skillId: string, now: real): (r: real)
    ensures skillId !in s.cooldowns.durations || s.cooldowns.durations[skillId] == 0.0 ==> r == 1.0
    ensures skillId in s.cooldowns.durations && s.cooldowns.durations[skillId] != 0.0 ==>
      r * s.cooldowns.durations[skillId] == s.cooldowns.durations[skillId] - GetSkillCooldown(s, skillId, now)
  {
    CooldownSystem.GetCooldownProgress(s.cooldowns, skillId, now)
  }

  /** `reduceCooldown`: moves a running cooldown's end earlier; the skills and effects are untouched. */
  function ReduceCooldown(s: Skills, skillId: string, amount: real): (r: Skills)
    ensures r.unlocked == s.unlocked && r.activeEffects == s.activeEffects
    ensures CooldownSystem.EndTime(s.cooldowns, skillId).None? ==> r == s
    ensures CooldownSystem.EndTime(s.cooldowns, skillId).Some? ==>
      r.cooldowns.ends.entries == s.cooldowns.ends.entries[skillId := CooldownSystem.EndTime(s.cooldowns, skillId).value - amount]
    ensures Valid(s) ==> Valid(r)
  {
    s.(cooldowns := CooldownSystem.ReduceCooldown(s.cooldowns, skillId, amount))
  }

  /** `resetCooldown`: the skill is ready again at once; the skills and effects are untouched. */
  function ResetCooldown(s: Skills, skillId: string): (r: Skills)
    ensures r.unlocked == s.unlocked && r.activeEffects == s.activeEffects
    ensures forall now :: GetSkillCooldown(r, skillId, now) == 0.0
    ensures Valid(s) ==> Valid(r)
  {
    s.(cooldowns := CooldownSystem.ResetCooldown(s.cooldowns, skillId))
  }

  // ---------------------------------------------------------------- properties

  /** Removing an effect twice is removing it once. */
  lemma RemoveEffectIdempotent(s: Skills, target: SkillTarget, e: Effect)
    ensures RemoveEffect(RemoveEffect(s, target, e), target, e) == RemoveEffect(s, target, e)
  {
    if target.id in s.activeEffects.entries {
      var effects := s.activeEffects.entries[target.id];
      assert (effects - {e}) - {e} == effects - {e};
      assert s.activeEffects.entries[target.id := effects - {e}][target.id := effects - {e}]
          == s.activeEffects.entries[target.id := effects - {e}];
    }
  }

  /**
   * Read literally, the tree makes basicAttack wait for powerStrike or quickSlash, and
   * powerStrike wait for heavyBlow or whirlwind; whirlwind has no entry and needs nothing.
   */
  lemma BasicAttackChain(catalogue: string -> Option<SkillData>)
    requires catalogue("basicAttack").Some? && catalogue("powerStrike").Some? && catalogue("whirlwind").Some?
    ensures !CanUnlockSkill(Init(), catalogue, "basicAttack")
    ensures !CanUnlockSkill(Init(), catalogue, "powerStrike")
    ensures var s1 := UnlockSkill(Init(), catalogue, "whirlwind");
      && s1.1
      && UnlockSkill(s1.0, catalogue, "powerStrike").1
      && CanUnlockSkill(UnlockSkill(s1.0, catalogue, "powerStrike").0, catalogue, "basicAttack")
  {
    assert "whirlwind" !in SkillTree;
    var s1 := UnlockSkill(Init(), catalogue, "whirlwind").0;
    assert SkillTree["powerStrike"][1] == "whirlwind";
    var s2 := UnlockSkill(s1, catalogue, "powerStrike").0;
    assert SkillTree["basicAttack"][0] == "powerStrike";
  }

  /** A skill used once is refused while its cooldown runs, and nothing changes. */
  lemma UseRefusedOnCooldown(s: Skills, skillId: string, target: SkillTarget, now: real, later: real, sqrt: real -> real)
    requires IsSqrt(sqrt)
    requires 0.0 <= now <= later
    requires UseSkill(s, skillId, target, now, sqrt).1
    requires later < now + s.unlocked.entries[skillId].baseCooldown
    ensures var s' := UseSkill(s, skillId, target, now, sqrt).0;
      UseSkill(s', skillId, target, later, sqrt) == (s', false, [])
  {
    var s' := UseSkill(s, skillId, target, now, sqrt).0;
    assert CooldownSystem.EndTime(s'.cooldowns, skillId) == Some(now + s.unlocked.entries[skillId].baseCooldown);
  }
}

=== FILE: stat_calculator.dfy ===
/** The damage, healing and speed formulas of src/core/StatCalculator.ts. */
module StatCalculator {
  import opened Numeric
  import opened Stats

  /** Damage before defence: base plus the attacker's damage, times the crit multiplier on a crit. */
  function RawDamage(attacker: CharacterStats, baseDamage: real, isCritical: bool): real {
    var damage := baseDamage + attacker.damage;
    if isCritical then damage * attacker.critDamage else damage
  }

  /**
   * One attack. `roll` is the Math.random() draw: the hit is critical iff it is below the
   * attacker's crit chance. The defender keeps the fraction 1 - defense / (defense + 100),
   * and the result is the nearest whole number (halves up) of that, never below zero.
   */
  function CalculateDamage(attacker: CharacterStats, defender: CharacterStats, baseDamage: real, roll: real): (r: DamageResult)
    requires defender.defense + 100.0 != 0.0
    ensures r.isCritical <==> roll < attacker.critChance
    ensures r.damageReduction * (defender.defense + 100.0) == defender.defense
    ensures 0 <= r.finalDamage
    ensures var kept := Max(0.0, RawDamage(attacker, baseDamage, r.isCritical) * (1.0 - r.damageReduction));
      kept - 0.5 < r.finalDamage as real <= kept + 0.5
  {
    var isCritical := roll < attacker.critChance;
    var damageReduction := defender.defense / (defender.defense + 100.0);
    var finalDamage := Max(0.0, RawDamage(attacker, baseDamage, isCritical) * (1.0 - damageReduction));
    DamageResult(Round(finalDamage), isCritical, damageReduction)
  }

  /** Healing grows by a tenth of a percent per point of the healer's health. */
  function CalculateHealing(healer: CharacterStats, baseHealing: real): (r: int)
    ensures var exact := baseHealing * (1.0 + healer.health / 1000.0);
      exact - 0.5 < r as real <= exact + 0.5
  {
    Round(baseHealing * (1.0 + healer.health / 1000.0))
  }

  const MaxMoveSpeed: real := 10.0

  /** The character's speed, capped at 10. */
  function CalculateMoveSpeed(stats: CharacterStats): (r: real)
    ensures r <= MaxMoveSpeed && r <= stats.speed
    ensures r == stats.speed || r == MaxMoveSpeed
  {
    Min(stats.speed, MaxMoveSpeed)
  }

  // ---------------------------------------------------------------- properties

  /** With non-negative defence the reduction is a fraction in [0, 1). */
  lemma DamageReductionBounds(defense: real)
    requires 0.0 <= defense
    ensures 0.0 <= defense / (defense + 100.0) < 1.0
  {
    var d := defense + 100.0;
    var q := defense / d;
    assert q * d == defense;
  }

  lemma MulLeftMonotone(a: real, b: real, c: real)
    requires b <= a && 0.0 < c
    ensures b * c <= a * c
  {
  }

  /** Defence never adds damage: what the defender takes is at most the raw damage, rounded. */
  lemma DefenceNeverAddsDamage(attacker: CharacterStats, defender: CharacterStats, baseDamage: real, roll: real)
    requires 0.0 <= defender.defense
    requires 0.0 <= RawDamage(attacker, baseDamage, roll < attacker.critChance)
    ensures CalculateDamage(attacker, defender, baseDamage, roll).finalDamage as real
      <= RawDamage(attacker, baseDamage, roll < attacker.critChance) + 0.5
  {
    var r := CalculateDamage(attacker, defender, baseDamage, roll);
    var raw := RawDamage(attacker, baseDamage, r.isCritical);
    DamageReductionBounds(defender.defense);
    var keep := 1.0 - r.damageReduction;
    assert 0.0 < keep <= 1.0;
    if 0.0 < raw {
      MulLeftMonotone(1.0, keep, raw);
      assert raw * keep <= raw;
    }
  }

  function Attacker(damage: real, critChance: real, critDamage: real): CharacterStats {
    CharacterStats(100.0, damage, 3.0, 0.0, critChance, critDamage)
  }

  function Defender(defense: real): CharacterStats {
    CharacterStats(100.0, 0.0, 3.0, defense, 0.0, 1.5)
  }

  /** Base 20 plus damage 10 against defence 20 deals 25; a certain crit at x2 deals 50. */
  lemma DamageExamples()
    ensures CalculateDamage(Attacker(10.0, 0.0, 1.5), Defender(20.0), 20.0, 0.5).finalDamage == 25
    ensures CalculateDamage(Attacker(10.0, 1.0, 2.0), Defender(20.0), 20.0, 0.5) == DamageResult(50, true, 1.0 / 6.0)
  {
    assert Round(25.0) == 25 by { HalfFloorOf(25); }
    assert Round(50.0) == 50 by { HalfFloorOf(50); }
  }

  lemma HalfFloorOf(n: int)
    ensures Round(n as real) == n
  {
  }

  /** Health 200 lifts a base heal of 50 to 60; speed 15 is capped at 10. */
  lemma HealingAndSpeedExamples()
    ensures CalculateHealing(CharacterStats(200.0, 10.0, 3.0, 5.0, 0.05, 1.5), 50.0) == 60
    ensures CalculateMoveSpeed(CharacterStats(100.0, 10.0, 15.0, 5.0, 0.05, 1.5)) == 10.0
  {
    assert Round(60.0) == 60 by { HalfFloorOf(60); }
  }
}

=== FILE: stat_system.dfy ===
/** The bonus-point allocation of src/core/StatSystem.ts: base stats plus bonuses capped at maxima. */
module StatSystem {
  import opened Stats
  import StatCalculator

  const BaseStats := CharacterStats(100.0, 10.0, 3.0, 5.0, 0.05, 1.5)
  const ZeroStats := CharacterStats(0.0, 0.0, 0.0, 0.0, 0.0, 0.0)
  const MaxStats := CharacterStats(1000.0, 100.0, 10.0, 50.0, 0.5, 3.0)
  /** How much one point adds to each stat. */
  const Multipliers := CharacterStats(10.0, 2.0, 0.1, 1.0, 0.01, 0.1)

  /** Only the bonuses change; base, max and multipliers are the constant tables above. */
  datatype StatState = StatState(bonus: CharacterStats)

  datatype StatEvent =
    | StatIncrease(stat: Stat, value: real, currentStats: CharacterStats)
    | StatsReset(currentStats: CharacterStats)

  /** Every bonus is non-negative and no stat exceeds its maximum. */
  predicate Valid(s: StatState) {
    forall stat :: 0.0 <= Get(s.bonus, stat) && Get(BaseStats, stat) + Get(s.bonus, stat) <= Get(MaxStats, stat)
  }

  function Init(): (s: StatState)
    ensures Valid(s)
    ensures forall stat :: Get(s.bonus, stat) == 0.0
  {
    StatState(ZeroStats)
  }

  /** Base plus bonus, stat by stat. */
  function GetEffectiveStats(s: StatState): (r: CharacterStats)
    ensures forall stat :: Get(r, stat) == Get(BaseStats, stat) + Get(s.bonus, stat)
  {
    CharacterStats(
      BaseStats.health + s.bonus.health,
      BaseStats.damage + s.bonus.damage,
      BaseStats.speed + s.bonus.speed,
      BaseStats.defense + s.bonus.defense,
      BaseStats.critChance + s.bonus.critChance,
      BaseStats.critDamage + s.bonus.critDamage)
  }

  /** Whether `points` more points in `stat` keep it within its maximum. */
  predicate Fits(s: StatState, stat: Stat, points: real) {
    Get(s.bonus, stat) + points * Get(Multipliers, stat) + Get(BaseStats, stat) <= Get(MaxStats, stat)
  }

  /**
   * Spends `points` on `stat`. It fails, changing nothing and emitting nothing, for a
   * non-positive number of points or when the stat would pass its maximum; otherwise only that
   * stat's bonus grows, by points times the stat's multiplier, and one statIncrease is emitted.
   */
  function AddStatPoint(s: StatState, stat: Stat, points: real): (r: (StatState, bool, seq<StatEvent>))
    ensures r.1 <==> 0.0 < points && Fits(s, stat, points)
    ensures !r.1 ==> r.0 == s && r.2 == []
    ensures r.1 ==> Get(r.0.bonus, stat) == Get(s.bonus, stat) + points * Get(Multipliers, stat)
    ensures forall other :: other != stat ==> Get(r.0.bonus, other) == Get(s.bonus, other)
    ensures r.1 ==> r.2 == [StatIncrease(stat, points, GetEffectiveStats(r.0))]
    ensures Valid(s) ==> Valid(r.0)
  {
    if points <= 0.0 then (s, false, [])
    else
      var newValue := Get(s.bonus, stat) + points * Get(Multipliers, stat);
      if newValue + Get(BaseStats, stat) > Get(MaxStats, stat) then (s, false, [])
      else
        var s' := StatState(Set(s.bonus, stat, newValue));
        PositiveScaled(points, Get(Multipliers, stat));
        (s', true, [StatIncrease(stat, points, GetEffectiveStats(s'))])
  }

  lemma PositiveScaled(points: real, m: real)
    requires 0.0 < points && 0.0 < m
    ensures 0.0 < points * m
  {
  }

  /** Whether one more point fits: exactly when spending one point would succeed. */
  function CanAddStatPoint(s: StatState, stat: Stat): (r: bool)
    ensures r <==> AddStatPoint(s, stat, 1.0).1
  {
    Get(s.bonus, stat) + Get(Multipliers, stat) + Get(BaseStats, stat) <= Get(MaxStats, stat)
  }

  /** The effective value of a stat as a fraction of its maximum; at most 1 in a valid state. */
  function GetStatProgress(s: StatState, stat: Stat): (r: real)
    ensures r * Get(MaxStats, stat) == Get(GetEffectiveStats(s), stat)
    ensures Valid(s) ==> 0.0 < r <= 1.0
  {
    (Get(BaseStats, stat) + Get(s.bonus, stat)) / Get(MaxStats, stat)
  }

  /** Clears every bonus, so the effective stats are the base stats again. */
  function ResetStats(s: StatState): (r: (StatState, seq<StatEvent>))
    ensures Valid(r.0)
    ensures GetEffectiveStats(r.0) == BaseStats
    ensures r.1 == [StatsReset(BaseStats)]
  {
    var s' := StatState(ZeroStats);
    Extensionality(GetEffectiveStats(s'), BaseStats);
    (s', [StatsReset(GetEffectiveStats(s'))])
  }

  /**
   * An attack between two stat holders uses both sides' effective stats; against a valid target
   * the reduction is a fraction in [0, 1).
   */
  function CalculateAttackDamage(s: StatState, target: StatState, baseDamage: real, roll: real): (r: DamageResult)
    requires GetEffectiveStats(target).defense + 100.0 != 0.0
    ensures r.isCritical <==> roll < GetEffectiveStats(s).critChance
    ensures 0 <= r.finalDamage
    ensures r.damageReduction * (GetEffectiveStats(target).defense + 100.0) == GetEffectiveStats(target).defense
    ensures Valid(target) ==> 0.0 <= r.damageReduction < 1.0
    ensures r == StatCalculator.CalculateDamage(GetEffectiveStats(s), GetEffectiveStats(target), baseDamage, roll)
  {
    ValidDefenceNonNegative(target);
    StatCalculator.CalculateDamage(GetEffectiveStats(s), GetEffectiveStats(target), baseDamage, roll)
  }

  /** A valid holder's defence is at least the base defence, so its reduction is a fraction. */
  lemma ValidDefenceNonNegative(s: StatState)
    ensures Valid(s) ==> 0.0 <= GetEffectiveStats(s).defense
    ensures Valid(s) ==> 0.0 <= GetEffectiveStats(s).defense / (GetEffectiveStats(s).defense + 100.0) < 1.0
  {
    if Valid(s) {
      assert 0.0 <= Get(s.bonus, Defense);
      StatCalculator.DamageReductionBounds(GetEffectiveStats(s).defense);
    }
  }

  function CalculateHealingAmount(s: StatState, baseHealing: real): (r: int)
    ensures var exact := baseHealing * (1.0 + GetEffectiveStats(s).health / 1000.0);
      exact - 0.5 < r as real <= exact + 0.5
  {
    StatCalculator.CalculateHealing(GetEffectiveStats(s), baseHealing)
  }

  function GetCurrentMoveSpeed(s: StatState): (r: real)
    ensures Valid(s) ==> r == BaseStats.speed + s.bonus.speed
  {
    var r := StatCalculator.CalculateMoveSpeed(GetEffectiveStats(s));
    assert Valid(s) ==> Get(BaseStats, Speed) + Get(s.bonus, Speed) <= Get(MaxStats, Speed);
    r
  }

  // ---------------------------------------------------------------- properties

  /** The invariant holds from the start and is kept by every operation that changes the state. */
  lemma {:induction false} ValidAfterAny(s: StatState, ops: seq<(Stat, real)>, resets: seq<bool>)
    requires Valid(s)
    requires |ops| == |resets|
    ensures Valid(Replay(s, ops, resets))
    decreases |ops|
  {
    if ops != [] {
      var s' := if resets[0] then ResetStats(s).0 else AddStatPoint(s, ops[0].0, ops[0].1).0;
      ValidAfterAny(s', ops[1..], resets[1..]);
    }
  }

  /** Applies a sequence of operations: a reset where `resets` says so, otherwise AddStatPoint. */
  function Replay(s: StatState, ops: seq<(Stat, real)>, resets: seq<bool>): StatState
    requires |ops| == |resets|
    decreases |ops|
  {
    if ops == [] then s
    else
      var s' := if resets[0] then ResetStats(s).0 else AddStatPoint(s, ops[0].0, ops[0].1).0;
      Replay(s', ops[1..], resets[1..])
  }

  /** One point of health lifts effective health from 100 to 110; five points give progress 0.15. */
  lemma StatExamples()
    ensures GetEffectiveStats(AddStatPoint(Init(), Health, 1.0).0).health == 110.0
    ensures GetStatProgress(AddStatPoint(Init(), Health, 5.0).0, Health) == 0.15
    ensures !AddStatPoint(Init(), Health, 0.0).1
    ensures !AddStatPoint(Init(), Health, 91.0).1
  {
  }
}

=== FILE: stats.dfy ===
/**
 * The stat records shared by the stat calculator, the stat system and the skill effects
 * (CharacterStats of src/core/StatSystem.ts, DamageResult of src/core/StatCalculator.ts).
 * They live in a module of their own because the two source files import each other.
 */
module Stats {
  datatype Stat = Health | Damage | Speed | Defense | CritChance | CritDamage

  datatype CharacterStats = CharacterStats(
    health: real,
    damage: real,
    speed: real,
    defense: real,
    critChance: real,
    critDamage: real)

  /** The outcome of one damage calculation; `finalDamage` is already rounded. */
  datatype DamageResult = DamageResult(finalDamage: int, isCritical: bool, damageReduction: real)

  /** Indexing a record by stat name, as `stats[stat]` does for `keyof CharacterStats`. */
  function Get(s: CharacterStats, stat: Stat): real {
    match stat
    case Health => s.health
    case Damage => s.damage
    case Speed => s.speed
    case Defense => s.defense
    case CritChance => s.critChance
    case CritDamage => s.critDamage
  }

  /** The record with one stat replaced. */
  function Set(s: CharacterStats, stat: Stat, v: real): (r: CharacterStats)
    ensures Get(r, stat) == v
    ensures forall other :: other != stat ==> Get(r, other) == Get(s, other)
  {
    match stat
    case Health => s.(health := v)
    case Damage => s.(damage := v)
    case Speed => s.(speed := v)
    case Defense => s.(defense := v)
    case CritChance => s.(critChance := v)
    case CritDamage => s.(critDamage := v)
  }

  /** Two records agreeing on every stat are the same record. */
  lemma Extensionality(a: CharacterStats, b: CharacterStats)
    requires forall stat :: Get(a, stat) == Get(b, stat)
    ensures a == b
  {
    assert Get(a, Health) == Get(b, Health);
    assert Get(a, Damage) == Get(b, Damage);
    assert Get(a, Speed) == Get(b, Speed);
    assert Get(a, Defense) == Get(b, Defense);
    assert Get(a, CritChance) == Get(b, CritChance);
    assert Get(a, CritDamage) == Get(b, CritDamage);
  }
}

=== FILE: vector2d.dfy ===
/** The immutable 2-D vector of src/utils/Vector2D.ts. */
module Vector2D {
  import opened Numeric

  datatype Vec = Vec(x: real, y: real)

  const Zero := Vec(0.0, 0.0)

  function Add(a: Vec, b: Vec): (r: Vec)
    ensures r.x - b.x == a.x && r.y - b.y == a.y
  {
    Vec(a.x + b.x, a.y + b.y)
  }

  function Subtract(a: Vec, b: Vec): (r: Vec)
    ensures r.x + b.x == a.x && r.y + b.y == a.y
  {
    Vec(a.x - b.x, a.y - b.y)
  }

  function Multiply(a: Vec, s: real): (r: Vec)
    ensures s == 1.0 ==> r == a
    ensures s == 0.0 ==> r == Zero
  {
    Vec(a.x * s, a.y * s)
  }

  lemma SubtractZero(a: Vec, b: Vec)
    ensures Subtract(a, b) == Zero <==> a == b
  {
  }

  lemma MultiplyZero(a: Vec, s: real)
    ensures a == Zero ==> Multiply(a, s) == Zero
  {
  }

  function Dot(a: Vec, b: Vec): (r: real)
    ensures a == Zero || b == Zero ==> r == 0.0
  {
    a.x * b.x + a.y * b.y
  }

  /** `r` points the way `a` does: parallel to it, and not against it. */
  predicate SameDirection(r: Vec, a: Vec) {
    r.x * a.y == r.y * a.x && 0.0 < Dot(r, a)
  }

  /** The squared length, x * x + y * y; never negative. */
  function LengthSquared(a: Vec): (r: real)
    ensures 0.0 <= r
    ensures a == Zero ==> r == 0.0
  {
    SquareNonNegative(a.x);
    SquareNonNegative(a.y);
    Dot(a, a)
  }

  lemma SquareNonNegative(t: real)
    ensures 0.0 <= t * t
  {
    if t < 0.0 {
      var u := -t;
      assert t * t == u * u;
    }
  }

  /** Only the zero vector has squared length 0. */
  lemma LengthSquaredZero(a: Vec)
    ensures LengthSquared(a) == 0.0 <==> a == Zero
  {
    SquareNonNegative(a.x);
    SquareNonNegative(a.y);
    SquareZero(a.x);
    SquareZero(a.y);
    assert LengthSquared(a) == a.x * a.x + a.y * a.y;
  }

  lemma SquareZero(t: real)
    ensures t * t == 0.0 ==> t == 0.0
  {
    if t * t == 0.0 {
      ZeroProduct(t, t);
    }
  }

  function Length(a: Vec, sqrt: real -> real): (r: real)
    requires IsSqrt(sqrt)
    ensures 0.0 <= r
    ensures r * r == LengthSquared(a)
  {
    SqrtRoot(sqrt, LengthSquared(a));
    sqrt(LengthSquared(a))
  }

  function Normalize(a: Vec, sqrt: real -> real): (r: Vec)
    requires IsSqrt(sqrt)
    ensures LengthSquared(a) == 0.0 ==> r == Zero
    ensures LengthSquared(a) != 0.0 ==> LengthSquared(r) == 1.0
    ensures r == Zero <==> a == Zero
    ensures a != Zero ==> SameDirection(r, a)
  {
    var len := Length(a, sqrt);
    LengthSquaredZero(a);
    if len == 0.0 then Zero
    else
      var r := Multiply(a, 1.0 / len);
      UnitAfterDivision(a, len);
      LengthSquaredZero(r);
      PositiveInverse(len);
      ScaledSameDirection(a, 1.0 / len);
      r
  }

  lemma PositiveInverse(t: real)
    requires 0.0 < t
    ensures 0.0 < 1.0 / t
  {
  }

  /** A non-zero vector scaled by a positive factor keeps its direction. */
  lemma ScaledSameDirection(a: Vec, k: real)
    requires a != Zero && 0.0 < k
    ensures SameDirection(Multiply(a, k), a)
  {
    var r := Multiply(a, k);
    assert r.x * a.y == k * (a.x * a.y) && r.y * a.x == k * (a.x * a.y);
    LengthSquaredZero(a);
    var l := LengthSquared(a);
    assert Dot(r, a) == k * l;
    PositiveProduct(k, l);
  }

  lemma PositiveProduct(a: real, b: real)
    requires 0.0 < a && 0.0 < b
    ensures 0.0 < a * b
  {
  }

  /** Scaling twice is scaling by the product. */
  lemma MultiplyTwice(a: Vec, j: real, k: real)
    ensures Multiply(Multiply(a, j), k) == Multiply(a, j * k)
  {
    assert (a.x * j) * k == a.x * (j * k) && (a.y * j) * k == a.y * (j * k);
  }

  /** `normalize` of a non-zero vector is that vector scaled by a positive factor. */
  lemma NormalizeScales(a: Vec, sqrt: real -> real) returns (k: real)
    requires IsSqrt(sqrt) && a != Zero
    ensures 0.0 < k && Normalize(a, sqrt) == Multiply(a, k)
  {
    var len := Length(a, sqrt);
    LengthSquaredZero(a);
    assert len != 0.0;
    PositiveInverse(len);
    k := 1.0 / len;
  }

  lemma UnitAfterDivision(a: Vec, len: real)
    requires len != 0.0
    requires len * len == LengthSquared(a)
    ensures LengthSquared(Multiply(a, 1.0 / len)) == 1.0
  {
    var k := 1.0 / len;
    calc {
      LengthSquared(Multiply(a, k));
      (a.x * k) * (a.x * k) + (a.y * k) * (a.y * k);
      (a.x * a.x + a.y * a.y) * (k * k);
      (len * len) * (k * k);
      (len * k) * (len * k);
      1.0;
    }
  }

  /** Scaling a vector by k scales its squared length by k * k. */
  lemma ScaleLengthSquared(a: Vec, k: real)
    ensures LengthSquared(Multiply(a, k)) == k * k * LengthSquared(a)
  {
    calc {
      LengthSquared(Multiply(a, k));
      (a.x * k) * (a.x * k) + (a.y * k) * (a.y * k);
      (a.x * a.x + a.y * a.y) * (k * k);
    }
  }

  /** Cell index of a world position: each coordinate floored over the grid size. */
  function ToGrid(a: Vec, gridSize: real): (r: Vec)
    requires gridSize != 0.0
    ensures r.x == (a.x / gridSize).Floor as real && r.y == (a.y / gridSize).Floor as real
  {
    Vec((a.x / gridSize).Floor as real, (a.y / gridSize).Floor as real)
  }

  /** The centre of a cell: half a cell past its lower corner on each axis. */
  function FromGrid(gridX: real, gridY: real, gridSize: real): (r: Vec)
    ensures r == Vec((gridX + 0.5) * gridSize, (gridY + 0.5) * gridSize)
    ensures 0.0 < gridSize ==>
      && gridX * gridSize < r.x < (gridX + 1.0) * gridSize
      && gridY * gridSize < r.y < (gridY + 1.0) * gridSize
  {
    Vec(gridX * gridSize + gridSize / 2.0, gridY * gridSize + gridSize / 2.0)
  }

  function Lerp(a: Vec, target: Vec, t: real): (r: Vec)
    ensures t <= 0.0 ==> r == a
    ensures t >= 1.0 ==> r == target
    ensures t == 0.5 ==> r == Vec((a.x + target.x) / 2.0, (a.y + target.y) / 2.0)
  {
    var ct := Clamp(0.0, 1.0, t);
    Vec(a.x + (target.x - a.x) * ct, a.y + (target.y - a.y) * ct)
  }

  function Equals(a: Vec, b: Vec): (r: bool)
    ensures r <==> a == b
  {
    a.x == b.x && a.y == b.y
  }

  function IsZero(a: Vec): (r: bool)
    ensures r <==> a == Zero
  {
    a.x == 0.0 && a.y == 0.0
  }

  function Distance(a: Vec, b: Vec, sqrt: real -> real): (r: real)
    requires IsSqrt(sqrt)
    ensures 0.0 <= r
    ensures r * r == LengthSquared(Subtract(a, b))
  {
    Length(Subtract(a, b), sqrt)
  }

  // ---------------------------------------------------------------- properties

  lemma AddSubtractInverse(a: Vec, b: Vec)
    ensures Subtract(Add(a, b), b) == a
  {
  }

  /** The dot product is symmetric, and a vector dotted with itself is its squared length. */
  lemma DotSymmetric(a: Vec, b: Vec)
    ensures Dot(a, b) == Dot(b, a)
    ensures Dot(a, a) == LengthSquared(a)
  {
  }

  lemma DotExample()
    ensures Dot(Vec(1.0, 2.0), Vec(3.0, 4.0)) == 11.0
    ensures Multiply(Vec(2.0, 3.0), 2.0) == Vec(4.0, 6.0)
  {
  }

  /** Grid cells are floored, negatives included. */
  lemma ToGridExamples()
    ensures ToGrid(Vec(-32.0, -48.0), 16.0) == Vec(-2.0, -3.0)
    ensures ToGrid(Vec(32.0, 48.0), 16.0) == Vec(2.0, 3.0)
    ensures FromGrid(2.0, 3.0, 16.0) == Vec(40.0, 56.0)
  {
  }

  /** The centre of a cell lies in that cell, for any non-zero grid size. */
  lemma ToGridFromGrid(gx: int, gy: int, gridSize: real)
    requires gridSize != 0.0
    ensures ToGrid(FromGrid(gx as real, gy as real, gridSize), gridSize) == Vec(gx as real, gy as real)
  {
    var c := FromGrid(gx as real, gy as real, gridSize);
    DivCancel(gx as real + 0.5, gridSize, c.x);
    DivCancel(gy as real + 0.5, gridSize, c.y);
    HalfFloor(gx);
    HalfFloor(gy);
  }

  lemma DivCancel(a: real, s: real, p: real)
    requires s != 0.0
    requires p == a * s
    ensures p / s == a
  {
  }

  lemma HalfFloor(n: int)
    ensures (n as real + 0.5).Floor == n
  {
  }

  /** The distance between two points does not depend on their order. */
  lemma DistanceSymmetric(a: Vec, b: Vec, sqrt: real -> real)
    requires IsSqrt(sqrt)
    ensures Distance(a, b, sqrt) == Distance(b, a, sqrt)
  {
    assert LengthSquared(Subtract(a, b)) == LengthSquared(Subtract(b, a));
  }
}

=== FILE: wave_system.dfy ===
/**
 * The wave director of src/core/WaveSystem.ts: the wave table, the lookup of the current wave by
 * elapsed time, the delta-time spawn and wave clocks, the explicit state machine, the two event
 * channels, and the composition of a spawned enemy (weighted type, elite roll, off-screen point).
 */
module WaveSystem {
  import opened Wrappers
  import opened Numeric
  import opened Vector2D
  import opened Decimal
  import WeightedDraw
  import EnemyConfig

  datatype Multipliers = Multipliers(health: real, damage: real, speed: real)

  datatype EliteConfig = EliteConfig(chance: real, statMultiplier: Multipliers)

  /** Durations and spawn intervals are in milliseconds. */
  datatype WaveConfig = WaveConfig(
    waveNumber: int,
    duration: real,
    spawnInterval: real,
    enemyCount: int,
    enemyTypes: seq<WeightedDraw.Weighted>,
    eliteConfig: Option<EliteConfig>,
    stats: Multipliers)

  /** `WAVE_CONFIGS`: a minute of basic enemies, then a minute and a half with fast ones and elites. */
  const WaveConfigs: seq<WaveConfig> := [
    WaveConfig(1, 60000.0, 2000.0, 20, [WeightedDraw.Weighted("basic", 1.0)], None, Multipliers(1.0, 1.0, 1.0)),
    WaveConfig(2, 90000.0, 1500.0, 40, [WeightedDraw.Weighted("basic", 0.7), WeightedDraw.Weighted("fast", 0.3)],
      Some(EliteConfig(0.1, Multipliers(2.5, 1.5, 1.2))), Multipliers(1.2, 1.1, 1.1))]

  datatype WaveState = Preparing | Spawning | Clearing | Completed

  datatype WaveEventType = WaveStart | WaveEnd | EliteSpawn

  /**
   * The source has two channels. `Notified` events go through `emitEvent` to the listeners of
   * `addEventListener`; `Emitted` and `EliteEmitted` go through the inherited `emit` to the
   * listeners of `on`.
   */
  datatype WaveEvent =
    | Notified(kind: WaveEventType, wave: WaveConfig, time: real)
    | Emitted(kind: WaveEventType, waveNumber: int, duration: real)
    | EliteEmitted(wave: WaveConfig, time: real)
  {
    predicate OnListenerChannel() { Notified? }
  }

  /** Listener functions are opaque; they are named by ids here. */
  type ListenerId = nat

  /** `waveDuration`: only ever reported in the `emit` payloads, in seconds. */
  const WaveDurationSeconds := 30.0

  const Margin := 50.0

  /**
   * `waveTime` and `lastSpawnTime` are seconds accumulated by `update`; `waveStartTime` is a
   * clock reading in milliseconds. `eventListeners` is the `addEventListener` registry and
   * `emitterListeners` the one inherited from the event emitter.
   */
  datatype Wave = Wave(
    waveStartTime: real,
    currentWaveIndex: nat,
    waveState: WaveState,
    waveNumber: int,
    waveTime: real,
    lastSpawnTime: real,
    eventListeners: map<WaveEventType, set<ListenerId>>,
    emitterListeners: map<WaveEventType, set<ListenerId>>)

  predicate Valid(w: Wave) {
    w.currentWaveIndex < |WaveConfigs|
  }

  // ---------------------------------------------------------------- wave lookup

  /** The sum of the first `k` wave durations. */
  function Cumulative(k: nat): real
    requires k <= |WaveConfigs|
  {
    if k == 0 then 0.0 else Cumulative(k - 1) + WaveConfigs[k - 1].duration
  }

  /** The elapsed time at which wave `j`'s window closes. */
  function WindowEnd(j: nat): real
    requires j < |WaveConfigs|
  {
    Cumulative(j + 1)
  }

  /** The `getCurrentWave` loop from wave `i` on, with `accumulated` the durations added so far. */
  function Lookup(i: nat, accumulated: real, total: real): (r: Option<nat>)
    requires i <= |WaveConfigs|
    ensures r.Some? ==> i <= r.value < |WaveConfigs|
    decreases |WaveConfigs| - i
  {
    if i == |WaveConfigs| then None
    else
      var accumulated := accumulated + WaveConfigs[i].duration;
      if total < accumulated then Some(i) else Lookup(i + 1, accumulated, total)
  }

  lemma {:induction false} LookupSpec(i: nat, total: real)
    requires i <= |WaveConfigs|
    ensures var r := Lookup(i, Cumulative(i), total);
      && (r.None? <==> forall j :: i <= j < |WaveConfigs| ==> total >= WindowEnd(j))
      && (r.Some? ==> total < WindowEnd(r.value) && forall j :: i <= j < r.value ==> total >= WindowEnd(j))
    decreases |WaveConfigs| - i
  {
    if i < |WaveConfigs| {
      assert Cumulative(i) + WaveConfigs[i].duration == WindowEnd(i);
      LookupSpec(i + 1, total);
    }
  }

  /**
   * `getCurrentWave(time)`: the first wave whose window contains the time elapsed since the wave
   * start, which also becomes the current index; past the last window, the last wave, with the
   * index left as it was.
   */
  function GetCurrentWave(w: Wave, time: real): (r: (Wave, WaveConfig))
    ensures var total := time - w.waveStartTime;
      var past := forall j :: 0 <= j < |WaveConfigs| ==> total >= WindowEnd(j);
      && (past ==> r == (w, WaveConfigs[|WaveConfigs| - 1]))
      && (!past ==>
            && r.0 == w.(currentWaveIndex := r.0.currentWaveIndex)
            && r.0.currentWaveIndex < |WaveConfigs|
            && r.1 == WaveConfigs[r.0.currentWaveIndex]
            && total < WindowEnd(r.0.currentWaveIndex)
            && forall j :: 0 <= j < r.0.currentWaveIndex ==> total >= WindowEnd(j))
    ensures Valid(w) ==> Valid(r.0)
  {
    var total := time - w.waveStartTime;
    LookupSpec(0, total);
    match Lookup(0, 0.0, total)
    case Some(i) => (w.(currentWaveIndex := i), WaveConfigs[i])
    case None => (w, WaveConfigs[|WaveConfigs| - 1])
  }

  /**
   * `getWaveProgress(time)`: the elapsed time over the current wave's duration, capped at 1.
   */
  function GetWaveProgress(w: Wave, time: real): (r: real)
    requires Valid(w)
    ensures r <= 1.0
    ensures var elapsed := time - w.waveStartTime;
      var duration := WaveConfigs[w.currentWaveIndex].duration;
      && (elapsed <= duration ==> r * duration == elapsed)
      && (elapsed >= duration ==> r == 1.0)
  {
    var current := WaveConfigs[w.currentWaveIndex];
    Min(1.0, (time - w.waveStartTime) / current.duration)
  }

  /** `isEliteSpawn` with the draw `r`: a wave without elites never rolls one. */
  function IsEliteSpawn(wave: WaveConfig, r: real): (elite: bool)
    ensures wave.eliteConfig.None? ==> !elite
    ensures wave.eliteConfig.Some? ==> (elite <==> r < wave.eliteConfig.value.chance)
  {
    match wave.eliteConfig
    case None => false
    case Some(e) => r < e.chance
  }

  // ---------------------------------------------------------------- listeners and states

  function Listeners(registry: map<WaveEventType, set<ListenerId>>, kind: WaveEventType): set<ListenerId> {
    if kind in registry then registry[kind] else {}
  }

  /** `addEventListener`: the listener joins the set of its event type; the others are untouched. */
  function AddEventListener(w: Wave, kind: WaveEventType, listener: ListenerId): (r: Wave)
    ensures Listeners(r.eventListeners, kind) == Listeners(w.eventListeners, kind) + {listener}
    ensures forall k :: k != kind ==> Listeners(r.eventListeners, k) == Listeners(w.eventListeners, k)
    ensures r == w.(eventListeners := r.eventListeners)
  {
    w.(eventListeners := w.eventListeners[kind := Listeners(w.eventListeners, kind) + {listener}])
  }

  /** `removeEventListener`: the listener leaves the set of its event type, if that set exists. */
  function RemoveEventListener(w: Wave, kind: WaveEventType, listener: ListenerId): (r: Wave)
    ensures Listeners(r.eventListeners, kind) == Listeners(w.eventListeners, kind) - {listener}
    ensures forall k :: k != kind ==> Listeners(r.eventListeners, k) == Listeners(w.eventListeners, k)
    ensures r == w.(eventListeners := r.eventListeners)
  {
    if kind in w.eventListeners then w.(eventListeners := w.eventListeners[kind := w.eventListeners[kind] - {listener}])
    else w
  }

  /** The event emitter's `on`, the registry the `emit` channel reaches. */
  function On(w: Wave, kind: WaveEventType, listener: ListenerId): (r: Wave)
    ensures Listeners(r.emitterListeners, kind) == Listeners(w.emitterListeners, kind) + {listener}
    ensures forall k :: k != kind ==> Listeners(r.emitterListeners, k) == Listeners(w.emitterListeners, k)
    ensures r == w.(emitterListeners := r.emitterListeners)
  {
    w.(emitterListeners := w.emitterListeners[kind := Listeners(w.emitterListeners, kind) + {listener}])
  }

  /** Who hears an event: each channel reaches only its own registry. */
  function Recipients(w: Wave, e: WaveEvent): (r: set<ListenerId>)
    ensures e.OnListenerChannel() ==> r == Listeners(w.eventListeners, e.kind)
    ensures e.Emitted? ==> r == Listeners(w.emitterListeners, e.kind)
    ensures e.EliteEmitted? ==> r == Listeners(w.emitterListeners, EliteSpawn)
  {
    match e
    case Notified(kind, _, _) => Listeners(w.eventListeners, kind)
    case Emitted(kind, _, _) => Listeners(w.emitterListeners, kind)
    case EliteEmitted(_, _) => Listeners(w.emitterListeners, EliteSpawn)
  }

  /**
   * `startWave`, with `now` the clock: spawning begins, the wave start moves to now and the
   * lookup at zero elapsed time selects the first wave, announced to `addEventListener` listeners.
   */
  function StartWave(w: Wave, now: real): (r: (Wave, seq<WaveEvent>))
    ensures r.0 == w.(waveState := Spawning, waveStartTime := now, currentWaveIndex := 0)
    ensures r.1 == [Notified(WaveStart, WaveConfigs[0], now)]
  {
    var started := w.(waveState := Spawning, waveStartTime := now);
    var looked := GetCurrentWave(started, now);
    assert WindowEnd(0) == 60000.0;
    (looked.0, [Notified(WaveStart, looked.1, now)])
  }

  /** `completeWave`: clearing begins and the wave found for `now` is announced as ended. */
  function CompleteWave(w: Wave, now: real): (r: (Wave, seq<WaveEvent>))
    requires Valid(w)
    ensures Valid(r.0) && r.0.waveState == Clearing
    ensures var looked := GetCurrentWave(w, now);
      r.0 == looked.0.(waveState := Clearing) && r.1 == [Notified(WaveEnd, looked.1, now)]
  {
    var looked := GetCurrentWave(w.(waveState := Clearing), now);
    (looked.0, [Notified(WaveEnd, looked.1, now)])
  }

  function ClearWave(w: Wave): (r: Wave)
    ensures r == w.(waveState := Completed)
  {
    w.(waveState := Completed)
  }

  /** `resetWave`: back to preparing the first wave, with the wave start at 0. */
  function ResetWave(w: Wave): (r: Wave)
    ensures Valid(r)
    ensures r == w.(waveState := Preparing, currentWaveIndex := 0, waveStartTime := 0.0)
  {
    w.(waveState := Preparing, currentWaveIndex := 0, waveStartTime := 0.0)
  }

  /**
   * The constructor at clock `now`: fresh counters and registries, then `startWave`, whose
   * announcement reaches nobody since no listener can be registered yet.
   */
  function Init(now: real): (r: (Wave, seq<WaveEvent>))
    ensures Valid(r.0)
    ensures r.0 == Wave(now, 0, Spawning, 0, 0.0, 0.0, map[], map[])
    ensures r.1 == [Notified(WaveStart, WaveConfigs[0], now)]
    ensures forall e :: e in r.1 ==> Recipients(r.0, e) == {}
  {
    StartWave(Wave(now, 0, Preparing, 0, 0.0, 0.0, map[], map[]), now)
  }

  // ---------------------------------------------------------------- spawning

  /** The visible area from the render layer. */
  datatype Bounds = Bounds(left: real, right: real, top: real, bottom: real)

  predicate Draw(r: real) {
    0.0 <= r < 1.0
  }

  /** The `Math.random()` draws one spawn consumes, in the order the source makes them. */
  datatype Draws = Draws(side: real, offset: real, kind: real, elite: real)

  /** Margin units beyond one edge of the bounds, within that edge's span. */
  predicate OnRing(b: Bounds, p: Vec) {
    || (p.y == b.top - Margin && b.left <= p.x <= b.right)
    || (p.x == b.right + Margin && b.top <= p.y <= b.bottom)
    || (p.y == b.bottom + Margin && b.left <= p.x <= b.right)
    || (p.x == b.left - Margin && b.top <= p.y <= b.bottom)
  }

  /** The point `r` of the way from `lo` to `hi`, as `Math.random() * (hi - lo) + lo`. */
  function Along(r: real, lo: real, hi: real): (v: real)
    ensures Draw(r) && lo <= hi ==> lo <= v <= hi
  {
    var width := hi - lo;
    NonNegativeProduct(r, width);
    NonNegativeProduct(1.0 - r, width);
    r * width + lo
  }

  /** Holds for any `a` and `b`, so the calls above need no guard. */
  lemma NonNegativeProduct(a: real, b: real)
    ensures 0.0 <= a && 0.0 <= b ==> 0.0 <= a * b
  {
  }

  /** `Math.floor(Math.random() * 4)`: 0 top, 1 right, 2 bottom, anything else left. */
  function Edge(side: real): (s: int)
    ensures Draw(side) ==> 0 <= s < 4
  {
    (side * 4.0).Floor
  }

  /**
   * `getRandomSpawnPosition`: the edge is chosen by `side` (top, right, bottom, then left for
   * everything else) and the point along it by `offset`.
   */
  function GetRandomSpawnPosition(b: Bounds, side: real, offset: real): (p: Vec)
    ensures Draw(offset) && b.left <= b.right && b.top <= b.bottom ==> OnRing(b, p)
    ensures Edge(side) == 0 ==> p.y == b.top - Margin
    ensures Edge(side) == 1 ==> p.x == b.right + Margin
    ensures Edge(side) == 2 ==> p.y == b.bottom + Margin
    ensures Edge(side) !in {0, 1, 2} ==> p.x == b.left - Margin
  {
    var x := Along(offset, b.left, b.right);
    var y := Along(offset, b.top, b.bottom);
    var s := Edge(side);
    if s == 0 then Vec(x, b.top - Margin)
    else if s == 1 then Vec(b.right + Margin, y)
    else if s == 2 then Vec(x, b.bottom + Margin)
    else Vec(b.left - Margin, y)
  }

  /** `selectEnemyType`: the weighted choice, with `'basic'` when no entry is reached. */
  function SelectEnemyType(types: seq<WeightedDraw.Weighted>, r: real): (t: string)
    ensures t == "basic" || exists i :: 0 <= i < |types| && types[i].kind == t
    ensures WeightedDraw.SelectIndex(types, r).None? ==> t == "basic"
    ensures WeightedDraw.SelectIndex(types, r).Some? ==> t == types[WeightedDraw.SelectIndex(types, r).value].kind
  {
    var i := WeightedDraw.SelectIndex(types, r);
    if i.Some? then types[i.value].kind else "basic"
  }

  /**
   * With non-negative weights, type `i` is drawn exactly when the scaled draw falls in its band
   * of running weight totals, so each type comes up in proportion to its weight.
   */
  lemma SelectsByBand(types: seq<WeightedDraw.Weighted>, r: real, i: nat)
    requires WeightedDraw.NonNegative(types) && i < |types|
    requires r * WeightedDraw.Total(types) <= WeightedDraw.Prefix(types, i + 1)
    requires i == 0 || WeightedDraw.Prefix(types, i) < r * WeightedDraw.Total(types)
    ensures SelectEnemyType(types, r) == types[i].kind
  {
    WeightedDraw.SelectedBand(types, r, i);
  }

  datatype SpawnStats = SpawnStats(health: real, maxHealth: real, damage: real, attackSpeed: real, range: real, moveSpeed: real)

  /** What `spawnEnemy` registers with the combat registry, and whether the spawn was elite. */
  datatype Spawned = Spawned(id: string, stats: SpawnStats, position: Vec, elite: bool)

  /** JavaScript's `x || 1` on a number. */
  function OrOne(x: real): real {
    if x != 0.0 then x else 1.0
  }

  /** The elite chance as `eliteConfig?.chance || 0` reads it. */
  function EliteChance(wave: WaveConfig): real {
    if wave.eliteConfig.Some? then wave.eliteConfig.value.chance else 0.0
  }

  /** The three stats a multiplier scales. */
  datatype Scaled = Health | Damage | Speed

  function Factor(m: Multipliers, stat: Scaled): real {
    match stat
    case Health => m.health
    case Damage => m.damage
    case Speed => m.speed
  }

  /** The elite multiplier for one stat, 1 for a regular spawn. */
  function EliteFactor(wave: WaveConfig, elite: bool, stat: Scaled): real {
    if elite && wave.eliteConfig.Some? then OrOne(Factor(wave.eliteConfig.value.statMultiplier, stat)) else 1.0
  }

    /** The configured stats of an enemy type under a wave's multipliers and, for an elite, its elite multipliers. */
  function ScaleStats(base: EnemyConfig.EnemyStats, wave: WaveConfig, elite: bool): (s: SpawnStats)
    ensures s.health == base.baseHealth * wave.stats.health * EliteFactor(wave, elite, Health)
    ensures s.maxHealth == s.health
    ensures s.damage == base.baseDamage * wave.stats.damage * EliteFactor(wave, elite, Damage)
    ensures s.moveSpeed == base.baseMoveSpeed * wave.stats.speed * EliteFactor(wave, elite, Speed)
    ensures s.attackSpeed == base.baseAttackSpeed && s.range == base.baseRange
  {
    var health := base.baseHealth * wave.stats.health * EliteFactor(wave, elite, Health);
    SpawnStats(
      health, health,
      base.baseDamage * wave.stats.damage * EliteFactor(wave, elite, Damage),
      base.baseAttackSpeed,
      base.baseRange,
      base.baseMoveSpeed * wave.stats.speed * EliteFactor(wave, elite, Speed))
  }

/**
   * `spawnEnemy` at clock `now`: id `enemy_<now>`, the type drawn from the wave's list, stats
   * `base × wave multiplier × elite multiplier` for health, damage and speed, attack speed and
   * range at base, and an `eliteSpawn` on the `emit` channel for an elite. A drawn name missing
   * from the enemy table makes the source throw; that is `None` here.
   */
  function SpawnEnemy(wave: WaveConfig, now: nat, d: Draws, b: Bounds): (r: Option<(Spawned, seq<WaveEvent>)>)
    ensures var name := SelectEnemyType(wave.enemyTypes, d.kind);
      r.Some? <==> EnemyConfig.ParseType(name).Some?
    ensures r.Some? ==>
      var base := EnemyConfig.Config(EnemyConfig.ParseType(SelectEnemyType(wave.enemyTypes, d.kind)).value);
      var s := r.value.0;
      && s.id == "enemy_" + NatToString(now)
      && s.position == GetRandomSpawnPosition(b, d.side, d.offset)
      && (s.elite <==> d.elite < EliteChance(wave))
      && s.stats == ScaleStats(base, wave, s.elite)
      && r.value.1 == (if s.elite then [EliteEmitted(wave, now as real)] else [])
  {
    var position := GetRandomSpawnPosition(b, d.side, d.offset);
    var name := SelectEnemyType(wave.enemyTypes, d.kind);
    match EnemyConfig.ParseType(name)
    case None => None
    case Some(t) =>
      var base := EnemyConfig.Config(t);
      var elite := d.elite < EliteChance(wave);
      Some((Spawned("enemy_" + NatToString(now), ScaleStats(base, wave, elite), position, elite),
            if elite then [EliteEmitted(wave, now as real)] else []))
  }

  // ---------------------------------------------------------------- update

  /** Every type a shipped wave can draw, and the fallback, is in the enemy table. */
  lemma ShippedTypesKnown(i: nat, r: real)
    requires i < |WaveConfigs|
    ensures EnemyConfig.ParseType(SelectEnemyType(WaveConfigs[i].enemyTypes, r)).Some?
  {
    var t := SelectEnemyType(WaveConfigs[i].enemyTypes, r);
    assert t == "basic" || t == "fast";
  }

  /**
   * `update(deltaTime)` with the frame's clock reading, draws and bounds as parameters: both
   * clocks advance by `deltaTime` seconds; at most one enemy spawns, when the spawn clock reaches
   * the current wave's interval, and that clock then restarts; when the wave clock reaches the
   * wave's duration, `waveEnd` and `waveStart` go out on the `emit` channel, the wave number
   * advances and the wave clock restarts. The current wave index is never changed here.
   */
  function Update(w: Wave, deltaTime: real, now: nat, d: Draws, b: Bounds): (r: (Wave, Option<Spawned>, seq<WaveEvent>))
    requires Valid(w)
    ensures Valid(r.0)
    ensures var current := WaveConfigs[w.currentWaveIndex];
      var spawnDue := w.lastSpawnTime + deltaTime >= current.spawnInterval / 1000.0;
      var ended := w.waveTime + deltaTime >= current.duration / 1000.0;
      var spawnEvents := if spawnDue then SpawnEnemy(current, now, d, b).value.1 else [];
      var endEvents := if ended then [Emitted(WaveEnd, w.waveNumber, WaveDurationSeconds), Emitted(WaveStart, w.waveNumber + 1, WaveDurationSeconds)] else [];
      && r.0.currentWaveIndex == w.currentWaveIndex
      && r.0.waveStartTime == w.waveStartTime && r.0.waveState == w.waveState
      && r.0.eventListeners == w.eventListeners && r.0.emitterListeners == w.emitterListeners
      && (r.1.Some? <==> spawnDue)
      && (spawnDue ==> r.1 == Some(SpawnEnemy(current, now, d, b).value.0) && r.0.lastSpawnTime == 0.0)
      && (!spawnDue ==> r.0.lastSpawnTime == w.lastSpawnTime + deltaTime)
      && (ended ==> r.0.waveNumber == w.waveNumber + 1 && r.0.waveTime == 0.0)
      && (!ended ==> r.0.waveNumber == w.waveNumber && r.0.waveTime == w.waveTime + deltaTime)
      && r.2 == spawnEvents + endEvents
    ensures forall e :: e in r.2 ==> !e.OnListenerChannel()
  {
    var w1 := w.(waveTime := w.waveTime + deltaTime, lastSpawnTime := w.lastSpawnTime + deltaTime);
    var current := WaveConfigs[w.currentWaveIndex];
    ShippedTypesKnown(w.currentWaveIndex, d.kind);
    var spawn := if w1.lastSpawnTime >= current.spawnInterval / 1000.0 then SpawnEnemy(current, now, d, b) else None;
    var w2 := if spawn.Some? then w1.(lastSpawnTime := 0.0) else w1;
    var spawnEvents := if spawn.Some? then spawn.value.1 else [];
    if w2.waveTime >= current.duration / 1000.0 then
      var ending := Emitted(WaveEnd, w2.waveNumber, WaveDurationSeconds);
      var w3 := w2.(waveNumber := w2.waveNumber + 1, waveTime := 0.0);
      (w3, if spawn.Some? then Some(spawn.value.0) else None,
       spawnEvents + [ending, Emitted(WaveStart, w3.waveNumber, WaveDurationSeconds)])
    else
      (w2, if spawn.Some? then Some(spawn.value.0) else None, spawnEvents)
  }

  /** One frame's inputs. */
  datatype Tick = Tick(deltaTime: real, now: nat, draws: Draws, bounds: Bounds)

  /** Successive updates; the result counts the spawns. */
  function Run(w: Wave, ticks: seq<Tick>): (r: (Wave, nat))
    requires Valid(w)
    ensures Valid(r.0)
    decreases |ticks|
  {
    if |ticks| == 0 then (w, 0)
    else
      var step := Update(w, ticks[0].deltaTime, ticks[0].now, ticks[0].draws, ticks[0].bounds);
      var rest := Run(step.0, ticks[1..]);
      (rest.0, rest.1 + (if step.1.Some? then 1 else 0))
  }

  function TotalTime(ticks: seq<Tick>): real {
    if |ticks| == 0 then 0.0 else ticks[0].deltaTime + TotalTime(ticks[1..])
  }

  predicate Forward(ticks: seq<Tick>) {
    forall i :: 0 <= i < |ticks| ==> ticks[i].deltaTime > 0.0
  }

  // ---------------------------------------------------------------- properties

  lemma {:induction false} TotalTimePositive(ticks: seq<Tick>)
    requires Forward(ticks) && |ticks| > 0
    ensures TotalTime(ticks) > 0.0
  {
    if |ticks| > 1 {
      TotalTimePositive(ticks[1..]);
    }
  }

  /**
   * In the first wave, frames whose times add up to the spawn clock's remaining two seconds
   * spawn exactly one enemy, on the last frame, however the time is split.
   */
  lemma {:induction false} OneSpawnPerInterval(w: Wave, ticks: seq<Tick>)
    requires Valid(w) && w.currentWaveIndex == 0 && 0.0 <= w.lastSpawnTime
    requires Forward(ticks) && |ticks| > 0
    requires w.lastSpawnTime + TotalTime(ticks) == 2.0
    ensures Run(w, ticks).1 == 1
    ensures Run(w, ticks).0.lastSpawnTime == 0.0
    decreases |ticks|
  {
    var t := ticks[0];
    var step := Update(w, t.deltaTime, t.now, t.draws, t.bounds);
    if |ticks| == 1 {
      assert TotalTime(ticks) == t.deltaTime;
    } else {
      TotalTimePositive(ticks[1..]);
      assert forall i :: 0 <= i < |ticks[1..]| ==> ticks[1..][i] == ticks[i + 1];
      OneSpawnPerInterval(step.0, ticks[1..]);
    }
  }

  /**
   * Ending a wave in `update` does not move to the next configuration: the following spawns and
   * the next wave's length still come from the same entry.
   */
  lemma WaveEndKeepsConfig(w: Wave, deltaTime: real, now: nat, d: Draws, b: Bounds)
    requires Valid(w) && w.waveTime + deltaTime >= WaveConfigs[w.currentWaveIndex].duration / 1000.0
    ensures var r := Update(w, deltaTime, now, d, b);
      && r.0.waveNumber == w.waveNumber + 1
      && WaveConfigs[r.0.currentWaveIndex] == WaveConfigs[w.currentWaveIndex]
  {
  }

  /** The wave windows of the shipped table: [0, 60 s) is wave 1, [60 s, 150 s) wave 2, later stays on wave 2. */
  lemma WaveWindows(w: Wave, time: real)
    ensures var elapsed := time - w.waveStartTime;
      var r := GetCurrentWave(w, time);
      && (elapsed < 60000.0 ==> r.1.waveNumber == 1 && r.0.currentWaveIndex == 0)
      && (60000.0 <= elapsed < 150000.0 ==> r.1.waveNumber == 2 && r.0.currentWaveIndex == 1)
      && (150000.0 <= elapsed ==> r.1.waveNumber == 2 && r.0 == w)
  {
    assert WindowEnd(0) == 60000.0 && WindowEnd(1) == 150000.0;
  }

  /**
   * The lookup measures time from the wave start, a clock reading: asked about time 60001 a
   * system started later than that still reports wave 1.
   */
  lemma LookupIsRelativeToStart(w: Wave)
    requires w.waveStartTime > 60001.0
    ensures GetCurrentWave(w, 60001.0).1.waveNumber == 1
  {
    WaveWindows(w, 60001.0);
  }

  /** Half-way through the first wave, its progress is one half. */
  lemma HalfwayProgress(w: Wave, now: real)
    ensures var started := StartWave(w, now).0; GetWaveProgress(started, now + 30000.0) == 0.5
  {
  }

  /** The constructor leaves the director spawning, not preparing; only `resetWave` prepares. */
  lemma StateMachine(now: real, later: real)
    ensures var w := Init(now).0;
      && w.waveState == Spawning
      && CompleteWave(w, later).0.waveState == Clearing
      && ClearWave(CompleteWave(w, later).0).waveState == Completed
      && ResetWave(ClearWave(CompleteWave(w, later).0)).waveState == Preparing
      && StartWave(ResetWave(w), later).0.waveState == Spawning
  {
  }

  /** A listener added with `addEventListener` hears `startWave`, and one added with `on` does not. */
  lemma ChannelsAreSeparate(w: Wave, a: ListenerId, b: ListenerId, now: real)
    requires a != b
    requires Listeners(w.eventListeners, WaveStart) == {} && Listeners(w.emitterListeners, WaveStart) == {}
    ensures var w1 := On(AddEventListener(w, WaveStart, a), WaveStart, b);
      var started := StartWave(w1, now);
      Recipients(started.0, started.1[0]) == {a}
  {
  }

  /** Two spawns in the same millisecond get the same id; spawns in different milliseconds do not. */
  lemma SpawnIds(wave: WaveConfig, t1: nat, t2: nat, d1: Draws, d2: Draws, b: Bounds)
    requires SpawnEnemy(wave, t1, d1, b).Some? && SpawnEnemy(wave, t2, d2, b).Some?
    ensures SpawnEnemy(wave, t1, d1, b).value.0.id == SpawnEnemy(wave, t2, d2, b).value.0.id <==> t1 == t2
  {
    if SpawnEnemy(wave, t1, d1, b).value.0.id == SpawnEnemy(wave, t2, d2, b).value.0.id {
      PrefixedInjective("enemy_", t1, t2);
    }
  }

  /** An elite basic enemy in wave 2 has 300 health, 16.5 damage and 132 speed; a wave 1 one has its base stats. */
  lemma SpawnStatsExamples(now: nat, b: Bounds, side: real, offset: real)
    ensures var s := SpawnEnemy(WaveConfigs[1], now, Draws(side, offset, 0.0, 0.05), b).value.0;
      && s.elite && s.stats.health == 300.0 && s.stats.damage == 16.5 && s.stats.moveSpeed == 132.0
      && s.stats.attackSpeed == 1.0 && s.stats.range == 50.0
    ensures var s := SpawnEnemy(WaveConfigs[0], now, Draws(side, offset, 0.5, 0.0), b).value.0;
      && !s.elite && s.stats.health == 100.0 && s.stats.damage == 10.0 && s.stats.moveSpeed == 100.0
  {
    WeightedDraw.ZeroDrawTakesFirst(WaveConfigs[1].enemyTypes);
    ShippedTypesKnown(0, 0.5);
  }

  /** A spawn point is never inside the visible area. */
  lemma SpawnOffScreen(b: Bounds, side: real, offset: real)
    requires Draw(offset) && b.left <= b.right && b.top <= b.bottom
    ensures var p := GetRandomSpawnPosition(b, side, offset);
      !(b.left <= p.x <= b.right && b.top <= p.y <= b.bottom)
  {
  }
}

=== FILE: weighted_draw.dfy ===
/**
 * The weighted enemy-type draw shared by src/core/EnemySpawnSystem.ts (`selectEnemyType`) and
 * src/core/WaveSystem.ts (`selectEnemyType`): a uniform draw scaled by the total weight, from
 * which the weights are subtracted in list order until the remainder is at most 0.
 */
module WeightedDraw {
  import opened Wrappers

  /** One `{ type, weight }` entry. */
  datatype Weighted = Weighted(kind: string, weight: real)

  /** The sum of the first `k` weights, added left to right as `reduce` does. */
  function Prefix(ws: seq<Weighted>, k: nat): real
    requires k <= |ws|
  {
    if k == 0 then 0.0 else Prefix(ws, k - 1) + ws[k - 1].weight
  }

  /** The sum of the weights up to and including entry `j`. */
  function Through(ws: seq<Weighted>, j: nat): real
    requires j < |ws|
  {
    Prefix(ws, j + 1)
  }

  function Total(ws: seq<Weighted>): real {
    Prefix(ws, |ws|)
  }

  predicate NonNegative(ws: seq<Weighted>) {
    forall i :: 0 <= i < |ws| ==> ws[i].weight >= 0.0
  }

  /** The loop from entry `i` on, with `remaining` the draw after the first `i` subtractions. */
  function Scan(ws: seq<Weighted>, i: nat, remaining: real): (r: Option<nat>)
    requires i <= |ws|
    ensures r.Some? ==> i <= r.value < |ws|
    decreases |ws| - i
  {
    if i == |ws| then None
    else
      var rest := remaining - ws[i].weight;
      if rest <= 0.0 then Some(i) else Scan(ws, i + 1, rest)
  }

  /**
   * What the loop computes: the first index at or after `i` whose prefix total reaches the draw
   * `x`, or nothing when no prefix does.
   */
  lemma {:induction false} ScanSpec(ws: seq<Weighted>, i: nat, x: real)
    requires i <= |ws|
    ensures var r := Scan(ws, i, x - Prefix(ws, i));
      && (r.None? <==> forall j :: i <= j < |ws| ==> x > Through(ws, j))
      && (r.Some? ==> x <= Prefix(ws, r.value + 1) && forall j :: i <= j < r.value ==> x > Through(ws, j))
    decreases |ws| - i
  {
    if i < |ws| {
      assert x - Prefix(ws, i) - ws[i].weight == x - Through(ws, i);
      ScanSpec(ws, i + 1, x);
    }
  }

  /** The draw `r ∈ [0, 1)` scaled by the total weight, then scanned from the first entry. */
  function SelectIndex(ws: seq<Weighted>, r: real): (i: Option<nat>)
    ensures i.Some? ==> i.value < |ws|
    ensures i.None? <==> forall j :: 0 <= j < |ws| ==> r * Total(ws) > Through(ws, j)
    ensures i.Some? ==>
      && r * Total(ws) <= Prefix(ws, i.value + 1)
      && forall j :: 0 <= j < i.value ==> r * Total(ws) > Through(ws, j)
  {
    ScanSpec(ws, 0, r * Total(ws));
    Scan(ws, 0, r * Total(ws))
  }

  // ---------------------------------------------------------------- properties

  lemma {:induction false} PrefixMonotone(ws: seq<Weighted>, a: nat, b: nat)
    requires NonNegative(ws) && a <= b <= |ws|
    ensures Prefix(ws, a) <= Prefix(ws, b)
    decreases b - a
  {
    if a < b {
      PrefixMonotone(ws, a, b - 1);
    }
  }

  /** With non-negative weights and a draw in [0, 1], some entry is always chosen: the fallback is dead code. */
  lemma FallbackUnreachable(ws: seq<Weighted>, r: real)
    requires |ws| > 0 && NonNegative(ws)
    requires 0.0 <= r <= 1.0
    ensures SelectIndex(ws, r).Some?
  {
    PrefixMonotone(ws, 0, |ws|);
    var t := Total(ws);
    assert r * t <= t by {
      assert t - r * t == (1.0 - r) * t;
    }
    assert r * t <= Through(ws, |ws| - 1);
  }

  /**
   * With non-negative weights, entry `i` is chosen exactly when the scaled draw falls in its band
   * (Prefix(i), Prefix(i+1)] — the first band is closed below — so each type is drawn with
   * probability proportional to its weight.
   */
  lemma SelectedBand(ws: seq<Weighted>, r: real, i: nat)
    requires NonNegative(ws) && i < |ws|
    ensures SelectIndex(ws, r) == Some(i) <==>
      && r * Total(ws) <= Prefix(ws, i + 1)
      && (i == 0 || Prefix(ws, i) < r * Total(ws))
  {
    var x := r * Total(ws);
    if x <= Prefix(ws, i + 1) && (i == 0 || Prefix(ws, i) < x) {
      forall j | 0 <= j < i
        ensures x > Through(ws, j)
      {
        PrefixMonotone(ws, j + 1, i);
      }
      assert x <= Through(ws, i);
      var k := SelectIndex(ws, r);
      assert k.Some? && k.value <= i;
      NotBefore(ws, x, k.value, i);
    } else if i > 0 {
      assert Through(ws, i - 1) == Prefix(ws, i);
    }
  }

  /** An index whose total reaches `x` is not among those known to fall short of it. */
  lemma NotBefore(ws: seq<Weighted>, x: real, k: nat, i: nat)
    requires k < |ws| && i <= |ws| && x <= Through(ws, k)
    requires forall j :: 0 <= j < i ==> x > Through(ws, j)
    ensures i <= k
  {
  }

  /** A zero draw always takes the first entry, even one of weight 0. */
  lemma ZeroDrawTakesFirst(ws: seq<Weighted>)
    requires |ws| > 0 && NonNegative(ws)
    ensures SelectIndex(ws, 0.0) == Some(0)
  {
    SelectedBand(ws, 0.0, 0);
  }
}

=== FILE: wrappers.dfy ===
/** The optional-value wrapper used wherever the source returns `undefined` or `null`. */
module Wrappers {

  datatype Option<+T> = None | Some(value: T) {

    /** The wrapped value, or `default` when there is none (JavaScript's `x || default` on objects). */
    function GetOr(default: T): T {
      match this
      case Some(v) => v
      case None => default
    }
  }
}
